=== FILE: README.md ===
# kitty socket runtime: a verified model

This project models the sequential core of the kitty socket runtime (Go,
module `github.com/lemoyxk/kitty`) in Dafny, and proves properties of it:

- the 16-byte-header binary frame codec and its streaming reassembler
  (`socket/udp/protocol.go`);
- the server connection table: id allocation, removal, lookup, the actor
  loop's Open/Close/Push events, `Init` defaults and `CheckPath`
  (`socket.go`);
- the legacy `"\r\n"` event framing written by `JsonEmit`/`ProtoBufEmit`
  and taken apart by the read loop (`socket.go`);
- the websocket client's middleware chain, its before → handler → after
  dispatch, `decodeMessage` and its connect/read/heartbeat/reconnect
  lifecycle (`socket/websocket/client/client.go`);
- the older client's `Status`/`Reconnect` flags, `Push` gate, defaults and
  dial URL (`websocket_client.go`);
- route parameters, query values and client-address selection
  (`stream.go`);
- the HTTP client's header and cookie lists (`http/client/info.go`);
- `Ip2long`, `IsLocalIP` and `IsLocalNet` (`utils/ip.go`).

Everything is a pure function over immutable values. Bytes are integers
below 256 (`Bytes.byte`), and Go's `uint32` wrap-around is written
out. A Go panic is a value (`Outcomes.Outcome.Panicked`), not a
precondition, so the callers' failure paths stay in the model. The
transport, the timers and the goroutines become events that a step function
consumes. Every callback the code makes becomes an action in an output list.

Library behaviour the code relies on is modelled from the Go standard
library's documented behaviour:

| library function | model |
|---|---|
| `strconv.Atoi` and `%d` | `Decimal.Atoi`, `Decimal.FormatInt` |
| `strings.ToLower`, ASCII only | `Strings.ToLower` |
| `strings.Contains` | `Strings.Contains` |
| `net.SplitHostPort` | `Stream.SplitHostPort` |
| `textproto.CanonicalMIMEHeaderKey` | `RequestInfo.Canonical` |
| `net.ParseIP` for IPv4, `To4` and `IP.String` | `IpUtil.ParseIP`, `IpUtil.FromSixteen`, `IpUtil.String` |
| `binary.BigEndian` | `Bytes.ReadBE`, `Bytes.WriteBE` |

Where the code and its evident intent disagree, the model carries both: a
member named `…AsWritten` that does what the code does, and a corrected
member that does what the code evidently means (see "## Findings"). The
operations that compose them follow the code:

- `Dispatch.DecodeMessage` takes the client's protocol decoder as a
  parameter and passes its panic on. The websocket client's protocol
  (`websocket2.DefaultProtocol`) is not part of this model:
  `Dispatch.DecodeMessageOfEncoded` and `Session.HeartBeatIsPing` take the
  UDP codec as the protocol, and so give the dispatch
  `Frame.DecodeAsWritten`, which panics on a route of 240 bytes or more
  (finding 1). `Frame.Decode`, which fails closed instead, is the
  corrected codec that the round-trip lemmas are about.
- The read loop (`LegacyFrame.Receive`) uses `LegacyFrame.ParseAsWritten`,
  which panics on an event of 252 bytes or more (finding 2);
  `LegacyFrame.Parse` is the corrected parse.
- The actor loop (`Registry.Step`, `Registry.Run`) registers connections
  with `Registry.AddConnectAsWritten`, which drops a new connection after an
  id collision (finding 3); `Registry.AddConnect` is the corrected
  allocator.
- The older client's cleanup is modelled both ways: the written
  `LegacyClient.DisconnectAsWritten` never reconnects (finding 4), the
  corrected `LegacyClient.Disconnect` reconnects when `Reconnect` was set.
- `IpUtil.IsLocalIPAsWritten` and `IpUtil.IsLocalNetAsWritten` test the
  address text as a substring (finding 5); `IpUtil.IsLocalNet` tests
  network membership.

Two more places follow the code without a corrected twin: the legacy
parser accepts only the Json and ProtoBuf format bytes, not a text format,
and an exhausted id space is only printed, not surfaced: the connection is
left unregistered with id 0.

The modules are:

| module | contents |
|---|---|
| `Outcomes` | Option, Result, Outcome (returned or panicked), zero-value defaults |
| `Bytes` | bytes, u32 wrap, big-endian read and write, int64 ↔ uint64 |
| `Decimal` | `%d` text and `strconv.Atoi` |
| `Strings` | ASCII case, index search, substring test, split and join |
| `Frame` | udp/protocol.go `Decode`, `Encode`, `packBin`, `getLen`, `isHeaderInvalid` |
| `Reassembly` | udp/protocol.go `Reader` |
| `Registry` | socket.go `addConnect`, `delConnect`, `GetConnection`, the actor loop, `Push`, `CheckPath`, `Init` |
| `LegacyFrame` | socket.go `JsonEmit`/`ProtoBufEmit` framing and the read loop's parse |
| `Dispatch` | client.go `middleware`, `handler`, `decodeMessage` |
| `Session` | client.go `Connect`, `reconnecting` and the lifecycle |
| `LegacyClient` | websocket_client.go |
| `Stream` | stream.go |
| `RequestInfo` | http/client/info.go |
| `IpUtil` | utils/ip.go |

## Model

| member | source | states |
|---|---|---|
| Bytes.ReadWriteBE | socket/udp/protocol.go:176 | a number below 256^w written big-endian in w bytes reads back as itself |
| Bytes.WriteReadBE | socket/udp/protocol.go:149 | reading w bytes big-endian and writing the number back in w bytes restores the bytes |
| Bytes.ReadBEBound | socket/udp/protocol.go:149 | w bytes read big-endian give a number below 256^w |
| Bytes.ReadWriteBEAtMost | socket/udp/protocol.go:176 | `PutUint32` of a length that does not fit keeps only low bytes, so it reads back at most the length |
| Bytes.U64RoundTrip | socket/udp/protocol.go:179 | `int64(uint64(id))` is the identity on every int64 |
| Bytes.IncU32 | socket.go:278 | u32 increment adds one, except that the largest value wraps to 0 |
| Bytes.DecU32 | socket.go:428 | u32 decrement subtracts one, except that 0 wraps to the largest value |
| Decimal.NatDigits | websocket_client.go:208 | `%d` of a natural is a non-empty digit string without a leading zero whose value is the number |
| Decimal.FormatInt | websocket_client.go:208 | `%d` text is non-empty and starts with '-' exactly for negative numbers |
| Decimal.AtoiFormatInt | stream.go:47 | `strconv.Atoi` reads back every int64 written with `%d` |
| Decimal.AtoiRejects | stream.go:47-50 | `strconv.Atoi` refuses text with a non-digit after an optional sign |
| Strings.ToLower | socket.go:112-113 | lower-casing keeps the length and maps each character through ASCII `Lower` |
| Strings.ToLowerEqualFold | socket.go:110-116 | two paths have equal lower-case forms exactly when they are equal ignoring ASCII case |
| Strings.Contains | utils/ip.go:77 | `strings.Contains` holds exactly when the text occurs at some position |
| Strings.JoinSplit | utils/ip.go:40 | joining the dot-separated fields of a text gives the text back |
| Strings.SplitJoinAll | utils/ip.go:40 | splitting fields joined by a separator they do not contain gives the fields back |
| Frame.GetLen | socket/udp/protocol.go:142-152 | the frame length is 0 for fewer than 16 bytes and otherwise 16 plus the route length byte plus the big-endian body length |
| Frame.GetLenPackBin | socket/udp/protocol.go:142-186 | a packed frame declares 16 + route length mod 256 + body length when the body is below 2^32 bytes, never more than its size, and exactly its size when the route fits a byte and the body length fits 32 bits |
| Frame.IsHeaderValid | socket/udp/protocol.go:114-140 | a header is accepted only with at least 16 bytes, two zero reserved bytes and one of the kinds Bin, Ping, Pong, Open and Close, so never with the Unknown kind |
| Frame.U32AtIsReadBE | socket/udp/protocol.go:149 | the body length field is the big-endian reading of bytes 4..7 |
| Frame.HeaderOfPrefix | socket/udp/protocol.go:114-152 | header validity and frame length depend only on the first 16 bytes |
| Frame.PackBin | socket/udp/protocol.go:154-186 | the packed frame has length 16 + route + body, zero reserved bytes, the Bin kind, the route length byte, the big-endian body length and id, then route, then body |
| Frame.Encode | socket/udp/protocol.go:49-59 | Ping and Pong give the fixed frames, every kind but Bin, Ping and Pong gives nil, Bin gives a frame of the full length |
| Frame.Decode | socket/udp/protocol.go:35-47 | an ill-formed frame decodes to the zero message; a well-formed one to its kind, its id, a route of the declared length and the remaining bytes as body |
| Frame.DecodeAsWritten | socket/udp/protocol.go:35-47 | as written, anything that is not a well-formed frame decodes to the zero message, and the decoder panics exactly on a well-formed frame whose route length byte is 240 or more |
| Frame.DecodeAsWrittenAgrees | socket/udp/protocol.go:35-47 | the byte-arithmetic slice agrees with the intended decoding for route lengths below 240 and panics from 240 on |
| Frame.PackBinWellFormed | socket/udp/protocol.go:154-186 | a frame packed from a route of at most 255 bytes and a body below 2^32 bytes passes the header and length checks |
| Frame.DecodeEncodeBin | socket/udp/protocol.go:35-59 | decoding an encoded Bin message gives back its id, route and body |
| Frame.EncodeDecodeBin | socket/udp/protocol.go:35-47 | re-encoding a decoded well-formed Bin frame gives the same bytes |
| Frame.DecodeEncodeOversized | socket/udp/protocol.go:173-176 | a route over 255 bytes or a body of 2^32 bytes or more is truncated in the header, so the frame decodes to the zero message |
| Frame.ControlFrames | socket/udp/protocol.go:22-59 | Ping and Pong encode to the fixed frames, which with Open and Close decode to their kind with id 0 and no route or body; Open and Close encode to nil |
| Reassembly.Feed | socket/udp/protocol.go:67-110 | one reader call emits the complete frames at the front of buffer + chunk, keeps the reader invariant (pending length 0, or the buffer's frame length and larger than the buffer), and on a bad header empties the buffer and signals the error |
| Reassembly.FeedAll | socket/udp/protocol.go:61-110 | feeding chunks one after another emits exactly the frames of their concatenation, for a stream with no refused header, and keeps the reader invariant |
| Reassembly.SplitFramesWellFormed | socket/udp/protocol.go:84-102 | every emitted frame has a valid header and exactly its declared length |
| Reassembly.SplitFramesCover | socket/udp/protocol.go:96-105 | without a bad header, the emitted frames followed by the kept bytes are the input |
| Reassembly.SplitFramesRest | socket/udp/protocol.go:84-99 | after a bad header nothing is kept; otherwise the kept bytes are too short for a frame |
| Reassembly.SplitAppend | socket/udp/protocol.go:69 | appending bytes continues the split from the bytes kept before |
| Reassembly.SplitFailedPrefix | socket/udp/protocol.go:86-91 | once a bad header is met, later bytes change neither the error nor the frames emitted |
| Reassembly.SplitOfFrames | socket/udp/protocol.go:76-109 | the concatenation of well-formed frames splits into exactly those frames with nothing kept |
| Reassembly.ChunkingIndependence | socket/udp/protocol.go:67-110 | however a stream of well-formed frames is cut into chunks, the reader emits exactly those frames, in order |
| Registry.NextFd | socket.go:277-283 | the next id is the counter plus one, never 0: after the largest u32 it is 1 |
| Registry.ProbeAsWrittenGivesUp | socket.go:293-309 | the fallback loop as written probes the occupied counter every time and ends in the overflow exit |
| Registry.ScanFree | socket.go:290-309 | the intended fallback finds the least free id above its start, or reports that all are taken |
| Registry.AddConnectAsWrittenCollision | socket.go:289-312 | on a collision the connection is not stored, gets id 0, and only the counter advances |
| Registry.AddConnectAsWrittenLosesConnection | socket.go:302 | with id 1 taken and the counter at 0, a new connection is dropped although id 2 is free |
| Registry.AddConnect | socket.go:275-317 | the table stays free of 0, the count is unchanged, a free next id is used, after a collision the least free id is used, and only an exhausted table leaves the connection without an id |
| Registry.AddConnectRegistersAfterCollision | socket.go:302-305 | the corrected fallback stores the new connection under id 2 in that same case |
| Registry.AddConnectAgreesWhenFree | socket.go:285-288 | when the next id is free the corrected and the written `addConnect` agree |
| Registry.DelConnect | socket.go:319-321 | removal drops only the given key, leaves the other entries and the counters alone, and does nothing for an absent key |
| Registry.GetConnection | socket.go:335-341 | lookup finds a connection exactly when the id is in the table, and returns its entry |
| Registry.AddThenGet | socket.go:335-341 | after adding, the new id looks up the new connection and every earlier id still finds its old entry |
| Registry.DelThenGet | socket.go:319-341 | after removal the removed id finds nothing and every other id finds what it found before |
| Registry.PushRequest | socket.go:176-190 | a push request carries the id and message, with message type 0 replaced by the text type |
| Registry.Step | socket.go:417-440 | an Open bumps the count and, on a free next id, stores the connection there and announces it, else stores nothing and announces id 0; a Close removes the id, decrements the count and calls `OnClose`; a Push changes nothing and ends with a reply, after one write when the id is known |
| Registry.StepValid | socket.go:417-440 | no actor event ever stores a connection under id 0, with `addConnect` as written registering each opened connection |
| Registry.OpenOnCollision | socket.go:417-440 | opening on a taken next id leaves the table alone, advances the count and announces the connection to `OnOpen` with id 0 |
| Registry.PushEffects | socket.go:431-437 | a push changes no state; to an unknown id it answers "client <fd> is close" and writes nothing, otherwise it writes once and answers with the write's error |
| Registry.CloseUnknownStillCounts | socket.go:425-430 | closing an unknown id leaves the table unchanged but still decrements the count |
| Registry.OpenThenPush | socket.go:420-437 | an opened connection is announced to `OnOpen` with its new id, and a push to that id writes to it |
| Registry.StepCount | socket.go:420-430 | each event moves the count by +1 for Open, -1 for Close and 0 for Push, modulo 2^32 |
| Registry.RunTallies | socket.go:420-430 | the count after a run depends only on the events, never on what the table held |
| Registry.TalliesClosed | socket.go:420-430 | tallying events from a start count gives the start plus the opens minus the closes, modulo 2^32 |
| Registry.Run | socket.go:417-440 | the actor serves its events one at a time, in arrival order |
| Registry.RunAppend | socket.go:417-440 | one more event is one more `Step` on the socket the earlier events left |
| Registry.RunCount | socket.go:417-440 | after any event sequence the count is the start plus the opens minus the closes, modulo 2^32, whatever the table did |
| Registry.RunValid | socket.go:417-440 | no event sequence of the actor loop as written ever stores a connection under id 0 |
| Registry.CheckPath | socket.go:110-116 | paths match exactly, or equal ignoring ASCII case when `IgnoreCase` is set |
| Registry.CheckPathEquivalence | socket.go:110-116 | path matching is reflexive, symmetric and transitive, and exact matching implies case-insensitive matching |
| Registry.Init | socket.go:347-396 | every zero setting gets its default (30, 20, 2, 4096, 4096, 1024) and every missing callback a default; each setting and callback already given is kept |
| Registry.InitKeepsSetFields | socket.go:347-396 | a configuration with every setting and callback given is left as it is, and a second `Init` leaves the configuration unchanged |
| LegacyFrame.EventOrRoot | socket.go:231-233 | an empty event name becomes "/" and any other is kept |
| LegacyFrame.Emit | socket.go:229-236 | the legacy frame is CR, LF, the event length byte, the format byte, the event, then the payload |
| LegacyFrame.JsonEmit | socket.go:249-273 | a marshalling error is returned as "protobuf error: …"; otherwise a text push of the Json-framed payload to the given id |
| LegacyFrame.ProtoBufEmit | socket.go:227-247 | a marshalling error is returned; otherwise a binary push of the ProtoBuf-framed payload to the given id |
| LegacyFrame.Parse | socket.go:494-531 | an empty message is dropped; a message with CR LF, a Json or ProtoBuf byte and its whole event is routed with length byte 0 meaning "/"; the rest goes to `OnMessage` raw |
| LegacyFrame.ParseAsWritten | socket.go:494-531 | as written, an empty message is dropped and nothing else is, and the parse panics exactly on a framed message with a length byte of 252 or more that is long enough for its event |
| LegacyFrame.ParseAsWrittenAgrees | socket.go:519-531 | the byte-arithmetic slicing agrees with the intended parse for length bytes below 252 |
| LegacyFrame.ParseAsWrittenSound | socket.go:494-531 | the parse as written panics exactly on a framed message with a length byte of 252 or more that is long enough, and otherwise returns the corrected parse |
| LegacyFrame.ParseEmit | socket.go:494-531 | parsing an emitted legacy frame gives back its event (or "/"), payload and format |
| LegacyFrame.EmitParse | socket.go:519-531 | re-emitting a routed parse with a non-zero length byte gives the same bytes |
| LegacyFrame.ParseAsWrittenEmit | socket.go:529-530 | as written, events of up to 251 bytes come back exactly |
| LegacyFrame.ParseAsWrittenPanicsOnLongEvent | socket.go:529-530 | as written, a 252-byte event makes the slice bounds cross and the goroutine panics |
| LegacyFrame.ParseEmitLongEvent | socket.go:235 | a 256-byte event name is written with length byte 0 and therefore read back as "/" |
| LegacyFrame.Receive | socket.go:492-539 | the read loop panics exactly when a framed message has a length byte of 252 or more and is long enough for the crossed slice; otherwise raw messages go to `OnMessage` when it is set, routed ones to the router with the parsed event, data and format, and the rest nowhere |
| LegacyFrame.JsonEmitReceive | socket.go:494-536 | what `JsonEmit` sends for an event of at most 251 bytes the read loop hands to the router with the same event and payload; an event of 252 to 255 bytes makes the read loop panic |
| Dispatch.Nest | socket/websocket/client/client.go:292-298 | the chain's layers from outside in are the registered middleware in order |
| Dispatch.Middleware | socket/websocket/client/client.go:292-298 | the wrapping loop from the last middleware down builds that chain, so `middle[0]` is outermost |
| Dispatch.EnterInOrder | socket/websocket/client/client.go:292-297 | middleware is entered in registration order, stops at the first that does not call next, and the handler runs exactly when all pass |
| Dispatch.RunStages | socket/websocket/client/client.go:321-345 | stages run in order up to and including the first that fails; with no failure all run |
| Dispatch.RunStagesAppend | socket/websocket/client/client.go:321-345 | running two lists of stages back to back is running the first and, only if it succeeds, the second |
| Dispatch.Handle | socket/websocket/client/client.go:300-347 | at most one error is reported; with no router or no route "<event> 404 not found" is reported and no stage runs; otherwise a prefix of before, handler, after runs |
| Dispatch.Resolve | socket/websocket/client/client.go:302-310 | no route is found exactly when there is no router or the router has no match for the event |
| Dispatch.Unrouted | socket/websocket/client/client.go:302-315 | without a router, or without a match, the handler reports "<event> 404 not found" when `OnError` is set and runs no stage |
| Dispatch.HandleStopsAtFirstError | socket/websocket/client/client.go:321-345 | the stages run are those up to the first error, which alone is reported when `OnError` is set |
| Dispatch.DecodeMessage | socket/websocket/client/client.go:261-290 | a decoder panic propagates and nothing else panics; a decoded message is dispatched as `DispatchDecoded` says |
| Dispatch.DispatchDecoded | socket/websocket/client/client.go:264-289 | `OnMessage` sees the raw message first; the Unknown kind goes to `OnUnknown` and returns nil; the Ping and Pong kinds return their handler's result; only other kinds dispatch (kinds as the UDP codec numbers them) |
| Dispatch.DecodeMessageDispatchesOnce | socket/websocket/client/client.go:286-289 | a decoded data message is dispatched exactly once as a stream of its route, body and id |
| Dispatch.DecodeMessageOfEncoded | socket/websocket/client/client.go:261-290 | with the UDP codec as the protocol, an encoded Bin message with a route under 240 bytes is dispatched with the route, body and id it was encoded from, and one with a route of 240 to 255 bytes panics |
| Session.Configure | socket/websocket/client/client.go:110-184 | a missing host, `OnOpen`, `OnClose` or `OnError` panics in that order; zero fields get 2s, 1024, 1024, 15s, 30s, 1s and default protocol, heartbeat, ping and pong hooks; fields and hooks already set are kept |
| Session.ConfigureStable | socket/websocket/client/client.go:100-105 | a reconnect re-runs `Connect` on the configured client, which changes nothing |
| Session.HeartBeatIsPing | socket/websocket/client/client.go:164-168 | with the UDP codec as the protocol, the default heartbeat sends the fixed ping frame, which the decoder as written decodes as a ping |
| Session.Reconnecting | socket/websocket/client/client.go:100-105 | the client sleeps the reconnect interval and dials again exactly when `Reconnect` is set, and otherwise finishes |
| Session.DialUrlConfigured | socket/websocket/client/client.go:110-193 | the configured client dials scheme "://" host and its path, "/" when none was given |
| Session.ReadLoopExit | socket/websocket/client/client.go:236-258 | leaving the read loop stops the ticker, closes, calls `OnClose`, and redials exactly when `Reconnect` is set; a decode error is reported first |
| Session.Step | socket/websocket/client/client.go:186-258 | a finished client does nothing; `OnOpen` is called exactly on a successful dial; a redial happens only with `Reconnect` set; a heartbeat goes out only while the ticker runs, and the ticker runs only when `AutoHeartBeat` is set or it already ran |
| Session.Run | socket/websocket/client/client.go:186-258 | the events are served in order, and once finished the client does nothing more |
| Session.DialFailure | socket/websocket/client/client.go:193-197 | a dial error is reported and followed by a new dial exactly when `Reconnect` is set |
| Session.HeartBeatFailure | socket/websocket/client/client.go:226-234 | a failed heartbeat is reported, the connection closed and the ticker loop left |
| Session.NoHeartBeatWithoutAuto | socket/websocket/client/client.go:219-234 | without `AutoHeartBeat` no event sequence sends a heartbeat |
| Session.NoRedialWithoutReconnect | socket/websocket/client/client.go:100-105 | without `Reconnect` no event sequence dials again |
| LegacyClient.Configure | websocket_client.go:148-199 | zero fields get 127.0.0.1, 1207, "ws", "/", 2, 2 MiB, 2 MiB, 15 and 1; a missing callback panics, and the message names the first missing one in the order `OnOpen`, `OnClose`, `OnError` |
| LegacyClient.DialUrl | websocket_client.go:208 | the dial address is scheme "://" host ":" decimal port and path |
| LegacyClient.DialUrlConfigured | websocket_client.go:148-208 | after the defaults the dial address is the scheme or "ws", "://", the host or 127.0.0.1, ":", the port or 1207 in decimal, and the path or "/" |
| LegacyClient.ConfigureIdempotent | websocket_client.go:148-199 | applying the defaults twice is applying them once |
| LegacyClient.DefaultUrl | websocket_client.go:208 | a client with only callbacks set dials "ws://127.0.0.1:1207/" |
| LegacyClient.Push | websocket_client.go:106-116 | a closed client answers "client is close" and writes nothing; an open one writes once and returns the write's error |
| LegacyClient.Close | websocket_client.go:118-121 | `Close` clears `Reconnect` and closes, and panics when no connection was ever made |
| LegacyClient.Reconnecting | websocket_client.go:123-129 | one reconnect is scheduled, after the reconnect interval, exactly when `Reconnect` is set |
| LegacyClient.CatchError | websocket_client.go:131-138 | after a panic in `Connect` the error goes to `OnError` first, and a reconnect is scheduled exactly when `Reconnect` holds |
| LegacyClient.ConfigurePanicReported | websocket_client.go:131-174 | a missing-callback panic in `Connect` is reported through `OnError` when that is set (so it names `OnOpen` or `OnClose`), and a reconnect after the interval as the caller set it is scheduled exactly when `Reconnect` holds |
| LegacyClient.Dialed | websocket_client.go:213-234 | a successful dial sets `Status` before `OnOpen` is launched; with `AutoHeartBeat` a missing heartbeat becomes the built-in one and a given one is kept; without it the ticker is stopped and nothing else in the configuration changes |
| LegacyClient.PushAfterDial | websocket_client.go:106-116 | after a successful dial every push is written and returns the write's error |
| LegacyClient.DefaultHeartBeat | websocket_client.go:226-231 | the default heartbeat pushes a ping with no payload |
| LegacyClient.DialedHeartBeatPings | websocket_client.go:226-231 | a dialed client with `AutoHeartBeat` and no heartbeat of its own writes a ping with no payload on each tick |
| LegacyClient.DisconnectAsWrittenNeverReconnects | websocket_client.go:283-294 | as written, the cleanup after a read or heartbeat failure never schedules a reconnect |
| LegacyClient.Disconnect | websocket_client.go:283-294 | the intended cleanup clears `Status`, stops the ticker, closes, calls `OnClose`, and reconnects exactly when `Reconnect` was set |
| LegacyClient.DisconnectAgrees | websocket_client.go:283-294 | the written and the intended cleanup differ only in the reconnect |
| LegacyClient.PushAfterDisconnect | websocket_client.go:106-110 | after the cleanup every push is refused |
| Stream.ByName | stream.go:29-36 | the value at the first matching key, "" when no key matches, and a panic when the values run out |
| Stream.Get | stream.go:188-198 | a present key gives its stored string, a missing one the empty value, never nil |
| Stream.Int | stream.go:46-53 | the int64 `strconv.Atoi` reads, or 0 when it refuses the text |
| Stream.GetInt | stream.go:46-57 | a value written with `%d` reads back as the number; a missing one as 0 and "" |
| Stream.String | stream.go:55-57 | the text a value holds: the stored parameter, or "" for a missing key, never nil |
| Stream.SplitHostPortJoin | stream.go:91 | splitting "host:port" for a plain host and port gives them back |
| Stream.SplitHostPortJoinBracketed | stream.go:91 | splitting "[host]:port" gives back a host that may hold colons, without its brackets, and the port |
| Stream.SplitHostPortIPv6Loopback | stream.go:91 | "[::1]:8080" splits to host "::1" and port "8080" |
| Stream.IP | stream.go:82-99 | a non-empty X-Real-IP wins, then a non-empty X-Forwarded-For, then the peer's host ("" when it does not split); whichever is chosen, "::1" is reported as "127.0.0.1", and "::1" is never returned |
| Stream.IPOfIPv6Loopback | stream.go:91-96 | a peer "[::1]:port" with no proxy headers is reported as 127.0.0.1, whatever the port |
| Stream.IPOfPeer | stream.go:82-99 | with no proxy headers, a peer "host:port" of a plain host is reported as that host |
| RequestInfo.CanonicalFrom | http/client/info.go:67 | header key canonicalisation keeps the length and the dashes, upper-cases the first letter and each letter after a dash, and lower-cases the others |
| RequestInfo.CanonicalIdempotent | http/client/info.go:81 | canonicalising a canonical key changes nothing |
| RequestInfo.CanonicalContentType | http/client/info.go:74 | "content-type" canonicalises to "Content-Type" |
| RequestInfo.Empty | http/client/info.go:22-34 | a fresh request has as many header values as keys |
| RequestInfo.Progress | http/client/info.go:36-39 | sets the progress and nothing else |
| RequestInfo.Timeout | http/client/info.go:41-44 | sets the client timeout and nothing else |
| RequestInfo.KeepAlive | http/client/info.go:52-55 | sets the dialer keep-alive and nothing else |
| RequestInfo.SetBasicAuth | http/client/info.go:57-61 | sets the user name and password and nothing else |
| RequestInfo.SetCookies | http/client/info.go:92-95 | replaces the cookie list and nothing else |
| RequestInfo.SettersCommute | http/client/info.go:36-61 | setters of different fields commute, the last timeout wins, and they keep the header lists in step |
| RequestInfo.SetHeaders | http/client/info.go:63-71 | the old headers are dropped and each map entry yields one canonical key with its value, in iteration order; nothing else changes |
| RequestInfo.AddHeader | http/client/info.go:73-77 | one canonical key and one value are appended; both lists grow by one and stay in step |
| RequestInfo.FindHeader | http/client/info.go:80-85 | the first index whose key is canonically equal, or none |
| RequestInfo.SetHeader | http/client/info.go:79-90 | the value at the first canonically equal key is replaced, otherwise the key as given and the value are appended; the lists stay in step, and a value list shorter than the keys panics |
| RequestInfo.SetHeaderThenLookup | http/client/info.go:79-90 | after setting, a lookup of the key finds the value just set |
| RequestInfo.FindHeaderAppend | http/client/info.go:87-89 | a key appended when absent is found at the new last index |
| RequestInfo.SetHeaderIdempotent | http/client/info.go:79-90 | setting the same header twice is setting it once |
| RequestInfo.AddThenSetHeader | http/client/info.go:73-90 | setting a header just added replaces the added value |
| RequestInfo.FindCookie | http/client/info.go:98-103 | the first cookie with the same text form, or none |
| RequestInfo.AddCookie | http/client/info.go:97-106 | the first cookie with the same text form is replaced, otherwise the cookie is appended; the list grows by at most one |
| RequestInfo.AddCookieDistinct | http/client/info.go:97-106 | cookies with distinct text forms stay distinct, and adding the same cookie twice is adding it once |
| IpUtil.FromSixteen | utils/ip.go:44 | a 16-byte address has an IPv4 form exactly when it starts with the IPv4-in-IPv6 prefix, and that form is its last four bytes |
| IpUtil.ParseOctet | utils/ip.go:40 | a dotted-quad field parses exactly when it is one to three digits, without a leading zero, at most 255 |
| IpUtil.ParseIP | utils/ip.go:40 | text with neither a dot nor a colon is not an address |
| IpUtil.ParseFormatIPv4 | utils/ip.go:40 | every IPv4 address's text parses back to it |
| IpUtil.FormatParseIPv4 | utils/ip.go:77 | a parsed dotted quad prints as the text it came from |
| IpUtil.Ip2long | utils/ip.go:39-46 | an unparsable text gives 0, an IPv6 address without an IPv4 form panics, and a.b.c.d gives a·2^24 + b·2^16 + c·2^8 + d |
| IpUtil.Ip2longBytes | utils/ip.go:44-45 | the number written big-endian in four bytes is the address's bytes |
| IpUtil.Ip2longOfText | utils/ip.go:39-46 | the text of a.b.c.d converts to a·2^24 + b·2^16 + c·2^8 + d, and text with no dot or colon to 0 |
| IpUtil.String | utils/ip.go:77 | a missing address prints "<nil>", an IPv4 one as its dotted quad, an IPv6 one with colons and no trailing colon |
| IpUtil.LocalNetworksLayout | utils/ip.go:52-72 | the network list is 10/8, 169.254/16, the sixteen 172.x.0.0/12 strings and 192.168/16 |
| IpUtil.NetworkCharacters | utils/ip.go:52-72 | every network string is made of digits, dots and a slash |
| IpUtil.AbsentByCharacter | utils/ip.go:76-80 | a text holding any other character occurs in no network string |
| IpUtil.IsLocalNetAsWrittenNonIPv4 | utils/ip.go:74-83 | as written, a missing or IPv6 address is local exactly when it is loopback |
| IpUtil.IsLocalIPUnparsable | utils/ip.go:48-50 | unparsable text is never local, since "<nil>" occurs in no network string |
| IpUtil.LoopbackIsLocalAsWritten | utils/ip.go:82 | every 127.x.y.z address is local |
| IpUtil.NetworkAddressIsLocalAsWritten | utils/ip.go:76-79 | as written, 10.0.0.0 is local because its text occurs in "10.0.0.0/8" |
| IpUtil.PublicAddressLocalAsWritten | utils/ip.go:77 | as written, the public 72.16.0.0 is local because its text occurs inside "172.16.0.0/12" |
| IpUtil.PrivateAddressesNotLocalAsWritten | utils/ip.go:77 | as written, the private 10.1.2.3 and 192.168.1.1 are not local |
| IpUtil.InNetwork12 | utils/ip.go:55-70 | an address is in a listed 172.x.0.0/12 network exactly when it starts 172.16 to 172.31 |
| IpUtil.InLocalRangeSound | utils/ip.go:52-72 | an address in a listed network starts 10, 169.254, 172.16 to 172.31 or 192.168 |
| IpUtil.InLocalRangeComplete | utils/ip.go:52-72 | every address starting that way is in a listed network |
| IpUtil.IsLocalNetRanges | utils/ip.go:74-83 | the intended `IsLocalNet` holds for a.b.c.d exactly when it starts 10, 169.254, 172.16 to 172.31, 192.168 or 127 |
| IpUtil.IsLocalNetCorrects | utils/ip.go:74-83 | the intended test calls 10.1.2.3 and 192.168.1.1 local and 72.16.0.0 not, where the written one does the opposite |
| IpUtil.IsLocalNetAgreesOffIPv4 | utils/ip.go:74-83 | for missing and IPv6 addresses the written and the intended test agree |

## Left out

- Transport I/O (websocket upgrade, dial, `ReadMessage`, `WriteMessage`, read deadlines, ping handlers): replaced by the events and results they deliver; a write's error is a parameter.
- Concurrency: the channel actor of socket.go becomes a sequential step function; the goroutine per message, the mutexes and the ticker goroutines are left out, and a callback launched with `go` is an action in the output list.
- Timers: `time.Sleep`, `time.AfterFunc` and the ticker become `Sleep`, `ScheduleConnect` and `Tick` events or actions.
- The trie router (`Router.getRoute`, `ParseParams`) is a parameter of the dispatch model, and so is the client's `websocket2.Protocol` decoder in `Dispatch.DecodeMessage`.
- Dispatch.DecodeMessageOfEncoded, Session.HeartBeatIsPing, Dispatch.DispatchDecoded: `websocket2.DefaultProtocol` and the constants `socket.BinData`, `socket.PingData`, `socket.PongData` and `socket.Unknown` are not part of this model; the protocol is taken to be the UDP codec (`Frame.Encode`, `Frame.DecodeAsWritten`) and the constants to equal its Bin, Ping, Pong and Unknown kinds, so what these members say about the 240-byte route limit holds for the client only if its protocol is that codec.
- The `socket.*` kind constants are not shown: Bin is taken as 2 and Unknown as 0, distinct from Open 3, Close 4, Ping 9 and Pong 10.
- Payload encoding (`json.Marshal`, `jsoniter`, `proto.Marshal`): payloads are opaque bytes, and a marshalling result is a parameter.
- socket.go `JsonEmitAll`, `ProtoBufEmitAll` and `GetConnections`: they iterate a `sync.Map` in unspecified order; the single-connection operations are modelled.
- socket.go `Connection.IP`, stream.go `Json`, `End` and `Parse*`, and info.go `Json`, `Query`, `Form`, `Multipart` and `Proxy`: they depend on HTTP response writing, body parsers, `url.Parse` and an unseen `getRequest`.
- socket/websocket/client/async.go: a channel and `time.After` race over a router that is not shown.
- websocket_client.go `Pack`/`UnPack`, `JsonEmit`, `ProtoBufEmit` and its read-loop goroutine: the framing functions are not shown. The loop's `break` on a ping or pong, and a heartbeat `break` that leaves only the `select`, are not modelled.
- utils/ip.go `GetLocalhostIp`: network-interface enumeration with a global cache.
- logger/log.go and example/main.go: logging and application wiring.
- IpUtil.ParseIP: IPv6 text parsing is a parameter; only the IPv4 dotted-quad grammar is written out.
- Dispatch.EnterInOrder: each middleware is modelled as either calling `next` once or stopping; a Go middleware that calls `next` twice, or does more work after `next` returns, is not modelled.
- IpUtil.String: an IPv6 address prints as its eight hex groups separated by colons, without `::` compression and without dropping leading zero groups; only that it has a colon and does not end in one is stated.
- Strings.ToLower: ASCII only, while Go's `strings.ToLower` also maps non-ASCII letters.
- RequestInfo.Canonical: works on characters rather than on the bytes of their UTF-8 encoding.
- RequestInfo.SetHeaders: the Go map's iteration order is unspecified, so the order is a parameter.
- Session and LegacyClient: durations are plain integers (nanoseconds in `Session`, seconds in `LegacyClient`).

## Findings

| source | as written | input that shows it | evidently intended | confidence | as-written member | corrected member |
|---|---|---|---|---|---|---|
| socket/udp/protocol.go:46 | `HeadLen+message[3]` is computed in bytes, so it wraps for route lengths of 240 or more, and the slice bounds cross | the Bin frame `Encode(Bin, 0, 240 × 'a', [])` | decode the route from its real length, as `packBin` wrote it | not executed | Frame.DecodeAsWritten, Frame.DecodeAsWrittenPanicsOnLongRoute | Frame.Decode, Frame.DecodeEncodeBin |
| socket.go:529-530 | `4+message[2]` and `message[2]+4` are computed in bytes, so an event of 252 bytes or more makes the slice bounds cross in the read goroutine | `JsonEmit` of a 252-byte event | slice from the real event length | not executed | LegacyFrame.ParseAsWritten, LegacyFrame.ParseAsWrittenPanicsOnLongEvent | LegacyFrame.Parse, LegacyFrame.ParseEmit |
| socket.go:302 | the fallback loop probes `socket.Fd`, which is known to be taken, instead of `maxFd` | table {1}, counter 0: the new connection is dropped with id 0 | probe `maxFd` and store the connection under the first free id | not executed | Registry.AddConnectAsWritten, Registry.AddConnectAsWrittenLosesConnection | Registry.AddConnect, Registry.AddConnectRegistersAfterCollision |
| websocket_client.go:290-294 | `Close()` sets `Reconnect` to false before `reconnecting()` reads it | any read failure with `Reconnect` set | reconnect when `Reconnect` was set before the cleanup | not executed | LegacyClient.DisconnectAsWritten, LegacyClient.DisconnectAsWrittenNeverReconnects | LegacyClient.Disconnect, LegacyClient.DisconnectAgrees |
| utils/ip.go:74-83 | membership is a substring test of the address text in the network text | 192.168.1.1 is not local; 72.16.0.0 is local | test membership of the address in each listed network | not executed | IpUtil.IsLocalNetAsWritten, IpUtil.IsLocalNetCorrects | IpUtil.IsLocalNet, IpUtil.IsLocalNetRanges |

=== FILE: bytes.dfy ===
/** Fixed-width unsigned integers and big-endian byte strings, as Go's
    `byte`, `uint32`, `uint64`, `int64` and `encoding/binary.BigEndian` use them. */
module Bytes {

  type byte = x: int | 0 <= x < 256

  type u32 = x: int | 0 <= x < 0x1_0000_0000

  type i64 = x: int | -0x8000_0000_0000_0000 <= x < 0x8000_0000_0000_0000

  const TWO_32: int := 0x1_0000_0000
  const TWO_63: int := 0x8000_0000_0000_0000
  const TWO_64: int := 0x1_0000_0000_0000_0000

  /** 256 to the power `w`: one more than the largest value `w` bytes hold. */
  function Pow256(w: nat): (r: nat)
    ensures r >= 1
  {
    if w == 0 then 1 else 256 * Pow256(w - 1)
  }

  /** The value of a big-endian byte string. */
  function ReadBE(s: seq<byte>): nat
  {
    if |s| == 0 then 0 else ReadBE(s[..|s| - 1]) * 256 + s[|s| - 1]
  }

  /** The low `w` bytes of `n`, most significant first; a value too wide is
      truncated, as Go's `PutUint32(b, uint32(n))` does. */
  function WriteBE(n: nat, w: nat): (r: seq<byte>)
    ensures |r| == w
  {
    if w == 0 then [] else WriteBE(n / 256, w - 1) + [n % 256]
  }

  /** Reading back what was written recovers every value that fits. */
  lemma {:induction false} ReadWriteBE(n: nat, w: nat)
    requires n < Pow256(w)
    ensures ReadBE(WriteBE(n, w)) == n
  {
    if w > 0 {
      var s := WriteBE(n, w);
      assert s[..w - 1] == WriteBE(n / 256, w - 1);
      ReadWriteBE(n / 256, w - 1);
    }
  }

  /** Truncation never makes a value larger. */
  lemma {:induction false} ReadWriteBEAtMost(n: nat, w: nat)
    ensures ReadBE(WriteBE(n, w)) <= n
  {
    if w > 0 {
      var s := WriteBE(n, w);
      assert s[..w - 1] == WriteBE(n / 256, w - 1);
      ReadWriteBEAtMost(n / 256, w - 1);
    }
  }

  /** A `w`-byte string holds less than `256^w`. */
  lemma {:induction false} ReadBEBound(s: seq<byte>)
    ensures ReadBE(s) < Pow256(|s|)
  {
    if |s| > 0 {
      ReadBEBound(s[..|s| - 1]);
    }
  }

  /** Writing what was read recovers the byte string. */
  lemma {:induction false} WriteReadBE(s: seq<byte>)
    ensures WriteBE(ReadBE(s), |s|) == s
  {
    if |s| > 0 {
      var p := s[..|s| - 1];
      WriteReadBE(p);
      assert ReadBE(s) / 256 == ReadBE(p);
      assert ReadBE(s) % 256 == s[|s| - 1];
      assert s == p + [s[|s| - 1]];
    }
  }

  /** Go's `uint64(id)` for an `int64`: two's complement reinterpretation. */
  function ToU64(id: i64): (r: nat)
    ensures r < TWO_64
    ensures id >= 0 ==> r == id
  {
    if id < 0 then id + TWO_64 else id
  }

  /** Go's `int64(u)` for a `uint64`. */
  function FromU64(u: nat): (r: i64)
    requires u < TWO_64
    ensures u < TWO_63 ==> r == u
  {
    if u >= TWO_63 then u - TWO_64 else u
  }

  lemma U64RoundTrip(id: i64)
    ensures FromU64(ToU64(id)) == id
  {
  }

  /** Go's `x++` on a `uint32`: wraps from 2^32-1 to 0. */
  function IncU32(x: u32): (r: u32)
    ensures x < TWO_32 - 1 ==> r == x + 1
    ensures x == TWO_32 - 1 ==> r == 0
  {
    (x + 1) % TWO_32
  }

  /** Go's `x--` on a `uint32`: wraps from 0 to 2^32-1. */
  function DecU32(x: u32): (r: u32)
    ensures x > 0 ==> r == x - 1
    ensures x == 0 ==> r == TWO_32 - 1
  {
    (x + TWO_32 - 1) % TWO_32
  }
}

=== FILE: decimal.dfy ===
/** Decimal text for integers: Go's `%d` verb (`fmt.Sprintf`, `fmt.Errorf`)
    and `strconv.Atoi` for a 64-bit `int`. */
module Decimal {

  import opened Outcomes

  const MIN_INT: int := -0x8000_0000_0000_0000
  const MAX_INT: int := 0x7fff_ffff_ffff_ffff

  predicate IsDigit(c: char)
  {
    '0' <= c <= '9'
  }

  predicate AllDigits(s: string)
  {
    forall i :: 0 <= i < |s| ==> IsDigit(s[i])
  }

  function DigitValue(c: char): nat
    requires IsDigit(c)
  {
    c as int - '0' as int
  }

  function DigitChar(d: nat): (c: char)
    requires d < 10
    ensures IsDigit(c) && DigitValue(c) == d
  {
    ('0' as int + d) as char
  }

  /** The value of a run of decimal digits, leading zeros allowed. */
  function DigitsValue(s: string): nat
    requires AllDigits(s)
  {
    if |s| == 0 then 0 else DigitsValue(s[..|s| - 1]) * 10 + DigitValue(s[|s| - 1])
  }

  /** The shortest decimal spelling of `n`. */
  function NatDigits(n: nat): (r: string)
    ensures |r| >= 1 && AllDigits(r)
    ensures DigitsValue(r) == n
    ensures n > 0 ==> r[0] != '0'
  {
    if n < 10 then [DigitChar(n)]
    else
      var p := NatDigits(n / 10);
      var r := p + [DigitChar(n % 10)];
      assert r[..|r| - 1] == p;
      r
  }

  /** Go's `%d`: a minus sign for negatives, no leading zeros, no plus sign. */
  function FormatInt(n: int): (r: string)
    ensures |r| >= 1
    ensures n >= 0 <==> r[0] != '-'
  {
    if n < 0 then "-" + NatDigits(-n) else NatDigits(n)
  }

  /** `strconv.Atoi`: an optional sign, then at least one decimal digit, and
      a value that fits a 64-bit `int`; anything else is an error (`None`). */
  function Atoi(s: string): (r: Option<int>)
    ensures r.Some? ==> MIN_INT <= r.value <= MAX_INT
  {
    var neg := |s| > 0 && s[0] == '-';
    var body := if |s| > 0 && (s[0] == '-' || s[0] == '+') then s[1..] else s;
    if |body| == 0 || !AllDigits(body) then None
    else
      var d: int := DigitsValue(body);
      var v := if neg then -d else d;
      if MIN_INT <= v <= MAX_INT then Some(v) else None
  }

  /** `Atoi` reads back every integer `%d` writes. */
  lemma AtoiFormatInt(n: int)
    requires MIN_INT <= n <= MAX_INT
    ensures Atoi(FormatInt(n)) == Some(n)
  {
    var s := FormatInt(n);
    if n < 0 {
      assert s[1..] == NatDigits(-n);
    }
  }

  /** `Atoi` rejects any text with a non-digit after an optional sign. */
  lemma AtoiRejects(s: string, i: nat)
    requires i < |s| && !IsDigit(s[i])
    requires i > 0 || (s[0] != '-' && s[0] != '+')
    ensures Atoi(s) == None
  {
    if s[0] == '-' || s[0] == '+' {
      assert !IsDigit(s[1..][i - 1]);
    }
  }
}

=== FILE: dispatch.dfy ===
/** Message dispatch in the websocket client (socket/websocket/client/client.go):
    how `middleware` nests the registered middleware around `handler`, how
    `handler` runs a route's before, main and after stages, and how
    `decodeMessage` classifies an incoming frame. The router's trie and the
    client's protocol codec are not part of this model; they enter as
    parameters (a lookup result, a decode function). */
module Dispatch {

  import opened Outcomes
  import opened Bytes
  import Frame

  /** A composed `Middle`: the handler, wrapped by middleware layers. `M`
      identifies a registered middleware. */
  datatype Chain<M> = Handler | Layer(middle: M, next: Chain<M>)

  /** The layers from the outside in. */
  function Layers<M>(c: Chain<M>): seq<M>
  {
    match c
    case Handler => []
    case Layer(m, next) => [m] + Layers(next)
  }

  /** The nesting the source intends: the first registered middleware outermost. */
  function Nest<M>(ms: seq<M>): (c: Chain<M>)
    ensures Layers(c) == ms
  {
    if |ms| == 0 then Handler else Layer(ms[0], Nest(ms[1..]))
  }

  /** `middleware` folds from the last registered middleware to the first,
      each wrapping what was built so far (client.go:292-298); `Use` appends
      to the registered list (client.go:66-68). */
  method Middleware<M>(ms: seq<M>) returns (c: Chain<M>)
    ensures c == Nest(ms)
    ensures Layers(c) == ms
  {
    c := Handler;
    var i := |ms|;
    while i > 0
      invariant 0 <= i <= |ms|
      invariant c == Nest(ms[i..])
    {
      i := i - 1;
      assert ms[i..][1..] == ms[i + 1..];
      c := Layer(ms[i], c);
    }
    assert ms[0..] == ms;
  }

  /** Which layers a message passes through when each middleware either
      calls `next` (`passes`) or stops, and whether the handler is reached. */
  datatype Trip<M> = Trip(entered: seq<M>, reachedHandler: bool)

  function Enter<M>(c: Chain<M>, passes: M -> bool): Trip<M>
  {
    match c
    case Handler => Trip([], true)
    case Layer(m, next) =>
      if passes(m) then var t := Enter(next, passes); Trip([m] + t.entered, t.reachedHandler)
      else Trip([m], false)
  }

  /** Middleware runs outermost first: the layers entered are the registered
      list up to the first that stops, and the handler runs exactly when none stops. */
  lemma {:induction false} EnterInOrder<M>(ms: seq<M>, passes: M -> bool)
    ensures |Enter(Nest(ms), passes).entered| <= |ms|
    ensures Enter(Nest(ms), passes).entered == ms[..|Enter(Nest(ms), passes).entered|]
    ensures Enter(Nest(ms), passes).reachedHandler <==> forall i :: 0 <= i < |ms| ==> passes(ms[i])
    ensures !Enter(Nest(ms), passes).reachedHandler ==>
      var k := |Enter(Nest(ms), passes).entered|;
      k > 0 && !passes(ms[k - 1]) && forall i :: 0 <= i < k - 1 ==> passes(ms[i])
    ensures Enter(Nest(ms), passes).reachedHandler ==> Enter(Nest(ms), passes).entered == ms
  {
    if |ms| > 0 && passes(ms[0]) {
      EnterInOrder(ms[1..], passes);
      var t := Enter(Nest(ms[1..]), passes);
      assert ms[1..][..|t.entered|] == ms[1..|t.entered| + 1];
      if t.reachedHandler {
        forall i | 1 <= i < |ms|
          ensures passes(ms[i])
        {
          assert ms[i] == ms[1..][i - 1];
        }
      } else {
        assert !passes(ms[1..][|t.entered| - 1]);
      }
    }
  }

  /** A route's node: before interceptors, the main function, after
      interceptors. `S` identifies a stage. */
  datatype Node<S> = Node(before: seq<S>, main: S, after: seq<S>)

  function Stages<S>(n: Node<S>): seq<S>
  {
    n.before + [n.main] + n.after
  }

  /** Run stages in order, up to and including the first that returns an error. */
  function RunStages<S>(stages: seq<S>, run: S -> Error): (r: (seq<S>, Error))
    ensures |r.0| <= |stages| && r.0 == stages[..|r.0|]
    ensures r.1.None? ==> r.0 == stages && forall i :: 0 <= i < |stages| ==> run(stages[i]).None?
    ensures r.1.Some? ==> |r.0| > 0 && run(r.0[|r.0| - 1]) == r.1
    ensures forall i :: 0 <= i < |r.0| - 1 ==> run(stages[i]).None?
  {
    if |stages| == 0 then ([], None)
    else if run(stages[0]).Some? then ([stages[0]], run(stages[0]))
    else
      var t := RunStages(stages[1..], run);
      assert forall i :: 1 <= i < |t.0| + 1 ==> stages[i] == stages[1..][i - 1];
      ([stages[0]] + t.0, t.1)
  }

  /** One stage in front of a list. */
  lemma RunStagesCons<S>(x: S, rest: seq<S>, run: S -> Error)
    ensures RunStages([x] + rest, run) ==
      if run(x).Some? then ([x], run(x)) else ([x] + RunStages(rest, run).0, RunStages(rest, run).1)
  {
    assert ([x] + rest)[0] == x && ([x] + rest)[1..] == rest;
  }

  /** Running two lists back to back is running their concatenation. */
  lemma {:induction false} RunStagesAppend<S>(a: seq<S>, b: seq<S>, run: S -> Error)
    ensures RunStages(a, run).1.Some? ==> RunStages(a + b, run) == RunStages(a, run)
    ensures RunStages(a, run).1.None? ==>
      RunStages(a + b, run) == (a + RunStages(b, run).0, RunStages(b, run).1)
  {
    if |a| > 0 {
      var x, rest := a[0], a[1..];
      assert a == [x] + rest;
      assert a + b == [x] + (rest + b);
      RunStagesCons(x, rest, run);
      RunStagesCons(x, rest + b, run);
      RunStagesAppend(rest, b, run);
      if run(x).None? && RunStages(rest, run).1.None? {
        assert [x] + (rest + RunStages(b, run).0) == a + RunStages(b, run).0;
      }
    } else {
      assert a + b == b;
      assert a + RunStages(b, run).0 == RunStages(b, run).0;
    }
  }

  /** What one dispatch did: the stages it ran and the errors handed to `OnError`. */
  datatype Dispatched<S> = Dispatched(ran: seq<S>, reported: seq<string>)

  /** An error reaches `OnError` only when the callback is set. */
  function Report(err: string, hasOnError: bool): seq<string>
  {
    if hasOnError then [err] else []
  }

  /** What `getRoute` yields for an event: `None` both when there is no
      router and when the trie has no match. */
  function Resolve<S>(router: Option<string -> Option<Node<S>>>, event: string): (r: Option<Node<S>>)
    ensures r.None? <==> router.None? || router.value(event).None?
    ensures r.Some? ==> r == router.value(event)
  {
    match router
    case None => None
    case Some(lookup) => lookup(event)
  }

  /** `handler` (client.go:300-347), branch for branch. */
  function Handle<S>(event: string, found: Option<Node<S>>, run: S -> Error, hasOnError: bool): (r: Dispatched<S>)
    ensures |r.reported| <= 1
    ensures found.None? ==> r == Dispatched([], Report(event + " 404 not found", hasOnError))
    ensures found.Some? ==> 0 < |r.ran| <= |Stages(found.value)| && r.ran == Stages(found.value)[..|r.ran|]
  {
    match found
    case None => Dispatched([], Report(event + " 404 not found", hasOnError))
    case Some(n) =>
      var b := RunStages(n.before, run);
      if b.1.Some? then
        assert Stages(n)[..|b.0|] == n.before[..|b.0|];
        Dispatched(b.0, Report(b.1.value, hasOnError))
      else if run(n.main).Some? then
        assert Stages(n)[..|n.before| + 1] == n.before + [n.main];
        Dispatched(n.before + [n.main], Report(run(n.main).value, hasOnError))
      else
        var a := RunStages(n.after, run);
        assert Stages(n)[..|n.before| + 1 + |a.0|] == n.before + [n.main] + a.0;
        Dispatched(n.before + [n.main] + a.0, if a.1.Some? then Report(a.1.value, hasOnError) else [])
  }

  /** Without a router, or when the router has no route for the event, the
      handler reports "<event> 404 not found" and runs nothing. */
  lemma Unrouted<S>(router: Option<string -> Option<Node<S>>>, event: string, run: S -> Error, hasOnError: bool)
    requires router.None? || router.value(event).None?
    ensures Handle(event, Resolve(router, event), run, hasOnError)
      == Dispatched([], if hasOnError then [event + " 404 not found"] else [])
  {
  }

  /** The three phases behave as one list of stages that stops at the first
      error: every stage before the failing one ran, nothing after it ran,
      and that one error (and only it) is reported. */
  lemma HandleStopsAtFirstError<S>(event: string, n: Node<S>, run: S -> Error, hasOnError: bool)
    ensures Handle(event, Some(n), run, hasOnError).ran == RunStages(Stages(n), run).0
    ensures Handle(event, Some(n), run, hasOnError).reported
      == (match RunStages(Stages(n), run).1
          case None => []
          case Some(e) => Report(e, hasOnError))
  {
    RunStagesAppend(n.before, [n.main], run);
    RunStagesAppend(n.before + [n.main], n.after, run);
  }

  /** A stream as handed to the middleware chain. */
  datatype Stream = Stream(event: seq<byte>, data: seq<byte>, id: i64)

  /** Callback invocations of `decodeMessage`, in order. */
  datatype Seen =
    | SawRaw(frameType: int, message: seq<byte>)
    | SawUnknown(message: seq<byte>)
    | Dispatch(stream: Stream)

  datatype Decoded = Decoded(seen: seq<Seen>, result: Error)

  /** What `decodeMessage` does with the decoded frame (client.go:264-289):
      `OnMessage` sees every message first; an Unknown frame goes to
      `OnUnknown` when it is set, a ping or pong returns its handler's
      result, and any other kind is dispatched as a stream. */
  function DispatchDecoded(frameType: int, message: seq<byte>, m: Frame.Message,
                           hasOnMessage: bool, hasOnUnknown: bool, ping: Error, pong: Error): (r: Decoded)
    ensures hasOnMessage <==> |r.seen| > 0 && r.seen[0] == SawRaw(frameType, message)
    ensures m.kind == Frame.Unknown ==> r.result.None?
    ensures m.kind == Frame.Unknown ==>
      r.seen == (if hasOnMessage then [SawRaw(frameType, message)] else [])
                + (if hasOnUnknown then [SawUnknown(message)] else [])
    ensures SawUnknown(message) in r.seen ==> m.kind == Frame.Unknown
    ensures m.kind == Frame.PingKind ==> r.result == ping
    ensures m.kind == Frame.PongKind ==> r.result == pong
    ensures (exists i :: 0 <= i < |r.seen| && r.seen[i].Dispatch?)
      <==> m.kind !in {Frame.Unknown, Frame.PingKind, Frame.PongKind}
  {
    var raw := if hasOnMessage then [SawRaw(frameType, message)] else [];
    if m.kind == Frame.Unknown then Decoded(raw + (if hasOnUnknown then [SawUnknown(message)] else []), None)
    else if m.kind == Frame.PingKind then Decoded(raw, ping)
    else if m.kind == Frame.PongKind then Decoded(raw, pong)
    else
      var r := Decoded(raw + [Dispatch(Stream(m.route, m.body, m.id))], None);
      assert r.seen[|r.seen| - 1].Dispatch?;
      r
  }

  /** `decodeMessage` (client.go:261-290). `decode` is the client's protocol,
      which may panic; a panic there happens before any callback runs.
      `ping` and `pong` are what the ping and pong handlers return. */
  function DecodeMessage(frameType: int, message: seq<byte>, decode: seq<byte> -> Outcome<Frame.Message>,
                         hasOnMessage: bool, hasOnUnknown: bool, ping: Error, pong: Error): (r: Outcome<Decoded>)
    ensures r.Panicked? <==> decode(message).Panicked?
    ensures decode(message).Returned? ==>
      r == Returned(DispatchDecoded(frameType, message, decode(message).value, hasOnMessage, hasOnUnknown, ping, pong))
  {
    match decode(message)
    case Panicked(why) => Panicked(why)
    case Returned(m) => Returned(DispatchDecoded(frameType, message, m, hasOnMessage, hasOnUnknown, ping, pong))
  }

  /** A data frame is dispatched exactly once, as the last callback, with
      the route as event, the body as data and the frame's id. */
  lemma DecodeMessageDispatchesOnce(frameType: int, message: seq<byte>, m: Frame.Message,
                                    hasOnMessage: bool, hasOnUnknown: bool, ping: Error, pong: Error)
    requires m.kind !in {Frame.Unknown, Frame.PingKind, Frame.PongKind}
    ensures var r := DispatchDecoded(frameType, message, m, hasOnMessage, hasOnUnknown, ping, pong);
      r.result.None? &&
      r.seen[|r.seen| - 1] == Dispatch(Stream(m.route, m.body, m.id)) &&
      forall i :: 0 <= i < |r.seen| - 1 ==> !r.seen[i].Dispatch?
  {
  }

  /** With the binary frame codec as written as the protocol, a frame built
      by `Encode` for a route of fewer than 240 bytes is dispatched with that
      route, body and id; a route of 240 to 255 bytes panics the decoder. */
  lemma DecodeMessageOfEncoded(frameType: int, id: i64, route: seq<byte>, body: seq<byte>, ping: Error, pong: Error)
    requires |route| <= 255 && |body| < TWO_32
    ensures |route| < 240 ==>
      DecodeMessage(frameType, Frame.Encode(Frame.Bin, id, route, body), Frame.DecodeAsWritten, false, false, ping, pong)
        == Returned(Decoded([Dispatch(Stream(route, body, id))], None))
    ensures |route| >= 240 ==>
      DecodeMessage(frameType, Frame.Encode(Frame.Bin, id, route, body), Frame.DecodeAsWritten, false, false, ping, pong).Panicked?
  {
    var f := Frame.Encode(Frame.Bin, id, route, body);
    Frame.PackBinWellFormed(id, route, body);
    Frame.DecodeEncodeBin(id, route, body);
    Frame.DecodeAsWrittenAgrees(f);
    assert f[3] == |route|;
    if |route| < 240 {
      var m := Frame.Message(Frame.Bin, id, route, body);
      assert Frame.DecodeAsWritten(f) == Returned(m);
      assert DispatchDecoded(frameType, f, m, false, false, ping, pong) == Decoded([Dispatch(Stream(route, body, id))], None);
    }
  }
}

=== FILE: frame.dfy ===
/** The 16-byte-header binary frame of socket/udp/protocol.go.

    byte 0-1   reserved, zero
    byte 2     kind (Bin, Ping, Pong, Open, Close)
    byte 3     route length
    byte 4-7   body length, big-endian uint32
    byte 8-15  correlation id, big-endian int64
    byte 16..  route bytes, then body bytes

    The control kinds 9 and 10 are the ping and pong opcodes of section 5.2 of
    RFC 6455. */
module Frame {

  import opened Outcomes
  import opened Bytes

  const HeadLen: nat := 16

  /** Kind bytes. Open, Close, Ping and Pong are fixed by the control frames
      below; the data kind `Bin` lives in a package outside this model and is
      taken to be 2, distinct from the other four and from `Unknown`. */
  const Unknown: byte := 0
  const Bin: byte := 2
  const OpenKind: byte := 3
  const CloseKind: byte := 4
  const PingKind: byte := 9
  const PongKind: byte := 10

  predicate IsKnownKind(k: byte)
  {
    k == Bin || k == PingKind || k == PongKind || k == OpenKind || k == CloseKind
  }

  /** A 16-byte frame with only the kind byte set. */
  function ControlFrame(kind: byte): (r: seq<byte>)
    ensures |r| == HeadLen
  {
    [0, 0, kind] + seq(13, _ => 0)
  }

  const OpenMessage: seq<byte> := ControlFrame(OpenKind)
  const CloseMessage: seq<byte> := ControlFrame(CloseKind)
  const PingMessage: seq<byte> := ControlFrame(PingKind)
  const PongMessage: seq<byte> := ControlFrame(PongKind)

  /** The decoded view of a frame. */
  datatype Message = Message(kind: byte, id: i64, route: seq<byte>, body: seq<byte>)

  /** What `Decode` answers for anything it refuses: `(0, 0, nil, nil)`. */
  const Refused: Message := Message(Unknown, 0, [], [])

  /** `isHeaderInvalid` in the source; despite its name it is true exactly when
      the header is acceptable. */
  predicate IsHeaderValid(m: seq<byte>)
    ensures IsHeaderValid(m) ==> |m| >= HeadLen && m[2] != Unknown
  {
    |m| >= HeadLen && m[0] == 0 && m[1] == 0 && IsKnownKind(m[2])
  }

  /** `binary.BigEndian.Uint32(m[k:k+4])`, spelled out. */
  function U32At(m: seq<byte>, k: nat): nat
    requires k + 4 <= |m|
  {
    (m[k] as int) * 0x100_0000 + (m[k + 1] as int) * 0x1_0000 + (m[k + 2] as int) * 0x100 + m[k + 3]
  }

  lemma U32AtIsReadBE(m: seq<byte>, k: nat)
    requires k + 4 <= |m|
    ensures U32At(m, k) == ReadBE(m[k..k + 4])
  {
    var w := m[k..k + 4];
    assert ReadBE(w[..1]) == w[0] by {
      assert w[..1][..0] == [];
    }
    assert w[..2][..1] == w[..1];
    assert w[..3][..2] == w[..2];
    assert ReadBE(w[..2]) == ReadBE(w[..1]) * 256 + w[1];
    assert ReadBE(w[..3]) == ReadBE(w[..2]) * 256 + w[2];
  }

  /** `getLen`: the frame length the header declares, 0 below 16 bytes. */
  function GetLen(m: seq<byte>): (r: nat)
    ensures |m| < HeadLen ==> r == 0
    ensures |m| >= HeadLen ==> r == HeadLen + m[3] + ReadBE(m[4..8])
  {
    if |m| < HeadLen then 0
    else
      U32AtIsReadBE(m, 4);
      m[3] + U32At(m, 4) + HeadLen
  }

  /** A complete, acceptable frame: valid header and exactly the declared length. */
  predicate WellFormed(f: seq<byte>)
  {
    IsHeaderValid(f) && GetLen(f) == |f|
  }

  /** The header fields depend only on the first 16 bytes. */
  lemma HeaderOfPrefix(s: seq<byte>, t: seq<byte>)
    requires |s| >= HeadLen && |t| >= HeadLen && s[..HeadLen] == t[..HeadLen]
    ensures IsHeaderValid(s) == IsHeaderValid(t)
    ensures GetLen(s) == GetLen(t)
  {
    assert s[4] == s[..HeadLen][4] == t[4];
    assert s[5] == s[..HeadLen][5] == t[5];
    assert s[6] == s[..HeadLen][6] == t[6];
    assert s[7] == s[..HeadLen][7] == t[7];
    assert s[0] == s[..HeadLen][0] == t[0];
    assert s[1] == s[..HeadLen][1] == t[1];
    assert s[2] == s[..HeadLen][2] == t[2];
    assert s[3] == s[..HeadLen][3] == t[3];
  }

  /** `packBin`: the route length is stored as `byte(len(route))` and the body
      length as `uint32(len(body))`, both truncating. */
  function PackBin(id: i64, route: seq<byte>, body: seq<byte>): (r: seq<byte>)
    ensures |r| == HeadLen + |route| + |body|
    ensures r[0] == 0 && r[1] == 0 && r[2] == Bin && r[3] == |route| % 256
    ensures r[4..8] == WriteBE(|body|, 4)
    ensures r[8..HeadLen] == WriteBE(ToU64(id), 8)
    ensures r[HeadLen..HeadLen + |route|] == route
    ensures r[HeadLen + |route|..] == body
  {
    var header := [0, 0, Bin, |route| % 256] + WriteBE(|body|, 4) + WriteBE(ToU64(id), 8);
    var r := header + route + body;
    assert r[4..8] == header[4..8];
    assert r[8..HeadLen] == header[8..HeadLen];
    r
  }

  /** `Encode`: Bin frames are packed, Ping and Pong are the fixed control
      frames, every other kind (Open and Close included) gives nil. */
  function Encode(kind: byte, id: i64, route: seq<byte>, body: seq<byte>): (r: seq<byte>)
    ensures kind == PingKind ==> r == PingMessage
    ensures kind == PongKind ==> r == PongMessage
    ensures kind != Bin && kind != PingKind && kind != PongKind ==> r == []
    ensures kind == Bin ==> |r| == HeadLen + |route| + |body|
  {
    if kind == Bin then PackBin(id, route, body)
    else if kind == PingKind then PingMessage
    else if kind == PongKind then PongMessage
    else []
  }

  /** The correlation id stored in bytes 8-15. */
  function IdOf(m: seq<byte>): i64
    requires |m| >= HeadLen
  {
    ReadBEBound(m[8..HeadLen]);
    FromU64(ReadBE(m[8..HeadLen]))
  }

  /** `Decode` as the source writes it. `HeadLen+message[3]` adds an untyped
      constant to a `byte`, so the sum is computed modulo 256; for a route
      length of 240 or more the slice bound wraps below 16 and the slice
      expression panics. */
  function DecodeAsWritten(m: seq<byte>): (r: Outcome<Message>)
    ensures !WellFormed(m) ==> r == Returned(Refused)
    ensures r.Panicked? <==> WellFormed(m) && m[3] >= 240
  {
    if !IsHeaderValid(m) then Returned(Refused)
    else if GetLen(m) != |m| then Returned(Refused)
    else
      var hi := (HeadLen + m[3]) % 256;
      if HeadLen > hi then Panicked("slice bounds out of range")
      else Returned(Message(m[2], IdOf(m), m[HeadLen..hi], m[hi..]))
  }

  /** `Decode` with the route end computed in `int`, as evidently intended.
      It fails closed: anything that is not a well-formed frame decodes to
      `Refused`. The client's dispatch uses `DecodeAsWritten`. */
  function Decode(m: seq<byte>): (r: Message)
    ensures !WellFormed(m) ==> r == Refused
    ensures WellFormed(m) ==> r.kind == m[2] && IsKnownKind(r.kind) && r.kind != Unknown
    ensures WellFormed(m) ==> |r.route| == m[3] && r.route + r.body == m[HeadLen..]
    ensures WellFormed(m) ==> r.id == IdOf(m)
  {
    if !WellFormed(m) then Refused
    else
      var hi := HeadLen + m[3];
      assert m[HeadLen..hi] + m[hi..] == m[HeadLen..];
      Message(m[2], IdOf(m), m[HeadLen..hi], m[hi..])
  }

  /** The two decoders agree except where the source's byte sum wraps. */
  lemma DecodeAsWrittenAgrees(m: seq<byte>)
    ensures !WellFormed(m) || m[3] < 240 ==> DecodeAsWritten(m) == Returned(Decode(m))
    ensures WellFormed(m) && m[3] >= 240 ==> DecodeAsWritten(m).Panicked?
  {
  }

  /** Every packed frame is well formed when its lengths fit their fields. */
  lemma PackBinWellFormed(id: i64, route: seq<byte>, body: seq<byte>)
    requires |route| <= 255 && |body| < TWO_32
    ensures WellFormed(PackBin(id, route, body))
  {
    var f := PackBin(id, route, body);
    ReadWriteBE(|body|, 4);
    U32AtIsReadBE(f, 4);
  }

  /** Round trip: a Bin frame decodes to exactly what was encoded. */
  lemma DecodeEncodeBin(id: i64, route: seq<byte>, body: seq<byte>)
    requires |route| <= 255 && |body| < TWO_32
    ensures Decode(Encode(Bin, id, route, body)) == Message(Bin, id, route, body)
  {
    var f := PackBin(id, route, body);
    PackBinWellFormed(id, route, body);
    PackBinId(id, route, body);
    var r := Decode(f);
    assert r.route == f[HeadLen..HeadLen + |route|];
  }

  /** The id field of a packed frame reads back as the id packed. */
  lemma PackBinId(id: i64, route: seq<byte>, body: seq<byte>)
    ensures IdOf(PackBin(id, route, body)) == id
  {
    ReadWriteBE(ToU64(id), 8);
    U64RoundTrip(id);
  }

  /** The other direction: re-encoding a decoded Bin frame gives back the bytes. */
  lemma EncodeDecodeBin(m: seq<byte>)
    requires WellFormed(m) && m[2] == Bin
    ensures var r := Decode(m); Encode(Bin, r.id, r.route, r.body) == m
  {
    var r := Decode(m);
    var f := PackBin(r.id, r.route, r.body);
    RepackHeader(m);
    assert f[HeadLen..] == r.route + r.body == m[HeadLen..];
    assert f == f[..4] + f[4..8] + f[8..HeadLen] + f[HeadLen..];
    assert m == m[..4] + m[4..8] + m[8..HeadLen] + m[HeadLen..];
  }

  /** Packing what a well-formed Bin frame decodes to restores its header. */
  lemma RepackHeader(m: seq<byte>)
    requires WellFormed(m) && m[2] == Bin
    ensures var r := Decode(m); var f := PackBin(r.id, r.route, r.body);
      f[..4] == m[..4] && f[4..8] == m[4..8] && f[8..HeadLen] == m[8..HeadLen]
  {
    var r := Decode(m);
    var f := PackBin(r.id, r.route, r.body);
    ReadBEBound(m[8..HeadLen]);
    WriteReadBE(m[8..HeadLen]);
    WriteReadBE(m[4..8]);
    U32AtIsReadBE(m, 4);
    assert |r.body| == ReadBE(m[4..8]);
    assert ToU64(r.id) == ReadBE(m[8..HeadLen]);
    assert f[..4] == m[..4];
  }

  /** The length a packed frame declares: the route length modulo 256 and
      the body length read back from its four bytes. It is the frame's real
      length exactly when both lengths fit their fields. */
  lemma GetLenPackBin(id: i64, route: seq<byte>, body: seq<byte>)
    ensures |body| < TWO_32 ==> GetLen(PackBin(id, route, body)) == HeadLen + |route| % 256 + |body|
    ensures GetLen(PackBin(id, route, body)) <= |PackBin(id, route, body)|
    ensures GetLen(PackBin(id, route, body)) == |PackBin(id, route, body)| <==> |route| <= 255 && |body| < TWO_32
  {
    var f := PackBin(id, route, body);
    ReadWriteBEAtMost(|body|, 4);
    ReadBEBound(f[4..8]);
    if |body| < TWO_32 {
      ReadWriteBE(|body|, 4);
    }
  }

  /** A route longer than 255 bytes or a body of 2^32 bytes or more cannot be
      carried: the truncated header under-declares the length and the frame
      is refused. */
  lemma DecodeEncodeOversized(id: i64, route: seq<byte>, body: seq<byte>)
    requires |route| > 255 || |body| >= TWO_32
    ensures Decode(Encode(Bin, id, route, body)) == Refused
  {
    var f := PackBin(id, route, body);
    ReadWriteBEAtMost(|body|, 4);
    ReadBEBound(f[4..8]);
    U32AtIsReadBE(f, 4);
    assert GetLen(f) < |f|;
  }

  /** Control frames decode to their kind with nothing else; Open and Close
      cannot be produced by `Encode`. */
  lemma ControlFrames(id: i64, route: seq<byte>, body: seq<byte>)
    ensures Decode(Encode(PingKind, id, route, body)) == Message(PingKind, 0, [], [])
    ensures Decode(Encode(PongKind, id, route, body)) == Message(PongKind, 0, [], [])
    ensures Decode(OpenMessage) == Message(OpenKind, 0, [], [])
    ensures Decode(CloseMessage) == Message(CloseKind, 0, [], [])
    ensures Encode(OpenKind, id, route, body) == [] && Encode(CloseKind, id, route, body) == []
  {
    forall k: byte | IsKnownKind(k)
      ensures Decode(ControlFrame(k)) == Message(k, 0, [], [])
    {
      var f := ControlFrame(k);
      assert f[3] == 0;
      assert f[4..8] == WriteBE(0, 4);
      assert f[8..HeadLen] == WriteBE(0, 8);
      ReadWriteBE(0, 4);
      ReadWriteBE(0, 8);
      U32AtIsReadBE(f, 4);
      assert WellFormed(f);
    }
  }

  /** The source's Decode panics on a well-formed frame with a 240-byte route. */
  lemma DecodeAsWrittenPanicsOnLongRoute()
    ensures DecodeAsWritten(Encode(Bin, 0, seq(240, _ => 97), [])).Panicked?
  {
    var route: seq<byte> := seq(240, _ => 97);
    PackBinWellFormed(0, route, []);
    DecodeAsWrittenAgrees(Encode(Bin, 0, route, []));
  }
}

=== FILE: ip_util.dfy ===
/** The IP helpers of utils/ip.go: `Ip2long`, `IsLocalIP` and `IsLocalNet`
    with its list of local networks, over Go's `net.IP` as `net.ParseIP`
    produces it. IPv4 text is parsed here; parsing IPv6 text is left to a
    parameter. */
module IpUtil {

  import opened Outcomes
  import opened Bytes
  import opened Decimal
  import opened Strings

  /** Sixteen bytes: an IPv6 address. */
  type Bytes16 = s: seq<byte> | |s| == 16 witness seq(16, _ => 0)

  /** A parsed address. `net.ParseIP` keeps IPv4 in its IPv4-in-IPv6 form,
      which `To4` recognises; here that form is `IPv4`, and `IPv6` holds
      every other sixteen bytes. */
  datatype IP = IPv4(a: byte, b: byte, c: byte, d: byte) | IPv6(bytes: Bytes16)

  /** The twelve bytes that mark an IPv4-in-IPv6 address. */
  const V4InV6Prefix: seq<byte> := [0, 0, 0, 0, 0, 0, 0, 0, 0, 0, 255, 255]

  /** An address read from sixteen bytes, as `To4` sees it. */
  function FromSixteen(b: Bytes16): (r: IP)
    ensures r.IPv4? <==> b[..12] == V4InV6Prefix
    ensures r.IPv4? ==> [r.a, r.b, r.c, r.d] == b[12..]
    ensures r.IPv6? ==> r.bytes == b
  {
    if b[..12] == V4InV6Prefix then IPv4(b[12], b[13], b[14], b[15]) else IPv6(b)
  }

  /** One dotted-quad field: one to three digits, no leading zero, at most 255. */
  function ParseOctet(f: string): (r: Option<byte>)
    ensures r.Some? <==> 1 <= |f| <= 3 && AllDigits(f) && (|f| == 1 || f[0] != '0') && DigitsValue(f) <= 255
    ensures r.Some? ==> r.value == DigitsValue(f)
  {
    if 1 <= |f| <= 3 && AllDigits(f) && (|f| == 1 || f[0] != '0') && DigitsValue(f) <= 255
    then Some(DigitsValue(f)) else None
  }

  /** IPv4 text: exactly four fields separated by dots. */
  function ParseIPv4(s: string): Option<IP>
  {
    var fs := Split(s, '.');
    if |fs| != 4 then None
    else match (ParseOctet(fs[0]), ParseOctet(fs[1]), ParseOctet(fs[2]), ParseOctet(fs[3]))
      case (Some(a), Some(b), Some(c), Some(d)) => Some(IPv4(a, b, c, d))
      case _ => None
  }

  /** `net.ParseIP`: the first '.' or ':' decides between IPv4 and IPv6
      text; text with neither is no address (`nil`). `parseIPv6` stands for
      Go's IPv6 parser. */
  function ParseIP(s: string, parseIPv6: string -> Option<Bytes16>): (r: Option<IP>)
    ensures (forall i :: 0 <= i < |s| ==> s[i] != '.' && s[i] != ':') ==> r.None?
  {
    var dot, colon := IndexOf(s, '.'), IndexOf(s, ':');
    if dot.Some? && (colon.None? || dot.value < colon.value) then ParseIPv4(s)
    else if colon.Some? then
      match parseIPv6(s)
      case None => None
      case Some(b) => Some(FromSixteen(b))
    else None
  }

  /** The dotted-quad text `String` gives an IPv4 address. */
  function FormatIPv4(ip: IP): string
    requires ip.IPv4?
  {
    Join([NatDigits(ip.a), NatDigits(ip.b), NatDigits(ip.c), NatDigits(ip.d)], '.')
  }

  /** A value of at most 255 has at most three digits. */
  lemma NatDigitsShort(n: nat)
    requires n <= 255
    ensures |NatDigits(n)| <= 3
  {
    if n >= 10 {
      assert NatDigits(n) == NatDigits(n / 10) + [DigitChar(n % 10)];
      if n / 10 >= 10 {
        assert NatDigits(n / 10) == NatDigits(n / 100) + [DigitChar(n / 10 % 10)];
      }
    }
  }

  /** A field without a leading zero is the shortest spelling of its value. */
  lemma {:induction false} NatDigitsOfValue(f: string)
    requires |f| >= 1 && AllDigits(f) && (|f| == 1 || f[0] != '0')
    ensures NatDigits(DigitsValue(f)) == f
    decreases |f|
  {
    if |f| > 1 {
      var p := f[..|f| - 1];
      NatDigitsOfValue(p);
      LeadingDigitValue(p);
      assert DigitsValue(f) / 10 == DigitsValue(p);
      assert f == p + [f[|f| - 1]];
    }
  }

  /** Digits that do not start with '0' have a positive value. */
  lemma {:induction false} LeadingDigitValue(f: string)
    requires |f| >= 1 && AllDigits(f) && f[0] != '0'
    ensures DigitsValue(f) >= 1
    decreases |f|
  {
    if |f| > 1 {
      LeadingDigitValue(f[..|f| - 1]);
    }
  }

  /** The field `FormatIPv4` writes for a byte parses back to it. */
  lemma ParseOctetOfDigits(n: byte)
    ensures ParseOctet(NatDigits(n)) == Some(n)
  {
    NatDigitsShort(n);
  }

  /** Dotted-quad text round trip, one way: `ParseIPv4` reads back what
      `FormatIPv4` writes. */
  lemma ParseFormatIPv4(ip: IP)
    requires ip.IPv4?
    ensures ParseIPv4(FormatIPv4(ip)) == Some(ip)
  {
    var parts := [NatDigits(ip.a), NatDigits(ip.b), NatDigits(ip.c), NatDigits(ip.d)];
    assert forall k :: 0 <= k < 4 ==> AllDigits(parts[k]);
    SplitJoinAll(parts, '.');
    ParseOctetOfDigits(ip.a);
    ParseOctetOfDigits(ip.b);
    ParseOctetOfDigits(ip.c);
    ParseOctetOfDigits(ip.d);
  }

  /** And the other way: every text `ParseIPv4` accepts is the one
      `FormatIPv4` writes for the result, so leading zeros are refused. */
  lemma FormatParseIPv4(s: string)
    requires ParseIPv4(s).Some?
    ensures FormatIPv4(ParseIPv4(s).value) == s
  {
    var fs := Split(s, '.');
    JoinSplit(s, '.');
    NatDigitsOfValue(fs[0]);
    NatDigitsOfValue(fs[1]);
    NatDigitsOfValue(fs[2]);
    NatDigitsOfValue(fs[3]);
    var ip := ParseIPv4(s).value;
    assert [NatDigits(ip.a), NatDigits(ip.b), NatDigits(ip.c), NatDigits(ip.d)] == fs;
  }

  /** `Ip2long` (utils/ip.go:39-46): 0 for text `ParseIP` rejects, the
      big-endian value of the four bytes for IPv4, and a panic for IPv6
      without an IPv4 form, where `To4` is nil and reading four bytes from
      it is out of range. */
  function Ip2long(ip: Option<IP>): (r: Outcome<u32>)
    ensures ip.None? ==> r == Returned(0)
    ensures ip.Some? && ip.value.IPv6? ==> r.Panicked?
    ensures ip.Some? && ip.value.IPv4? ==>
      r.Returned? && r.value == ip.value.a * 16777216 + ip.value.b * 65536 + ip.value.c * 256 + ip.value.d
  {
    match ip
    case None => Returned(0)
    case Some(IPv6(_)) => Panicked("index out of range")
    case Some(IPv4(a, b, c, d)) =>
      ReadBE4(a, b, c, d);
      Returned(ReadBE([a, b, c, d]))
  }

  /** Go's `binary.BigEndian.Uint32` on four bytes. */
  lemma ReadBE4(a: byte, b: byte, c: byte, d: byte)
    ensures ReadBE([a, b, c, d]) == a * 16777216 + b * 65536 + c * 256 + d < TWO_32
  {
    var s := [a, b, c, d];
    assert s[..3] == [a, b, c] && [a, b, c][..2] == [a, b] && [a, b][..1] == [a] && [a][..0] == [];
    assert ReadBE([a]) == a;
    assert ReadBE([a, b]) == a * 256 + b;
    assert ReadBE([a, b, c]) == (a * 256 + b) * 256 + c;
    assert a * 16777216 <= 255 * 16777216 && b * 65536 <= 255 * 65536 && c * 256 <= 255 * 256;
  }

  /** `Ip2long` on text. */
  function Ip2longText(s: string, parseIPv6: string -> Option<Bytes16>): Outcome<u32>
  {
    Ip2long(ParseIP(s, parseIPv6))
  }

  /** The number `Ip2long` gives is the address: its four big-endian bytes
      are the address's bytes. */
  lemma Ip2longBytes(ip: IP)
    requires ip.IPv4?
    ensures WriteBE(Ip2long(Some(ip)).value, 4) == [ip.a, ip.b, ip.c, ip.d]
  {
    WriteReadBE([ip.a, ip.b, ip.c, ip.d]);
  }

  /** Dotted-quad text converts to its numeric value, and text with neither
      a dot nor a colon converts to 0. */
  lemma Ip2longOfText(ip: IP, s: string, parseIPv6: string -> Option<Bytes16>)
    requires ip.IPv4?
    ensures Ip2longText(FormatIPv4(ip), parseIPv6) == Returned(ip.a * 16777216 + ip.b * 65536 + ip.c * 256 + ip.d)
    ensures (forall i :: 0 <= i < |s| ==> s[i] != '.' && s[i] != ':') ==> Ip2longText(s, parseIPv6) == Returned(0)
  {
    var t := FormatIPv4(ip);
    ParseFormatIPv4(ip);
    var a := NatDigits(ip.a);
    assert t == a + "." + Join([NatDigits(ip.b), NatDigits(ip.c), NatDigits(ip.d)], '.');
    assert t[|a|] == '.';
    assert forall j :: 0 <= j < |a| ==> t[j] == a[j] && t[j] != ':';
    assert IndexOf(t, '.') == Some(|a|);
  }

  /** Lower-case hexadecimal digits of a group, without leading zeros. */
  function HexDigits(n: nat): (r: string)
    ensures |r| >= 1 && ':' !in r
  {
    var digit := "0123456789abcdef"[n % 16];
    if n < 16 then [digit] else HexDigits(n / 16) + [digit]
  }

  /** The groups of two bytes each from group `from` on, separated by
      colons: the last group has no colon after it. */
  function FormatIPv6(b: Bytes16, from: nat): (r: string)
    requires from < 8
    ensures ':' in r <==> from < 7
    ensures |r| > 0 && r[|r| - 1] != ':'
    decreases 8 - from
  {
    var group := HexDigits(b[2 * from] as int * 256 + b[2 * from + 1] as int);
    if from == 7 then group
    else
      var rest := FormatIPv6(b, from + 1);
      var r := group + ":" + rest;
      assert r[|group|] == ':';
      r
  }

  /** `IP.String`: "<nil>" for no address, the dotted quad for IPv4 and
      colon-separated hexadecimal groups for IPv6. */
  function String(ip: Option<IP>): (r: string)
    ensures ip.None? ==> r == "<nil>"
    ensures ip.Some? && ip.value.IPv4? ==> r == FormatIPv4(ip.value)
    ensures ip.Some? && ip.value.IPv6? ==> ':' in r && r[|r| - 1] != ':'
  {
    match ip
    case None => "<nil>"
    case Some(IPv4(_, _, _, _)) => FormatIPv4(ip.value)
    case Some(IPv6(b)) => FormatIPv6(b, 0)
  }

  const IPv6Loopback: Bytes16 := [0, 0, 0, 0, 0, 0, 0, 0, 0, 0, 0, 0, 0, 0, 0, 1]

  /** `IP.IsLoopback`: 127.0.0.0/8 or ::1; a nil address is not. */
  predicate IsLoopback(ip: Option<IP>)
  {
    match ip
    case None => false
    case Some(IPv4(a, _, _, _)) => a == 127
    case Some(IPv6(b)) => b == IPv6Loopback
  }

  /** One of the sixteen "172.16.0.0/12" to "172.31.0.0/12" strings. */
  function Net172(k: nat): string
  {
    "172." + NatDigits(16 + k) + ".0.0/12"
  }

  /** `localNetworks` (utils/ip.go:52-72), in order: 10/8, 169.254/16,
      the sixteen /12 strings from 172.16 to 172.31, and 192.168/16. */
  const LocalNetworks: seq<string> := [
    "10.0.0.0/8", "169.254.0.0/16",
    Net172(0), Net172(1), Net172(2), Net172(3), Net172(4), Net172(5), Net172(6), Net172(7),
    Net172(8), Net172(9), Net172(10), Net172(11), Net172(12), Net172(13), Net172(14), Net172(15),
    "192.168.0.0/16"]

  /** `IsLocalNet` as written (utils/ip.go:74-83): local when the address's
      text occurs anywhere inside one of the network strings, otherwise when
      it is a loopback address. */
  predicate IsLocalNetAsWritten(ip: Option<IP>)
  {
    (exists network :: network in LocalNetworks && Contains(network, String(ip))) || IsLoopback(ip)
  }

  /** `IsLocalIP` (utils/ip.go:48-50), as written. */
  predicate IsLocalIPAsWritten(s: string, parseIPv6: string -> Option<Bytes16>)
  {
    IsLocalNetAsWritten(ParseIP(s, parseIPv6))
  }

  /** The two digits of 16 to 31. */
  lemma TwoDigits(n: nat)
    requires 16 <= n < 32
    ensures |NatDigits(n)| == 2 && AllDigits(NatDigits(n))
    ensures NatDigits(n)[0] == (if n < 20 then '1' else if n < 30 then '2' else '3')
  {
    assert NatDigits(n) == NatDigits(n / 10) + [DigitChar(n % 10)];
  }

  /** How `LocalNetworks` is laid out. */
  lemma LocalNetworksLayout()
    ensures |LocalNetworks| == 19
    ensures LocalNetworks[0] == "10.0.0.0/8" && LocalNetworks[1] == "169.254.0.0/16"
    ensures LocalNetworks[18] == "192.168.0.0/16"
    ensures forall j :: 2 <= j < 18 ==> LocalNetworks[j] == Net172(j - 2)
  {
    LocalNetworksEnds();
    LocalNetworks172();
  }

  /** The networks around the sixteen /12 strings. */
  lemma LocalNetworksEnds()
    ensures |LocalNetworks| == 19
    ensures LocalNetworks[0] == "10.0.0.0/8" && LocalNetworks[1] == "169.254.0.0/16"
    ensures LocalNetworks[18] == "192.168.0.0/16"
  {
  }

  /** The sixteen /12 strings sit at indices 2 to 17. */
  lemma LocalNetworks172()
    ensures forall j :: 2 <= j < 18 ==> LocalNetworks[j] == Net172(j - 2)
  {
  }

  /** Where a network string comes from. */
  lemma NetworkCases(network: string)
    requires network in LocalNetworks
    ensures network == "10.0.0.0/8" || network == "169.254.0.0/16" || network == "192.168.0.0/16"
      || exists k :: 0 <= k < 16 && network == Net172(k)
  {
    LocalNetworksLayout();
    var j :| 0 <= j < |LocalNetworks| && LocalNetworks[j] == network;
    if 2 <= j < 18 {
      assert network == Net172(j - 2);
    }
  }

  /** Network strings are made of digits, dots and a slash. */
  predicate CidrText(n: string)
  {
    forall i :: 0 <= i < |n| ==> IsDigit(n[i]) || n[i] == '.' || n[i] == '/'
  }

  /** The same for the sixteen "172.x.0.0/12" strings. */
  lemma Net172Characters(k: nat)
    ensures CidrText(Net172(k))
  {
    var n, x := Net172(k), NatDigits(16 + k);
    forall i | 0 <= i < |n|
      ensures IsDigit(n[i]) || n[i] == '.' || n[i] == '/'
    {
      if i < 4 {
        assert n[i] == "172."[i];
      } else if i < 4 + |x| {
        assert n[i] == x[i - 4];
      } else {
        assert n[i] == ".0.0/12"[i - 4 - |x|];
      }
    }
  }

  /** The same for the three network strings written out in full. */
  lemma LiteralCharacters()
    ensures CidrText("10.0.0.0/8") && CidrText("169.254.0.0/16") && CidrText("192.168.0.0/16")
  {
  }

  /** Every listed network string is made of digits, dots and a slash. */
  lemma NetworkCharacters(network: string)
    requires network in LocalNetworks
    ensures CidrText(network)
  {
    NetworkCases(network);
    LiteralCharacters();
    if network != "10.0.0.0/8" && network != "169.254.0.0/16" && network != "192.168.0.0/16" {
      var k :| 0 <= k < 16 && network == Net172(k);
      Net172Characters(k);
    }
  }

  /** Text with a character no network string has is contained in none. */
  lemma AbsentByCharacter(t: string, c: char)
    requires c in t && !IsDigit(c) && c != '.' && c != '/'
    ensures forall network :: network in LocalNetworks ==> !Contains(network, t)
  {
    forall network | network in LocalNetworks
      ensures !Contains(network, t)
    {
      NetworkCharacters(network);
      if Contains(network, t) {
        ContainsChar(network, t, c);
      }
    }
  }

  /** An unparsable address ("<nil>") and any IPv6 text occur in no
      network string, so only the loopback test can make them local. */
  lemma IsLocalNetAsWrittenNonIPv4(ip: Option<IP>)
    requires ip.None? || ip.value.IPv6?
    ensures IsLocalNetAsWritten(ip) <==> IsLoopback(ip)
  {
    var c := if ip.None? then '<' else ':';
    assert c in String(ip);
    AbsentByCharacter(String(ip), c);
  }

  /** Text `ParseIP` rejects is never local. */
  lemma IsLocalIPUnparsable(s: string, parseIPv6: string -> Option<Bytes16>)
    requires ParseIP(s, parseIPv6).None?
    ensures !IsLocalIPAsWritten(s, parseIPv6)
  {
    IsLocalNetAsWrittenNonIPv4(None);
  }

  /** Every 127.x.y.z address is local, whatever the network strings say. */
  lemma LoopbackIsLocalAsWritten(b: byte, c: byte, d: byte)
    ensures IsLocalNetAsWritten(Some(IPv4(127, b, c, d)))
  {
  }

  /** Four fields joined with dots. */
  lemma Join4(a: string, b: string, c: string, d: string)
    ensures Join([a, b, c, d], '.') == a + "." + b + "." + c + "." + d
  {
    assert [a, b, c, d][1..] == [b, c, d] && [b, c, d][1..] == [c, d] && [c, d][1..] == [d];
    assert Join([c, d], '.') == c + "." + d;
    assert Join([b, c, d], '.') == b + "." + (c + "." + d);
  }

  /** The text of a dotted quad from the text of its fields. */
  lemma FormatIPv4Text(ip: IP, a: string, b: string, c: string, d: string)
    requires ip.IPv4?
    requires NatDigits(ip.a) == a && NatDigits(ip.b) == b && NatDigits(ip.c) == c && NatDigits(ip.d) == d
    ensures String(Some(ip)) == a + "." + b + "." + c + "." + d
  {
    Join4(a, b, c, d);
  }

  /** The texts of the addresses the lemmas below look at. */
  lemma TextOf10000()
    ensures String(Some(IPv4(10, 0, 0, 0))) == "10.0.0.0"
  {
    assert NatDigits(10) == NatDigits(1) + ['0'];
    FormatIPv4Text(IPv4(10, 0, 0, 0), "10", "0", "0", "0");
  }

  lemma TextOf721600()
    ensures String(Some(IPv4(72, 16, 0, 0))) == "72.16.0.0"
  {
    assert NatDigits(72) == NatDigits(7) + ['2'];
    assert NatDigits(16) == NatDigits(1) + ['6'];
    FormatIPv4Text(IPv4(72, 16, 0, 0), "72", "16", "0", "0");
  }

  lemma TextOf10123()
    ensures String(Some(IPv4(10, 1, 2, 3))) == "10.1.2.3"
  {
    assert NatDigits(10) == NatDigits(1) + ['0'];
    FormatIPv4Text(IPv4(10, 1, 2, 3), "10", "1", "2", "3");
  }

  lemma TextOf1921681()
    ensures String(Some(IPv4(192, 168, 1, 1))) == "192.168.1.1"
  {
    Digits168();
    Digits192();
    FormatIPv4Text(IPv4(192, 168, 1, 1), "192", "168", "1", "1");
  }

  lemma Digits168()
    ensures NatDigits(168) == "168"
  {
    assert NatDigits(16) == NatDigits(1) + ['6'];
    assert NatDigits(168) == NatDigits(16) + ['8'];
  }

  lemma Digits192()
    ensures NatDigits(192) == "192"
  {
    assert NatDigits(19) == NatDigits(1) + ['9'];
    assert NatDigits(192) == NatDigits(19) + ['2'];
  }

  /** The first and the last network strings, and the first of the 172 ones. */
  lemma SampleNetworks()
    ensures LocalNetworks[0] == "10.0.0.0/8"
    ensures LocalNetworks[2] == "172.16.0.0/12"
  {
    assert NatDigits(16) == NatDigits(1) + ['6'];
  }

  /** Two network strings with an address spliced into them. */
  lemma Splices()
    ensures "10.0.0.0/8" == "" + "10.0.0.0" + "/8"
    ensures "172.16.0.0/12" == "1" + "72.16.0.0" + "/12"
  {
  }

  /** The network address of 10.0.0.0/8 itself is local as written. */
  lemma NetworkAddressIsLocalAsWritten()
    ensures IsLocalNetAsWritten(Some(IPv4(10, 0, 0, 0)))
  {
    Splices();
    OccursInConcat("", "10.0.0.0", "/8");
    TextOf10000();
    SampleNetworks();
    assert LocalNetworks[0] in LocalNetworks;
  }

  /** As written, the public address 72.16.0.0 is local: its text occurs
      inside "172.16.0.0/12". */
  lemma PublicAddressLocalAsWritten()
    ensures IsLocalNetAsWritten(Some(IPv4(72, 16, 0, 0)))
  {
    Splices();
    OccursInConcat("1", "72.16.0.0", "/12");
    TextOf721600();
    SampleNetworks();
    assert LocalNetworks[2] in LocalNetworks;
  }

  /** A "172.x.0.0/12" string holds neither 10.1.2.3 nor 192.168.1.1: the
      dots never line up. */
  lemma Net172Absent(k: nat)
    requires k < 16
    ensures !Contains(Net172(k), "10.1.2.3") && !Contains(Net172(k), "192.168.1.1")
  {
    var n, a, b := Net172(k), "10.1.2.3", "192.168.1.1";
    TwoDigits(16 + k);
    assert |n| == 13 && n[2] == '2' && n[3] == '.' && n[6] == '.' && n[7] == '0' && n[8] == '.' && n[10] == '/';
    assert n[4] != '.' && n[5] != '.';
    forall i: nat | i + |a| <= |n|
      ensures Differs(n, a, i)
    {
      if i == 1 { assert n[i + 4] != a[4]; } else if i == 4 { assert n[i + 6] != a[6]; } else { assert n[i + 2] != a[2]; }
    }
    forall i: nat | i + |b| <= |n|
      ensures Differs(n, b, i)
    {
      assert n[i + 3] != b[3] || n[i + 7] != b[7];
    }
    Absent(n, a);
    Absent(n, b);
  }

  /** Neither 10.1.2.3 nor 192.168.1.1 occurs in "10.0.0.0/8". */
  lemma Net10Absent()
    ensures !Contains("10.0.0.0/8", "10.1.2.3") && !Contains("10.0.0.0/8", "192.168.1.1")
  {
    var n, a := "10.0.0.0/8", "10.1.2.3";
    forall i: nat | i + |a| <= |n|
      ensures Differs(n, a, i)
    {
      if i == 0 { assert n[3] != a[3]; } else if i == 1 { assert n[3] != a[2]; } else { assert n[2] != a[0]; }
    }
    Absent(n, a);
  }

  /** Nor in "169.254.0.0/16" and "192.168.0.0/16". */
  lemma Net16Absent(n: string)
    requires n == "169.254.0.0/16" || n == "192.168.0.0/16"
    ensures !Contains(n, "10.1.2.3") && !Contains(n, "192.168.1.1")
  {
    var a, b := "10.1.2.3", "192.168.1.1";
    forall i: nat | i + |a| <= |n|
      ensures Differs(n, a, i)
    {
      if i == 1 { assert n[i + 4] != a[4]; } else if i == 5 { assert n[i + 6] != a[6]; } else { assert n[i + 2] != a[2]; }
    }
    forall i: nat | i + |b| <= |n|
      ensures Differs(n, b, i)
    {
      if i == 0 && n[1] == '6' { assert n[1] != b[1]; }
      else if i == 0 { assert n[8] != b[8]; }
      else { assert n[i + 3] != b[3]; }
    }
    Absent(n, a);
    Absent(n, b);
  }

  /** Neither 10.1.2.3 nor 192.168.1.1 occurs in any network string. */
  lemma PrivateTextsAbsent()
    ensures forall network :: network in LocalNetworks ==> !Contains(network, "10.1.2.3") && !Contains(network, "192.168.1.1")
  {
    forall network | network in LocalNetworks
      ensures !Contains(network, "10.1.2.3") && !Contains(network, "192.168.1.1")
    {
      NetworkCases(network);
      if network == "10.0.0.0/8" {
        Net10Absent();
      } else if network == "169.254.0.0/16" || network == "192.168.0.0/16" {
        Net16Absent(network);
      } else {
        var k :| 0 <= k < 16 && network == Net172(k);
        Net172Absent(k);
      }
    }
  }

  /** An IPv4 address outside 127/8 whose text occurs in no network string
      is not local as written. */
  lemma NotLocalAsWritten(ip: IP, t: string)
    requires ip.IPv4? && ip.a != 127 && String(Some(ip)) == t
    requires forall network :: network in LocalNetworks ==> !Contains(network, t)
    ensures !IsLocalNetAsWritten(Some(ip))
  {
  }

  /** As written, two private addresses are not local. */
  lemma PrivateAddressesNotLocalAsWritten()
    ensures !IsLocalNetAsWritten(Some(IPv4(10, 1, 2, 3)))
    ensures !IsLocalNetAsWritten(Some(IPv4(192, 168, 1, 1)))
  {
    TenNotLocalAsWritten();
    HomeNotLocalAsWritten();
  }

  lemma TenNotLocalAsWritten()
    ensures !IsLocalNetAsWritten(Some(IPv4(10, 1, 2, 3)))
  {
    PrivateTextsAbsent();
    TextOf10123();
    NotLocalAsWritten(IPv4(10, 1, 2, 3), "10.1.2.3");
  }

  lemma HomeNotLocalAsWritten()
    ensures !IsLocalNetAsWritten(Some(IPv4(192, 168, 1, 1)))
  {
    PrivateTextsAbsent();
    TextOf1921681();
    NotLocalAsWritten(IPv4(192, 168, 1, 1), "192.168.1.1");
  }

  /** A network as `net.ParseCIDR` reads one: its address as a number and
      the length of its prefix. */
  datatype Network = Network(base: u32, bits: nat)

  /** The address a.b.c.d as a number. */
  function Long(a: byte, b: byte, c: byte, d: byte): u32
  {
    a * 16777216 + b * 65536 + c * 256 + d
  }

  /** 172.(16 + k).0.0/12, parsed. */
  function Range172(k: nat): Network
    requires k < 16
  {
    Network(Long(172, 16 + k, 0, 0), 12)
  }

  /** The networks of `LocalNetworks`, parsed. */
  const LocalRanges: seq<Network> := [
    Network(Long(10, 0, 0, 0), 8), Network(Long(169, 254, 0, 0), 16),
    Range172(0), Range172(1), Range172(2), Range172(3), Range172(4), Range172(5), Range172(6), Range172(7),
    Range172(8), Range172(9), Range172(10), Range172(11), Range172(12), Range172(13), Range172(14), Range172(15),
    Network(Long(192, 168, 0, 0), 16)]

  /** How `LocalRanges` is laid out. */
  lemma LocalRangesLayout()
    ensures |LocalRanges| == 19
    ensures LocalRanges[0] == Network(Long(10, 0, 0, 0), 8) && LocalRanges[1] == Network(Long(169, 254, 0, 0), 16)
    ensures LocalRanges[18] == Network(Long(192, 168, 0, 0), 16)
    ensures forall j :: 2 <= j < 18 ==> LocalRanges[j] == Range172(j - 2)
  {
  }

  /** `2^k`. */
  function Pow2(k: nat): (r: nat)
    ensures r >= 1
  {
    if k == 0 then 1 else 2 * Pow2(k - 1)
  }

  /** Powers of two multiply by adding exponents. */
  lemma {:induction false} Pow2Add(a: nat, b: nat)
    ensures Pow2(a + b) == Pow2(a) * Pow2(b)
    decreases a
  {
    if a > 0 {
      Pow2Add(a - 1, b);
    }
  }

  /** The number of addresses a prefix of `bits` leaves free. */
  function BlockSize(bits: nat): nat
  {
    Pow2(if bits < 32 then 32 - bits else 0)
  }

  /** The block sizes of the three prefix lengths listed. */
  lemma BlockSizes()
    ensures BlockSize(16) == 65536 && BlockSize(12) == 1048576 && BlockSize(8) == 16777216
  {
    assert Pow2(2) == 4;
    assert Pow2(4) == 16 by { Pow2Add(2, 2); }
    assert Pow2(8) == 256 by { Pow2Add(4, 4); }
    assert Pow2(16) == 65536 by { Pow2Add(8, 8); }
    assert Pow2(20) == 1048576 by { Pow2Add(16, 4); }
    assert Pow2(24) == 16777216 by { Pow2Add(16, 8); }
  }

  /** `IPNet.Contains` for an IPv4 address: the top `bits` bits agree. */
  predicate InNetwork(v: u32, n: Network)
  {
    v / BlockSize(n.bits) == n.base / BlockSize(n.bits)
  }

  /** `IsLocalNet` as evidently intended: membership in one of the listed
      networks, or loopback. An IPv6 address is in no IPv4 network. */
  predicate IsLocalNet(ip: Option<IP>)
  {
    (ip.Some? && ip.value.IPv4? && exists n :: n in LocalRanges && InNetwork(LongOf(ip.value), n))
    || IsLoopback(ip)
  }

  /** An IPv4 address as a number. */
  function LongOf(ip: IP): u32
    requires ip.IPv4?
  {
    Long(ip.a, ip.b, ip.c, ip.d)
  }

  /** The top 8, 12 and 16 bits of an address. */
  lemma LongPrefixes(a: byte, b: byte, c: byte, d: byte)
    ensures Long(a, b, c, d) / 16777216 == a
    ensures Long(a, b, c, d) / 65536 == a * 256 + b
    ensures Long(a, b, c, d) / 1048576 == a * 16 + b / 16
  {
  }

  /** Membership in a /8, a /16 and a /12 network by the address's bytes. */
  lemma InNetwork8(a: byte, b: byte, c: byte, d: byte, x: byte)
    ensures InNetwork(Long(a, b, c, d), Network(Long(x, 0, 0, 0), 8)) <==> a == x
  {
    BlockSizes();
    LongPrefixes(a, b, c, d);
    LongPrefixes(x, 0, 0, 0);
  }

  lemma InNetwork16(a: byte, b: byte, c: byte, d: byte, x: byte, y: byte)
    ensures InNetwork(Long(a, b, c, d), Network(Long(x, y, 0, 0), 16)) <==> a == x && b == y
  {
    BlockSizes();
    LongPrefixes(a, b, c, d);
    LongPrefixes(x, y, 0, 0);
  }

  lemma InNetwork12(a: byte, b: byte, c: byte, d: byte, k: nat)
    requires k < 16
    ensures InNetwork(Long(a, b, c, d), Range172(k)) <==> a == 172 && 16 <= b < 32
  {
    BlockSizes();
    LongPrefixes(a, b, c, d);
    LongPrefixes(172, 16 + k, 0, 0);
    assert (16 + k) / 16 == 1;
  }

  /** The first two bytes of an address in 10/8, 169.254/16, 172.16/12 or
      192.168/16. */
  predicate PrivateBytes(a: byte, b: byte)
  {
    a == 10 || (a == 169 && b == 254) || (a == 172 && 16 <= b < 32) || (a == 192 && b == 168)
  }

  /** A listed network holds only addresses with private first bytes. */
  lemma InLocalRangeSound(a: byte, b: byte, c: byte, d: byte, n: Network)
    requires n in LocalRanges && InNetwork(Long(a, b, c, d), n)
    ensures PrivateBytes(a, b)
  {
    LocalRangesLayout();
    var j :| 0 <= j < |LocalRanges| && LocalRanges[j] == n;
    if 2 <= j < 18 {
      InNetwork12(a, b, c, d, j - 2);
    } else if j == 0 {
      InNetwork8(a, b, c, d, 10);
    } else if j == 1 {
      InNetwork16(a, b, c, d, 169, 254);
    } else {
      InNetwork16(a, b, c, d, 192, 168);
    }
  }

  /** An address with private first bytes lies in a listed network. */
  lemma InLocalRangeComplete(a: byte, b: byte, c: byte, d: byte)
    requires PrivateBytes(a, b)
    ensures exists n :: n in LocalRanges && InNetwork(Long(a, b, c, d), n)
  {
    var i := LocalRangeIndex(a, b, c, d);
    assert LocalRanges[i] in LocalRanges;
  }

  /** The position of the listed network that holds a private address. */
  lemma LocalRangeIndex(a: byte, b: byte, c: byte, d: byte) returns (i: nat)
    requires PrivateBytes(a, b)
    ensures i < |LocalRanges| && InNetwork(Long(a, b, c, d), LocalRanges[i])
  {
    LocalRangesLayout();
    if a == 10 {
      i := 0;
      InNetwork8(a, b, c, d, 10);
    } else if a == 169 && b == 254 {
      i := 1;
      InNetwork16(a, b, c, d, 169, 254);
    } else if a == 172 && 16 <= b < 32 {
      i := 2 + b - 16;
      InNetwork12(a, b, c, d, b - 16);
    } else {
      i := 18;
      InNetwork16(a, b, c, d, 192, 168);
    }
  }

  /** The corrected test is exactly the private ranges of RFC 1918, the
      link-local range 169.254/16 of RFC 3927 and loopback 127/8. */
  lemma IsLocalNetRanges(a: byte, b: byte, c: byte, d: byte)
    ensures IsLocalNet(Some(IPv4(a, b, c, d))) <==>
      a == 10 || (a == 169 && b == 254) || (a == 172 && 16 <= b < 32) || (a == 192 && b == 168) || a == 127
  {
    var ip := IPv4(a, b, c, d);
    assert LongOf(ip) == Long(a, b, c, d);
    if PrivateBytes(a, b) {
      InLocalRangeComplete(a, b, c, d);
    }
    if exists n :: n in LocalRanges && InNetwork(Long(a, b, c, d), n) {
      var n :| n in LocalRanges && InNetwork(Long(a, b, c, d), n);
      InLocalRangeSound(a, b, c, d, n);
    }
  }

  /** Where the two disagree: private addresses the substring test misses
      and a public one it accepts. */
  lemma IsLocalNetCorrects()
    ensures !IsLocalNetAsWritten(Some(IPv4(10, 1, 2, 3))) && IsLocalNet(Some(IPv4(10, 1, 2, 3)))
    ensures !IsLocalNetAsWritten(Some(IPv4(192, 168, 1, 1))) && IsLocalNet(Some(IPv4(192, 168, 1, 1)))
    ensures IsLocalNetAsWritten(Some(IPv4(72, 16, 0, 0))) && !IsLocalNet(Some(IPv4(72, 16, 0, 0)))
  {
    PrivateAddressesNotLocalAsWritten();
    PublicAddressLocalAsWritten();
    IsLocalNetRanges(10, 1, 2, 3);
    IsLocalNetRanges(192, 168, 1, 1);
    IsLocalNetRanges(72, 16, 0, 0);
  }

  /** Both agree off IPv4: an unparsable address and IPv6 are local only
      when loopback. */
  lemma IsLocalNetAgreesOffIPv4(ip: Option<IP>)
    requires ip.None? || ip.value.IPv6?
    ensures IsLocalNetAsWritten(ip) == IsLocalNet(ip)
  {
    IsLocalNetAsWrittenNonIPv4(ip);
  }
}

=== FILE: legacy_client.dfy ===
/** The older websocket client of websocket_client.go: the `Status` and
    `Reconnect` flags, the `Push` gate, `Close`, `reconnecting`,
    `catchError` and the configuration `Connect` fills in. The transport is
    reduced to the events it delivers, and the calls the client makes become
    actions, in order. */
module LegacyClient {

  import opened Outcomes
  import opened Decimal
  import opened Bytes
  import Registry

  /** The client fields `Connect` reads and writes. */
  datatype Config = Config(
    protocol: string, host: string, port: int, path: string,
    autoHeartBeat: bool, heartBeat: Hook,
    handshakeTimeout: int, writeBufferSize: int, readBufferSize: int,
    heartBeatInterval: int, reconnectInterval: int,
    onOpen: Hook, onClose: Hook, onError: Hook)

  /** `Connect`'s defaults (websocket_client.go:148-199): host, port,
      protocol and path are filled in first, then a missing `OnOpen`,
      `OnClose` or `OnError` panics, then the remaining zero fields are
      filled in. Timeouts and intervals are in seconds here. */
  function Configure(c: Config): (r: Outcome<Config>)
    ensures r.Panicked? <==> c.onOpen == Nil || c.onClose == Nil || c.onError == Nil
    ensures c.onOpen == Nil ==> r == Panicked("OnOpen must set")
    ensures c.onOpen != Nil && c.onClose == Nil ==> r == Panicked("OnClose must set")
    ensures c.onOpen != Nil && c.onClose != Nil && c.onError == Nil ==> r == Panicked("OnError must set")
    ensures r.Returned? ==> r.value.host == OrString(c.host, "127.0.0.1") && r.value.port == OrInt(c.port, 1207)
    ensures r.Returned? ==> r.value.protocol == OrString(c.protocol, "ws") && r.value.path == OrString(c.path, "/")
    ensures r.Returned? ==> r.value.handshakeTimeout == OrInt(c.handshakeTimeout, 2)
    ensures r.Returned? ==> r.value.writeBufferSize == OrInt(c.writeBufferSize, 2 * 1024 * 1024)
    ensures r.Returned? ==> r.value.readBufferSize == OrInt(c.readBufferSize, 2 * 1024 * 1024)
    ensures r.Returned? ==> r.value.heartBeatInterval == OrInt(c.heartBeatInterval, 15)
    ensures r.Returned? ==> r.value.reconnectInterval == OrInt(c.reconnectInterval, 1)
    ensures r.Returned? ==> r.value.onOpen == c.onOpen && r.value.onClose == c.onClose && r.value.onError == c.onError
    ensures r.Returned? ==> r.value.autoHeartBeat == c.autoHeartBeat && r.value.heartBeat == c.heartBeat
  {
    var c := c.(host := OrString(c.host, "127.0.0.1"), port := OrInt(c.port, 1207),
                protocol := OrString(c.protocol, "ws"), path := OrString(c.path, "/"));
    if c.onOpen == Nil then Panicked("OnOpen must set")
    else if c.onClose == Nil then Panicked("OnClose must set")
    else if c.onError == Nil then Panicked("OnError must set")
    else
      Returned(c.(
        handshakeTimeout := OrInt(c.handshakeTimeout, 2),
        writeBufferSize := OrInt(c.writeBufferSize, 2 * 1024 * 1024),
        readBufferSize := OrInt(c.readBufferSize, 2 * 1024 * 1024),
        heartBeatInterval := OrInt(c.heartBeatInterval, 15),
        reconnectInterval := OrInt(c.reconnectInterval, 1)))
  }

  /** Running `Configure` on its own result changes nothing: defaults only
      replace zero fields. */
  lemma ConfigureIdempotent(c: Config)
    requires Configure(c).Returned?
    ensures Configure(Configure(c).value) == Configure(c)
  {
  }

  /** The dial address, `"%s://%s:%d%s"` (websocket_client.go:208). */
  function DialUrl(c: Config): string
  {
    c.protocol + "://" + c.host + ":" + FormatInt(c.port) + c.path
  }

  /** After `Configure` the dial URL is built from the filled-in defaults. */
  lemma DialUrlConfigured(c: Config)
    requires Configure(c).Returned?
    ensures DialUrl(Configure(c).value) ==
      OrString(c.protocol, "ws") + "://" + OrString(c.host, "127.0.0.1") + ":" +
      FormatInt(OrInt(c.port, 1207)) + OrString(c.path, "/")
  {
  }

  /** A client with nothing but its callbacks set dials ws://127.0.0.1:1207/. */
  lemma DefaultUrl(c: Config)
    requires c.protocol == "" && c.host == "" && c.port == 0 && c.path == ""
    requires c.onOpen != Nil && c.onClose != Nil && c.onError != Nil
    ensures Configure(c).Returned?
    ensures DialUrl(Configure(c).value) == "ws://127.0.0.1:1207/"
  {
    var d := Configure(c).value;
    assert d.protocol == "ws" && d.host == "127.0.0.1" && d.port == 1207 && d.path == "/";
    DefaultUrlText();
  }

  /** The dial address of the default fields, spelled out. */
  lemma DefaultUrlText()
    ensures "ws" + "://" + "127.0.0.1" + ":" + FormatInt(1207) + "/" == "ws://127.0.0.1:1207/"
  {
    DefaultPortText();
  }

  /** The decimal text of the default port, digit by digit. */
  lemma DefaultPortText()
    ensures FormatInt(1207) == "1207"
  {
    Digits120();
    assert NatDigits(1207) == NatDigits(120) + [DigitChar(7)];
  }

  lemma Digits120()
    ensures NatDigits(120) == ['1', '2', '0']
  {
    Digits12();
    assert NatDigits(120) == NatDigits(12) + [DigitChar(0)];
  }

  lemma Digits12()
    ensures NatDigits(12) == ['1', '2']
  {
    assert NatDigits(12) == NatDigits(1) + [DigitChar(2)];
  }

  /** The two flags, and whether `Conn` has ever been set. */
  datatype Flags = Flags(status: bool, reconnect: bool, hasConn: bool)

  /** Calls the client makes, in order. */
  datatype Action =
    | Write(kind: int, message: seq<byte>)
    | CloseConn
    | LaunchOnOpen
    | LaunchOnClose
    | LaunchOnError(err: string)
    | StopTicker
    | ScheduleConnect(seconds: int)

  /** `Push` (websocket_client.go:106-116): a closed client returns
      "client is close" and writes nothing; otherwise the write's error is returned. */
  function Push(f: Flags, kind: int, message: seq<byte>, writeErr: Error): (r: (Error, seq<Action>))
    ensures !f.status ==> r == (Some("client is close"), [])
    ensures f.status ==> r == (writeErr, [Write(kind, message)])
  {
    if !f.status then (Some("client is close"), []) else (writeErr, [Write(kind, message)])
  }

  /** `Close` (websocket_client.go:118-121): clears `Reconnect` first, then
      closes the connection, which panics when there has never been one. */
  function Close(f: Flags): (r: Outcome<(Flags, seq<Action>)>)
    ensures r.Panicked? <==> !f.hasConn
    ensures r.Returned? ==> r.value.0 == f.(reconnect := false) && r.value.1 == [CloseConn]
  {
    if !f.hasConn then Panicked("invalid memory address or nil pointer dereference")
    else Returned((f.(reconnect := false), [CloseConn]))
  }

  /** `reconnecting` (websocket_client.go:123-129). */
  function Reconnecting(f: Flags, interval: int): (r: seq<Action>)
    ensures r != [] <==> f.reconnect
    ensures r != [] ==> r == [ScheduleConnect(interval)]
  {
    if f.reconnect then [ScheduleConnect(interval)] else []
  }

  /** `catchError` after a panic in `Connect` (a missing callback or a
      failed dial): report through `OnError` when set, then reconnect iff
      `Reconnect` still holds. */
  function CatchError(f: Flags, c: Config, reason: string): (r: seq<Action>)
    ensures (ScheduleConnect(c.reconnectInterval) in r) <==> f.reconnect
    ensures c.onError != Nil ==> |r| > 0 && r[0] == LaunchOnError(reason)
  {
    (if c.onError != Nil then [LaunchOnError(reason)] else []) + Reconnecting(f, c.reconnectInterval)
  }

  /** A `Connect` that panics on a missing callback ends in `catchError`
      with that panic as the reason: it is reported through `OnError` when
      that is set, which leaves only a missing `OnOpen` or `OnClose`; and the
      retry uses the interval as the caller left it, since the numeric
      defaults come after the check. */
  lemma ConfigurePanicReported(f: Flags, c: Config)
    requires Configure(c).Panicked?
    ensures c.onError != Nil ==>
      CatchError(f, c, Configure(c).reason)[0] == LaunchOnError(Configure(c).reason) &&
      Configure(c).reason in {"OnOpen must set", "OnClose must set"}
    ensures c.onError == Nil ==>
      CatchError(f, c, Configure(c).reason) == Reconnecting(f, c.reconnectInterval)
    ensures ScheduleConnect(c.reconnectInterval) in CatchError(f, c, Configure(c).reason) <==> f.reconnect
  {
  }

  /** A successful dial: `Conn` set, `Status` true, then `OnOpen` launched.
      With `AutoHeartBeat` a missing `HeartBeat` becomes the built-in ping
      and one the user gave is kept; without it the ticker is stopped at
      once and `HeartBeat` is left alone. The result is the new flags, the
      actions in order and the configuration the client runs with. */
  function Dialed(f: Flags, c: Config): (r: (Flags, seq<Action>, Config))
    ensures r.0.status && r.0.hasConn && r.0.reconnect == f.reconnect
    ensures |r.1| > 0 && r.1[0] == LaunchOnOpen
    ensures StopTicker in r.1 <==> !c.autoHeartBeat
    ensures c.autoHeartBeat && c.heartBeat == Nil ==> r.2.heartBeat == Builtin
    ensures c.heartBeat != Nil || !c.autoHeartBeat ==> r.2.heartBeat == c.heartBeat
    ensures r.2.(heartBeat := c.heartBeat) == c
  {
    (f.(status := true, hasConn := true),
     [LaunchOnOpen] + (if c.autoHeartBeat then [] else [StopTicker]),
     c.(heartBeat := if c.autoHeartBeat then OrHook(c.heartBeat) else c.heartBeat))
  }

  /** Once dialed, the client is open: a push goes to the connection and
      returns the connection's own write error. */
  lemma PushAfterDial(f: Flags, c: Config, kind: int, message: seq<byte>, writeErr: Error)
    ensures Push(Dialed(f, c).0, kind, message, writeErr) == (writeErr, [Write(kind, message)])
  {
  }

  /** The heartbeat `Connect` installs when `AutoHeartBeat` is set and none
      was given: a ping message with no payload. */
  function DefaultHeartBeat(f: Flags, writeErr: Error): (r: (Error, seq<Action>))
    ensures f.status ==> r.1 == [Write(Registry.PingMessage, [])]
  {
    Push(f, Registry.PingMessage, [], writeErr)
  }

  /** On a dialed client with `AutoHeartBeat` and no heartbeat of its own,
      every tick writes a ping with no payload. */
  lemma DialedHeartBeatPings(f: Flags, c: Config, writeErr: Error)
    requires c.autoHeartBeat && c.heartBeat == Nil
    ensures Dialed(f, c).2.heartBeat == Builtin
    ensures DefaultHeartBeat(Dialed(f, c).0, writeErr) == (writeErr, [Write(Registry.PingMessage, [])])
  {
  }

  /** The cleanup after a read or heartbeat failure, as written
      (websocket_client.go:285-294): `Status` off, `Close` (which clears
      `Reconnect`), `OnClose`, then `reconnecting`, which finds `Reconnect` false. */
  function DisconnectAsWritten(f: Flags, c: Config): Outcome<(Flags, seq<Action>)>
  {
    var g := f.(status := false);
    match Close(g)
    case Panicked(why) => Panicked(why)
    case Returned((h, closing)) =>
      Returned((h, [StopTicker] + closing + [LaunchOnClose] + Reconnecting(h, c.reconnectInterval)))
  }

  /** As written, the cleanup never schedules a reconnect, whatever `Reconnect` was. */
  lemma DisconnectAsWrittenNeverReconnects(f: Flags, c: Config)
    requires f.hasConn
    ensures DisconnectAsWritten(f, c).Returned?
    ensures forall a :: a in DisconnectAsWritten(f, c).value.1 ==> !a.ScheduleConnect?
  {
  }

  /** The cleanup as evidently intended: the decision to reconnect is taken
      on the `Reconnect` setting the client had before `Close` cleared it.
      The cleanup only runs after a successful dial, so `Conn` is set. */
  function Disconnect(f: Flags, c: Config): (r: (Flags, seq<Action>))
    requires f.hasConn
    ensures !r.0.status && !r.0.reconnect
    ensures |r.1| >= 3 && r.1[..3] == [StopTicker, CloseConn, LaunchOnClose]
    ensures ScheduleConnect(c.reconnectInterval) in r.1 <==> f.reconnect
  {
    var h := f.(status := false, reconnect := false);
    var r := (h, [StopTicker, CloseConn, LaunchOnClose] + Reconnecting(f, c.reconnectInterval));
    assert r.1[..3] == [StopTicker, CloseConn, LaunchOnClose];
    assert f.reconnect ==> r.1[3] == ScheduleConnect(c.reconnectInterval);
    r
  }

  /** Both agree on everything but the reconnect. */
  lemma DisconnectAgrees(f: Flags, c: Config)
    requires f.hasConn
    ensures DisconnectAsWritten(f, c).Returned?
    ensures DisconnectAsWritten(f, c).value.0 == Disconnect(f, c).0
    ensures !f.reconnect ==> DisconnectAsWritten(f, c).value.1 == Disconnect(f, c).1
  {
  }

  /** After the cleanup the client is closed: a push is refused. */
  lemma PushAfterDisconnect(f: Flags, c: Config, kind: int, message: seq<byte>, writeErr: Error)
    requires f.hasConn
    ensures Push(Disconnect(f, c).0, kind, message, writeErr) == (Some("client is close"), [])
  {
  }
}

=== FILE: legacy_frame.dfy ===
/** The legacy event framing of socket.go: `JsonEmit`/`ProtoBufEmit` write
    `\r\n`, a length byte, a format byte, the event name and the payload
    (socket.go:227-273); the read loop's goroutine takes such a message
    apart again (socket.go:494-537). Event names are the bytes of the Go
    string; payloads are opaque (JSON and protobuf encoding are not modelled). */
module LegacyFrame {

  import opened Outcomes
  import opened Bytes
  import Registry

  /** Format bytes (socket.go:73-75). */
  const Text: byte := 0
  const Json: byte := 1
  const ProtoBuf: byte := 2

  const CR: byte := 13
  const LF: byte := 10
  const Slash: byte := 47

  predicate IsFormat(f: byte)
  {
    f == Json || f == ProtoBuf
  }

  /** An empty event name is sent as "/". */
  function EventOrRoot(event: seq<byte>): (r: seq<byte>)
    ensures |r| >= 1
    ensures |event| > 0 ==> r == event
    ensures |event| == 0 ==> r == [Slash]
  {
    if |event| == 0 then [Slash] else event
  }

  /** The emitted frame. The length byte is `byte(len(event))`, the name's
      length modulo 256. */
  function Emit(format: byte, event: seq<byte>, payload: seq<byte>): (r: seq<byte>)
    ensures |r| == 4 + |EventOrRoot(event)| + |payload|
    ensures r[0] == CR && r[1] == LF
    ensures r[2] == |EventOrRoot(event)| % 256 && r[3] == format
    ensures r[4..4 + |EventOrRoot(event)|] == EventOrRoot(event)
    ensures r[4 + |EventOrRoot(event)|..] == payload
  {
    var ev := EventOrRoot(event);
    [CR, LF, |ev| % 256, format] + ev + payload
  }

  /** The call to `Socket.Push` an emit makes. */
  datatype Request = Request(fd: u32, kind: int, data: seq<byte>)

  /** `JsonEmit`: a marshalling error is returned (with the "protobuf error"
      prefix the source uses here too) and nothing is pushed; otherwise the
      frame goes out as a text message. */
  function JsonEmit(fd: u32, event: seq<byte>, marshalled: Result<seq<byte>>): (r: Result<Request>)
    ensures marshalled.Err? ==> r == Err("protobuf error: " + marshalled.error)
    ensures marshalled.Ok? ==> r.Ok? && r.value.fd == fd && r.value.kind == Registry.TextMessage
    ensures marshalled.Ok? ==> r.value.data == Emit(Json, event, marshalled.value)
  {
    match marshalled
    case Err(e) => Err("protobuf error: " + e)
    case Ok(p) => Ok(Request(fd, Registry.TextMessage, Emit(Json, event, p)))
  }

  /** `ProtoBufEmit`: the same framing with the ProtoBuf format byte, sent
      as a binary message. */
  function ProtoBufEmit(fd: u32, event: seq<byte>, marshalled: Result<seq<byte>>): (r: Result<Request>)
    ensures marshalled.Err? ==> r == Err("protobuf error: " + marshalled.error)
    ensures marshalled.Ok? ==> r.Ok? && r.value.fd == fd && r.value.kind == Registry.BinaryMessage
    ensures marshalled.Ok? ==> r.value.data == Emit(ProtoBuf, event, marshalled.value)
  {
    match marshalled
    case Err(e) => Err("protobuf error: " + e)
    case Ok(p) => Ok(Request(fd, Registry.BinaryMessage, Emit(ProtoBuf, event, p)))
  }

  /** How the read loop classifies one message: ignored, handed raw to
      `OnMessage`, or split into an event and data for the router. */
  datatype Parsed =
    | Dropped
    | Raw
    | Routed(event: seq<byte>, data: seq<byte>, format: byte)

  /** The four-byte preamble the parser insists on. */
  predicate HasPreamble(m: seq<byte>)
  {
    |m| >= 4 && m[0] == CR && m[1] == LF && IsFormat(m[3])
  }

  /** The parse block as written. `4+message[2]` and `message[2]+4` add an
      untyped constant to a byte, so the sum wraps modulo 256: for a length
      byte of 252 or more the event slice has its low bound above its high
      bound and the goroutine panics. */
  function ParseAsWritten(m: seq<byte>): (r: Outcome<Parsed>)
    ensures r.Panicked? <==> HasPreamble(m) && m[2] >= 252 && |m| >= m[2] as int + 4
    ensures r == Returned(Dropped) <==> |m| == 0
  {
    if |m| == 0 then Returned(Dropped)
    else if !HasPreamble(m) then Returned(Raw)
    else if m[2] == 0 then Returned(Routed([Slash], [], m[3]))
    else if |m| < m[2] as int + 4 then Returned(Raw)
    else
      var hi := (4 + m[2] as int) % 256;
      if hi < 4 then Panicked("slice bounds out of range")
      else Returned(Routed(m[4..hi], m[hi..], m[3]))
  }

  /** The parse block with the index arithmetic done in `int`. */
  function Parse(m: seq<byte>): (r: Parsed)
    ensures r.Dropped? <==> |m| == 0
    ensures r.Routed? <==> HasPreamble(m) && |m| >= m[2] as int + 4
    ensures r.Routed? ==> r.format == m[3]
    ensures r.Routed? && m[2] == 0 ==> r.event == [Slash] && r.data == []
    ensures r.Routed? && m[2] != 0 ==> |r.event| == m[2] && m == m[..4] + r.event + r.data
  {
    if |m| == 0 then Dropped
    else if !HasPreamble(m) then Raw
    else if m[2] == 0 then Routed([Slash], [], m[3])
    else if |m| < m[2] as int + 4 then Raw
    else
      var hi := 4 + m[2] as int;
      assert m == m[..4] + m[4..hi] + m[hi..];
      Routed(m[4..hi], m[hi..], m[3])
  }

  /** Below a length byte of 252 the source computes the same thing. */
  lemma ParseAsWrittenAgrees(m: seq<byte>)
    requires |m| < 3 || m[2] < 252
    ensures ParseAsWritten(m) == Returned(Parse(m))
  {
  }

  /** Parsing reads back what emit wrote, for every event name of 1 to 255
      bytes (an empty name comes back as "/"). */
  lemma ParseEmit(format: byte, event: seq<byte>, payload: seq<byte>)
    requires IsFormat(format) && |event| <= 255
    ensures Parse(Emit(format, event, payload)) == Routed(EventOrRoot(event), payload, format)
  {
    var m := Emit(format, event, payload);
    var ev := EventOrRoot(event);
    assert m[4..4 + |ev|] == ev;
  }

  /** And every message the parser routes on a non-zero length byte is
      exactly the frame emit writes for the parts it found. */
  lemma EmitParse(m: seq<byte>)
    requires Parse(m).Routed? && m[2] != 0
    ensures Emit(Parse(m).format, Parse(m).event, Parse(m).data) == m
  {
  }

  /** As written, the round trip holds only up to 251 bytes of event name. */
  lemma ParseAsWrittenEmit(format: byte, event: seq<byte>, payload: seq<byte>)
    requires IsFormat(format) && |event| <= 251
    ensures ParseAsWritten(Emit(format, event, payload)) == Returned(Routed(EventOrRoot(event), payload, format))
  {
    ParseEmit(format, event, payload);
    ParseAsWrittenAgrees(Emit(format, event, payload));
  }

  /** A 252-byte event name, emitted by the server's own `JsonEmit`, makes
      the parser as written panic. */
  lemma ParseAsWrittenPanicsOnLongEvent(payload: seq<byte>)
    ensures ParseAsWritten(Emit(Json, seq(252, _ => 97), payload)).Panicked?
  {
    var m := Emit(Json, seq(252, _ => 97), payload);
    assert m[2] == 252;
  }

  /** Emit keeps only the low byte of the name's length: a 256-byte name is
      read back as the root event with no data. */
  lemma ParseEmitLongEvent(format: byte, payload: seq<byte>)
    requires IsFormat(format)
    ensures Parse(Emit(format, seq(256, _ => 97), payload)) == Routed([Slash], [], format)
  {
    var m := Emit(format, seq(256, _ => 97), payload);
    assert m[2] == 0;
  }

  /** `ReceivePackage` (socket.go:23-28). */
  datatype ReceivePackage = ReceivePackage(messageType: int, event: seq<byte>, message: seq<byte>, formatType: byte)

  /** Where one received message goes. */
  datatype Delivery =
    | Nowhere
    | ToOnMessage(messageType: int, message: seq<byte>)
    | ToRouter(pkg: ReceivePackage)

  /** The per-message goroutine of the read loop (socket.go:492-539), on the
      parse as written: a length byte of 252 or more on a frame long enough
      to be routed panics the goroutine; otherwise raw messages reach
      `OnMessage` only when it is set, and routed ones reach the router only
      when there is one. */
  function Receive(messageType: int, m: seq<byte>, hasOnMessage: bool, hasRouter: bool): (r: Outcome<Delivery>)
    ensures r.Panicked? <==> HasPreamble(m) && m[2] >= 252 && |m| >= m[2] as int + 4
    ensures r.Returned? && r.value.ToOnMessage? ==>
      hasOnMessage && Parse(m).Raw? && r.value.message == m && r.value.messageType == messageType
    ensures r.Returned? && r.value.ToRouter? ==> (
      hasRouter && Parse(m).Routed?
      && r.value.pkg == ReceivePackage(messageType, Parse(m).event, Parse(m).data, Parse(m).format))
    ensures r.Returned? ==>
      (r.value.Nowhere? <==> Parse(m).Dropped? || (Parse(m).Raw? && !hasOnMessage) || (Parse(m).Routed? && !hasRouter))
  {
    ParseAsWrittenSound(m);
    match ParseAsWritten(m)
    case Panicked(why) => Panicked(why)
    case Returned(Dropped) => Returned(Nowhere)
    case Returned(Raw) => Returned(if hasOnMessage then ToOnMessage(messageType, m) else Nowhere)
    case Returned(Routed(ev, data, f)) =>
      Returned(if hasRouter then ToRouter(ReceivePackage(messageType, ev, data, f)) else Nowhere)
  }

  /** When the parser as written returns, it returns what `Parse` computes;
      it panics exactly on a routable frame whose length byte wraps. */
  lemma ParseAsWrittenSound(m: seq<byte>)
    ensures ParseAsWritten(m).Returned? ==> ParseAsWritten(m).value == Parse(m)
    ensures ParseAsWritten(m).Panicked? <==> HasPreamble(m) && m[2] >= 252 && |m| >= m[2] as int + 4
  {
  }

  /** A frame from `JsonEmit` reaches the router with its event and payload
      when the name has at most 251 bytes; with 252 to 255 bytes the read
      goroutine panics. */
  lemma JsonEmitReceive(fd: u32, event: seq<byte>, payload: seq<byte>)
    requires |event| <= 255
    ensures JsonEmit(fd, event, Ok(payload)).Ok?
    ensures |event| <= 251 ==>
      Receive(Registry.TextMessage, JsonEmit(fd, event, Ok(payload)).value.data, true, true)
        == Returned(ToRouter(ReceivePackage(Registry.TextMessage, EventOrRoot(event), payload, Json)))
    ensures |event| >= 252 ==>
      Receive(Registry.TextMessage, JsonEmit(fd, event, Ok(payload)).value.data, true, true).Panicked?
  {
    ParseEmit(Json, event, payload);
    if |event| >= 252 {
      var m := Emit(Json, event, payload);
      assert m[2] == |event|;
    }
  }
}

=== FILE: outcomes.dfy ===
/** Values shared by every module of the model: failures and Go zero-value defaulting.
    `Option` stands for Go's nil-or-value returns; `Outcome` records whether a
    Go function returned normally or panicked (a slice out of range, a nil
    dereference, an explicit `panic`). */
module Outcomes {

  datatype Option<+T> = None | Some(value: T)

  /** What a Go call does: return a value, or panic with a message. */
  datatype Outcome<+T> = Returned(value: T) | Panicked(reason: string)

  /** A value or the error that replaced it. */
  datatype Result<+T> = Ok(value: T) | Err(error: string)

  /** `err == nil` is `None`; an error carries its message. */
  type Error = Option<string>

  const NoError: Error := None

  /** A callback field: unset (`nil`), the built-in default a constructor
      installs, or one the user supplied. */
  datatype Hook = Nil | Builtin | User(name: string)

  /** Go's "if the field is zero, use the default" idiom, per field type. */
  function OrInt(v: int, d: int): int
  {
    if v == 0 then d else v
  }

  function OrString(v: string, d: string): string
  {
    if v == "" then d else v
  }

  function OrHook(h: Hook): Hook
  {
    if h == Nil then Builtin else h
  }
}

=== FILE: reassembly.dfy ===
/** The streaming reader of socket/udp/protocol.go (`Reader`): a closure over a
    byte buffer and the pending frame length. Each call appends the newly read
    bytes and hands every complete frame to the callback, in arrival order. */
module Reassembly {

  import opened Bytes
  import opened Frame

  /** The two variables the closure captures: `singleMessageLen` and `message`. */
  datatype ReaderState = ReaderState(pending: nat, buffer: seq<byte>)

  const Fresh: ReaderState := ReaderState(0, [])

  /** What holds between two calls of the closure: either no length is pending
      and less than a header is buffered, or the buffered header is valid, its
      declared length is pending and more bytes are still needed. */
  ghost predicate Inv(st: ReaderState)
  {
    || (st.pending == 0 && |st.buffer| < HeadLen)
    || (IsHeaderValid(st.buffer) && st.pending == GetLen(st.buffer) && st.pending > |st.buffer|)
  }

  /** The reference reading of a byte stream from a frame boundary: the
      complete frames in order, the incomplete tail, and whether a header
      was refused (at which point reading stops). */
  datatype Split = Split(frames: seq<seq<byte>>, rest: seq<byte>, failed: bool)

  function Concat(fs: seq<seq<byte>>): seq<byte>
  {
    if |fs| == 0 then [] else fs[0] + Concat(fs[1..])
  }

  lemma {:induction false} ConcatAppend(a: seq<seq<byte>>, b: seq<seq<byte>>)
    ensures Concat(a + b) == Concat(a) + Concat(b)
  {
    if |a| > 0 {
      assert (a + b)[1..] == a[1..] + b;
      ConcatAppend(a[1..], b);
    } else {
      assert a + b == b;
    }
  }

  function SplitFrames(s: seq<byte>): Split
    decreases |s|
  {
    if |s| < HeadLen then Split([], s, false)
    else if !IsHeaderValid(s) then Split([], [], true)
    else if |s| < GetLen(s) then Split([], s, false)
    else
      var n := GetLen(s);
      var t := SplitFrames(s[n..]);
      Split([s[..n]] + t.frames, t.rest, t.failed)
  }

  /** Every frame the split delivers is well formed. */
  lemma {:induction false} SplitFramesWellFormed(s: seq<byte>)
    ensures forall i :: 0 <= i < |SplitFrames(s).frames| ==> WellFormed(SplitFrames(s).frames[i])
    decreases |s|
  {
    if |s| >= HeadLen && IsHeaderValid(s) && |s| >= GetLen(s) {
      var n := GetLen(s);
      var f := s[..n];
      HeaderOfPrefix(f, s);
      SplitFramesWellFormed(s[n..]);
      var t := SplitFrames(s[n..]);
      forall i | 0 <= i < |t.frames| + 1
        ensures WellFormed(([f] + t.frames)[i])
      {
        if i > 0 {
          assert ([f] + t.frames)[i] == t.frames[i - 1];
        }
      }
    }
  }

  /** Nothing is lost or reordered: the frames followed by the leftover are the input. */
  lemma {:induction false} SplitFramesCover(s: seq<byte>)
    ensures !SplitFrames(s).failed ==> Concat(SplitFrames(s).frames) + SplitFrames(s).rest == s
    decreases |s|
  {
    if |s| >= HeadLen && IsHeaderValid(s) && |s| >= GetLen(s) {
      var n := GetLen(s);
      var f := s[..n];
      SplitFramesCover(s[n..]);
      var t := SplitFrames(s[n..]);
      assert ([f] + t.frames)[1..] == t.frames;
      assert Concat([f] + t.frames) == f + Concat(t.frames);
      assert f + s[n..] == s;
    }
  }

  /** A refused header discards everything; otherwise the leftover is still waiting. */
  lemma {:induction false} SplitFramesRest(s: seq<byte>)
    ensures SplitFrames(s).failed ==> SplitFrames(s).rest == []
    ensures !SplitFrames(s).failed ==> Waiting(SplitFrames(s).rest)
    decreases |s|
  {
    if |s| >= HeadLen && IsHeaderValid(s) && |s| >= GetLen(s) {
      SplitFramesRest(s[GetLen(s)..]);
    }
  }

  /** A leftover the reader keeps: less than a header, or a valid header whose
      frame has not fully arrived. */
  predicate Waiting(rest: seq<byte>)
  {
    |rest| < HeadLen || (IsHeaderValid(rest) && GetLen(rest) > |rest|)
  }

  /** Frames already delivered, followed by a split of what remains. */
  function Prepend(done: seq<seq<byte>>, sp: Split): Split
  {
    Split(done + sp.frames, sp.rest, sp.failed)
  }

  /** The reader state that goes with a buffer left over by `SplitFrames`. */
  function Settle(rest: seq<byte>): ReaderState
  {
    ReaderState(if |rest| < HeadLen then 0 else GetLen(rest), rest)
  }

  /** One call of the closure, loop for loop: append the chunk, then deliver
      complete frames until the buffer runs short; a refused header empties
      the buffer, resets the pending length and reports "invalid header". */
  method Feed(st: ReaderState, chunk: seq<byte>) returns (next: ReaderState, out: seq<seq<byte>>, invalid: bool)
    requires Inv(st)
    ensures Inv(next)
    ensures out == SplitFrames(st.buffer + chunk).frames
    ensures invalid == SplitFrames(st.buffer + chunk).failed
    ensures next == (if invalid then Fresh else Settle(SplitFrames(st.buffer + chunk).rest))
  {
    var pending := st.pending;
    var message := st.buffer + chunk;
    if pending > 0 {
      HeaderOfPrefix(st.buffer, message);
    }
    ghost var whole := SplitFrames(message);
    out := [];
    invalid := false;
    if |message| < HeadLen {
      return ReaderState(pending, message), out, invalid;
    }
    while true
      invariant pending == 0 || (IsHeaderValid(message) && pending == GetLen(message))
      invariant whole == Prepend(out, SplitFrames(message))
      decreases |message|
    {
      if |message| < HeadLen {
        return ReaderState(pending, message), out, invalid;
      }
      if pending == 0 {
        if !IsHeaderValid(message) {
          return ReaderState(0, message[0..0]), out, true;
        }
        pending := GetLen(message);
      }
      if |message| < pending {
        return ReaderState(pending, message), out, invalid;
      }
      var frame := message[0..pending];
      SplitFramesUnfold(message);
      PrependTwice(out, frame, SplitFrames(message[pending..]));
      out := out + [frame];
      message := message[pending..];
      pending := 0;
    }
  }

  /** One complete frame at the front of the stream. */
  lemma SplitFramesUnfold(s: seq<byte>)
    requires |s| >= HeadLen && IsHeaderValid(s) && |s| >= GetLen(s)
    ensures SplitFrames(s) == Prepend([s[0..GetLen(s)]], SplitFrames(s[GetLen(s)..]))
  {
    assert s[..GetLen(s)] == s[0..GetLen(s)];
  }

  lemma PrependTwice(done: seq<seq<byte>>, f: seq<byte>, sp: Split)
    ensures Prepend(done, Prepend([f], sp)) == Prepend(done + [f], sp)
  {
    assert done + ([f] + sp.frames) == (done + [f]) + sp.frames;
  }

  /** Reading from a frame boundary is compositional: splitting `a + b` is
      splitting `a`, then splitting its leftover followed by `b`. */
  lemma {:induction false} SplitAppend(a: seq<byte>, b: seq<byte>)
    requires !SplitFrames(a).failed
    ensures SplitFrames(a + b).frames == SplitFrames(a).frames + SplitFrames(SplitFrames(a).rest + b).frames
    ensures SplitFrames(a + b).rest == SplitFrames(SplitFrames(a).rest + b).rest
    ensures SplitFrames(a + b).failed == SplitFrames(SplitFrames(a).rest + b).failed
    decreases |a|, 1
  {
    if |a| < HeadLen || |a| < GetLen(a) {
      assert SplitFrames(a) == Split([], a, false);
      assert [] + SplitFrames(a + b).frames == SplitFrames(a + b).frames;
    } else {
      SplitAppendFrame(a, b);
    }
  }

  /** One unfolding of `SplitFrames` at a complete frame. */
  lemma SplitStep(s: seq<byte>)
    requires |s| >= HeadLen && IsHeaderValid(s) && |s| >= GetLen(s)
    ensures SplitFrames(s).frames == [s[..GetLen(s)]] + SplitFrames(s[GetLen(s)..]).frames
    ensures SplitFrames(s).rest == SplitFrames(s[GetLen(s)..]).rest
    ensures SplitFrames(s).failed == SplitFrames(s[GetLen(s)..]).failed
  {
  }

  /** The step of `SplitAppend` where `a` starts with a complete frame. */
  lemma {:induction false} SplitAppendFrame(a: seq<byte>, b: seq<byte>)
    requires !SplitFrames(a).failed
    requires |a| >= HeadLen && IsHeaderValid(a) && |a| >= GetLen(a)
    ensures SplitFrames(a + b).frames == SplitFrames(a).frames + SplitFrames(SplitFrames(a).rest + b).frames
    ensures SplitFrames(a + b).rest == SplitFrames(SplitFrames(a).rest + b).rest
    ensures SplitFrames(a + b).failed == SplitFrames(SplitFrames(a).rest + b).failed
    decreases |a|, 0
  {
    var n := GetLen(a);
    var f := a[..n];
    var ab := a + b;
    var tail := a[n..];
    assert SplitFrames(a) == Prepend([f], SplitFrames(tail)) by {
      SplitStep(a);
    }
    assert SplitFrames(ab) == Prepend([f], SplitFrames(tail + b)) by {
      HeaderOfPrefix(a, ab);
      SplitStep(ab);
      assert ab[..n] == f && ab[n..] == tail + b;
    }
    SplitAppend(tail, b);
    PrependCompose([f], SplitFrames(tail), SplitFrames(tail + b), SplitFrames(SplitFrames(tail).rest + b));
  }

  /** The bookkeeping step of `SplitAppendFrame`, stated on splits alone. */
  lemma PrependCompose(done: seq<seq<byte>>, t: Split, tb: Split, more: Split)
    requires tb.frames == t.frames + more.frames && tb.rest == more.rest && tb.failed == more.failed
    ensures Prepend(done, tb).frames == Prepend(done, t).frames + more.frames
    ensures Prepend(done, tb).rest == more.rest && Prepend(done, tb).failed == more.failed
  {
    assert done + (t.frames + more.frames) == (done + t.frames) + more.frames;
  }

  /** Once a header has been refused, more bytes change nothing already decided. */
  lemma {:induction false} SplitFailedPrefix(a: seq<byte>, b: seq<byte>)
    requires SplitFrames(a).failed
    ensures SplitFrames(a + b).failed
    ensures SplitFrames(a + b).frames == SplitFrames(a).frames
    decreases |a|
  {
    HeaderOfPrefix(a, a + b);
    if IsHeaderValid(a) {
      var n := GetLen(a);
      assert (a + b)[..n] == a[..n];
      assert (a + b)[n..] == a[n..] + b;
      SplitFailedPrefix(a[n..], b);
    }
  }

  /** The bytes of the first `i + 1` chunks are those of the first `i`, then chunk `i`. */
  lemma ConcatPrefixStep(chunks: seq<seq<byte>>, i: nat)
    requires i < |chunks|
    ensures Concat(chunks[..i + 1]) == Concat(chunks[..i]) + chunks[i]
  {
    ConcatAppend(chunks[..i], [chunks[i]]);
    assert chunks[..i + 1] == chunks[..i] + [chunks[i]];
    assert Concat([chunks[i]]) == chunks[i];
  }

  /** A stream with no refused header has no prefix of chunks with one. */
  lemma ConcatPrefixSound(chunks: seq<seq<byte>>, i: nat)
    requires i <= |chunks|
    requires !SplitFrames(Concat(chunks)).failed
    ensures !SplitFrames(Concat(chunks[..i])).failed
  {
    ConcatAppend(chunks[..i], chunks[i..]);
    assert chunks == chunks[..i] + chunks[i..];
    if SplitFrames(Concat(chunks[..i])).failed {
      SplitFailedPrefix(Concat(chunks[..i]), Concat(chunks[i..]));
    }
  }

  /** Feeding a fresh reader chunk after chunk. When no header is refused
      anywhere in the stream, what comes out depends only on the bytes and not
      on where the transport cut them: it is the split of the whole stream. */
  method FeedAll(chunks: seq<seq<byte>>) returns (st: ReaderState, out: seq<seq<byte>>)
    requires !SplitFrames(Concat(chunks)).failed
    ensures out == SplitFrames(Concat(chunks)).frames
    ensures st == Settle(SplitFrames(Concat(chunks)).rest)
    ensures Inv(st)
  {
    st := Fresh;
    out := [];
    var i := 0;
    ghost var prefix: seq<byte> := [];
    while i < |chunks|
      invariant 0 <= i <= |chunks|
      invariant prefix == Concat(chunks[..i])
      invariant Inv(st)
      invariant !SplitFrames(prefix).failed
      invariant out == SplitFrames(prefix).frames
      invariant st == Settle(SplitFrames(prefix).rest)
    {
      ConcatPrefixStep(chunks, i);
      ConcatPrefixSound(chunks, i + 1);
      SplitAppend(prefix, chunks[i]);
      var invalid;
      var got;
      st, got, invalid := Feed(st, chunks[i]);
      out := out + got;
      prefix := prefix + chunks[i];
      i := i + 1;
    }
    assert chunks[..i] == chunks;
  }

  /** A stream made of well-formed frames is read back as exactly those frames,
      with nothing left over. */
  lemma {:induction false} SplitOfFrames(fs: seq<seq<byte>>)
    requires forall i :: 0 <= i < |fs| ==> WellFormed(fs[i])
    ensures SplitFrames(Concat(fs)) == Split(fs, [], false)
  {
    if |fs| > 0 {
      var s := Concat(fs);
      var f := fs[0];
      var rest := Concat(fs[1..]);
      assert s == f + rest;
      assert s[..HeadLen] == f[..HeadLen];
      HeaderOfPrefix(f, s);
      SplitFramesUnfold(s);
      assert s[0..|f|] == f;
      assert s[|f|..] == rest;
      SplitOfFrames(fs[1..]);
      assert [f] + fs[1..] == fs;
    }
  }

  /** Hence two chunkings of the same sequence of frames yield the same frames. */
  lemma ChunkingIndependence(fs: seq<seq<byte>>, chunks: seq<seq<byte>>)
    requires forall i :: 0 <= i < |fs| ==> WellFormed(fs[i])
    requires Concat(chunks) == Concat(fs)
    ensures !SplitFrames(Concat(chunks)).failed
    ensures SplitFrames(Concat(chunks)).frames == fs
    ensures SplitFrames(Concat(chunks)).rest == []
  {
    SplitOfFrames(fs);
  }
}

=== FILE: registry.dfy ===
/** The server side of socket.go: the connection table owned by the actor
    goroutine (socket.go:417-440), id allocation in `addConnect`,
    `delConnect`, `GetConnection`, the `Push` request, `CheckPath` and the
    `Init` defaults. The actor's channels serialise every change to the
    table, so the model is a step function over a sequence of events; the
    callbacks it launches with `go` become effects listed in order. */
module Registry {

  import opened Outcomes
  import opened Bytes
  import opened Decimal
  import Strings

  /** gorilla/websocket message types, re-exported by socket.go:61-71. */
  const TextMessage: int := 1
  const BinaryMessage: int := 2
  const PingMessage: int := 9
  const PongMessage: int := 10

  /** `Socket.Fd`, the `connections` table and `Socket.count`. `C` stands
      for the identity of a `*Connection`. */
  datatype Socket<C> = Socket(fd: u32, conns: map<u32, C>, count: u32)

  /** The table never holds id 0, which `addConnect` reserves for "unassigned". */
  ghost predicate Valid<C>(s: Socket<C>)
  {
    0 !in s.conns
  }

  /** The first step of `addConnect`: bump the counter, skipping 0 on wrap-around. */
  function NextFd(fd: u32): (r: u32)
    ensures r != 0
    ensures fd < TWO_32 - 1 ==> r == fd + 1
    ensures fd == TWO_32 - 1 ==> r == 1
  {
    if IncU32(fd) == 0 then IncU32(0) else IncU32(fd)
  }

  /** The collision loop of `addConnect` as written: `maxFd` counts up from
      its start, but the slot tested on every round is `probe`, the counter
      that just collided. `None` is the `maxFd == 0` exit ("connections overflow"). */
  function ProbeAsWritten<C>(conns: map<u32, C>, probe: u32, maxFd: u32): Option<u32>
    decreases TWO_32 - maxFd
  {
    var next := IncU32(maxFd);
    if next == 0 then None
    else if probe !in conns then Some(next)
    else ProbeAsWritten(conns, probe, next)
  }

  /** Since the probed slot never changes, a taken slot keeps the loop going
      until `maxFd` wraps to 0: the loop as written can only give up. */
  lemma {:induction false} ProbeAsWrittenGivesUp<C>(conns: map<u32, C>, probe: u32, maxFd: u32)
    requires probe in conns
    ensures ProbeAsWritten(conns, probe, maxFd) == None
    decreases TWO_32 - maxFd
  {
    if IncU32(maxFd) != 0 {
      ProbeAsWrittenGivesUp(conns, probe, IncU32(maxFd));
    }
  }

  /** The collision loop as evidently intended: test `maxFd` itself, which
      finds the lowest free id above the start. */
  function ScanFree<C>(conns: map<u32, C>, maxFd: u32): (r: Option<u32>)
    ensures r.Some? ==> maxFd < r.value && r.value !in conns
    ensures r.Some? ==> forall k: u32 :: maxFd < k < r.value ==> k in conns
    ensures r.None? ==> forall k: u32 :: maxFd < k ==> k in conns
    decreases TWO_32 - maxFd
  {
    var next := IncU32(maxFd);
    if next == 0 then None
    else if next !in conns then Some(next)
    else ScanFree(conns, next)
  }

  /** What `addConnect` leaves behind: the socket, and the id written into
      `conn.Fd` (Go's zero value 0 when the function returns before writing it). */
  datatype Added<C> = Added(socket: Socket<C>, connFd: u32)

  /** `addConnect` as written (socket.go:275-317). */
  function AddConnectAsWritten<C>(s: Socket<C>, c: C): (r: Added<C>)
    ensures NextFd(s.fd) !in s.conns ==> r.connFd == NextFd(s.fd) && r.socket.conns == s.conns[r.connFd := c]
    ensures NextFd(s.fd) in s.conns ==> r.connFd == 0 && r.socket.conns == s.conns
    ensures r.socket.fd == NextFd(s.fd) && r.socket.count == s.count
  {
    var fd := NextFd(s.fd);
    if fd !in s.conns then Added(s.(fd := fd, conns := s.conns[fd := c]), fd)
    else
      ProbeAsWrittenGivesUp(s.conns, fd, 0);
      match ProbeAsWritten(s.conns, fd, 0)
      case None => Added(s.(fd := fd), 0)
      case Some(m) => Added(s.(fd := m, conns := s.conns[m := c]), m)
  }

  /** As written, a collision on the counter never registers the connection:
      the table is untouched, the counter keeps its bumped value and the
      connection's id stays 0. */
  lemma AddConnectAsWrittenCollision<C>(s: Socket<C>, c: C)
    requires NextFd(s.fd) in s.conns
    ensures AddConnectAsWritten(s, c) == Added(s.(fd := NextFd(s.fd)), 0)
  {
    ProbeAsWrittenGivesUp(s.conns, NextFd(s.fd), 0);
  }

  /** The smallest input that shows it: counter 0, id 1 already taken. */
  lemma AddConnectAsWrittenLosesConnection(c1: int, c2: int)
    ensures AddConnectAsWritten(Socket(0, map[1 := c1], 1), c2).connFd == 0
    ensures 2 !in AddConnectAsWritten(Socket(0, map[1 := c1], 1), c2).socket.conns
  {
    AddConnectAsWrittenCollision(Socket(0, map[1 := c1], 1), c2);
  }

  /** `addConnect` with the collision loop testing `maxFd`: the connection is
      stored under the bumped counter when that is free, otherwise under the
      lowest free non-zero id; the id is 0 only if every non-zero id is taken. */
  function AddConnect<C>(s: Socket<C>, c: C): (r: Added<C>)
    ensures Valid(s) ==> Valid(r.socket)
    ensures r.socket.count == s.count
    ensures NextFd(s.fd) !in s.conns ==>
      r == Added(s.(fd := NextFd(s.fd), conns := s.conns[NextFd(s.fd) := c]), NextFd(s.fd))
    ensures r.connFd != 0 ==>
      r.connFd !in s.conns && r.socket.conns == s.conns[r.connFd := c] && r.socket.fd == r.connFd
    ensures NextFd(s.fd) in s.conns && r.connFd != 0 ==>
      forall k: u32 :: 0 < k < r.connFd ==> k in s.conns
    ensures r.connFd == 0 ==>
      r.socket.conns == s.conns && forall k: u32 :: 0 < k ==> k in s.conns
  {
    var fd := NextFd(s.fd);
    if fd !in s.conns then Added(s.(fd := fd, conns := s.conns[fd := c]), fd)
    else
      match ScanFree(s.conns, 0)
      case None => Added(s.(fd := fd), 0)
      case Some(m) => Added(s.(fd := m, conns := s.conns[m := c]), m)
  }

  /** On the same input the corrected allocation registers the connection as 2. */
  lemma AddConnectRegistersAfterCollision(c1: int, c2: int)
    ensures AddConnect(Socket(0, map[1 := c1], 1), c2).connFd == 2
    ensures AddConnect(Socket(0, map[1 := c1], 1), c2).socket.conns == map[1 := c1, 2 := c2]
  {
    var s := Socket(0, map[1 := c1], 1);
    assert ScanFree(s.conns, 1) == Some(2);
  }

  /** Both versions agree whenever the bumped counter is free. */
  lemma AddConnectAgreesWhenFree<C>(s: Socket<C>, c: C)
    requires NextFd(s.fd) !in s.conns
    ensures AddConnectAsWritten(s, c) == AddConnect(s, c)
  {
  }

  /** `delConnect`: removes the one key, and nothing else. */
  function DelConnect<C>(s: Socket<C>, fd: u32): (r: Socket<C>)
    ensures fd !in r.conns
    ensures r.conns.Keys == s.conns.Keys - {fd}
    ensures forall k :: k in r.conns ==> r.conns[k] == s.conns[k]
    ensures fd !in s.conns ==> r == s
    ensures r.fd == s.fd && r.count == s.count
  {
    s.(conns := s.conns - {fd})
  }

  /** `GetConnection`: the stored connection, or `None` for an unknown id. */
  function GetConnection<C>(s: Socket<C>, fd: u32): (r: Option<C>)
    ensures r.Some? <==> fd in s.conns
    ensures r.Some? ==> r.value == s.conns[fd]
  {
    if fd in s.conns then Some(s.conns[fd]) else None
  }

  /** A connection just registered is found under the id it was given, and
      every connection that was there before is still found. */
  lemma AddThenGet<C>(s: Socket<C>, c: C, fd: u32)
    requires AddConnect(s, c).connFd != 0
    ensures GetConnection(AddConnect(s, c).socket, AddConnect(s, c).connFd) == Some(c)
    ensures fd in s.conns ==> GetConnection(AddConnect(s, c).socket, fd) == Some(s.conns[fd])
  {
  }

  /** After `delConnect` the id is not found; other ids are unaffected. */
  lemma DelThenGet<C>(s: Socket<C>, fd: u32, other: u32)
    requires other != fd
    ensures GetConnection(DelConnect(s, fd), fd) == None
    ensures GetConnection(DelConnect(s, fd), other) == GetConnection(s, other)
  {
  }

  /** The three requests the actor serves. `Close` carries the `conn.Fd` of
      the closing connection. */
  datatype Event<C> =
    | Open(conn: C)
    | Close(fd: u32)
    | Push(fd: u32, kind: int, msg: seq<byte>)

  /** What the actor does besides changing the table: the callbacks it
      launches, the frame it writes and the error it sends back on `connBack`. */
  datatype Effect<C> =
    | OnOpen(conn: C, fd: u32)
    | OnClose(fd: u32)
    | Write(conn: C, kind: int, msg: seq<byte>)
    | Reply(err: Error)

  /** `Socket.Push`: a message type of 0 means text. */
  function PushRequest<C>(fd: u32, kind: int, msg: seq<byte>): (e: Event<C>)
    ensures e.Push? && e.fd == fd && e.msg == msg
    ensures e.kind != 0
    ensures kind != 0 ==> e.kind == kind
    ensures kind == 0 ==> e.kind == TextMessage
  {
    Push(fd, if kind == 0 then TextMessage else kind, msg)
  }

  /** The error `Push` returns for an id that is not in the table. */
  function ClosedError(fd: u32): string
  {
    "client " + FormatInt(fd) + " is close"
  }

  /** One round of the actor loop (socket.go:417-440), which registers
      connections with `addConnect` as written. `write` is the transport's
      `WriteMessage`, whose error the push returns. */
  function Step<C>(s: Socket<C>, e: Event<C>, write: (C, int, seq<byte>) -> Error): (r: (Socket<C>, seq<Effect<C>>))
    ensures e.Open? ==> r.0.count == IncU32(s.count)
    ensures e.Open? && NextFd(s.fd) !in s.conns ==>
      r.0.conns == s.conns[NextFd(s.fd) := e.conn] && r.1 == [OnOpen(e.conn, NextFd(s.fd))]
    ensures e.Open? && NextFd(s.fd) in s.conns ==> r.0.conns == s.conns && r.1 == [OnOpen(e.conn, 0)]
    ensures e.Close? ==> r.0.conns == s.conns - {e.fd} && r.0.count == DecU32(s.count) && r.1 == [OnClose(e.fd)]
    ensures e.Push? ==> r.0 == s && |r.1| == (if e.fd in s.conns then 2 else 1) && r.1[|r.1| - 1].Reply?
  {

    match e
    case Open(c) =>
      var a := AddConnectAsWritten(s, c);
      (a.socket.(count := IncU32(s.count)), [OnOpen(c, a.connFd)])
    case Close(fd) =>
      (DelConnect(s, fd).(count := DecU32(s.count)), [OnClose(fd)])
    case Push(fd, kind, msg) =>
      if fd !in s.conns then (s, [Reply(Some(ClosedError(fd)))])
      else (s, [Write(s.conns[fd], kind, msg), Reply(write(s.conns[fd], kind, msg))])
  }

  /** Every step keeps id 0 out of the table. */
  lemma StepValid<C>(s: Socket<C>, e: Event<C>, write: (C, int, seq<byte>) -> Error)
    requires Valid(s)
    ensures Valid(Step(s, e, write).0)
  {
    if e.Open? && NextFd(s.fd) in s.conns {
      AddConnectAsWrittenCollision(s, e.conn);
    }
  }

  /** An open whose bumped counter is taken registers nothing: the table
      is unchanged, the count still goes up and `OnOpen` sees id 0. */
  lemma OpenOnCollision<C>(s: Socket<C>, c: C, write: (C, int, seq<byte>) -> Error)
    requires NextFd(s.fd) in s.conns
    ensures Step(s, Open(c), write).0.conns == s.conns
    ensures Step(s, Open(c), write).0.count == IncU32(s.count)
    ensures Step(s, Open(c), write).1 == [OnOpen(c, 0)]
  {
    AddConnectAsWrittenCollision(s, c);
  }

  /** A push never changes the socket. It writes exactly once, to the
      registered connection, and replies with the write's error; to an
      unknown id it writes nothing and replies "client <fd> is close". */
  lemma PushEffects<C>(s: Socket<C>, fd: u32, kind: int, msg: seq<byte>, write: (C, int, seq<byte>) -> Error)
    ensures Step(s, PushRequest(fd, kind, msg), write).0 == s
    ensures fd !in s.conns ==>
      Step(s, PushRequest(fd, kind, msg), write).1 == [Reply(Some(ClosedError(fd)))]
    ensures fd in s.conns ==>
      Step(s, PushRequest(fd, kind, msg), write).1
        == [Write(s.conns[fd], if kind == 0 then TextMessage else kind, msg),
            Reply(write(s.conns[fd], if kind == 0 then TextMessage else kind, msg))]
  {
  }

  /** Open and Close move `count` by one whether or not the table changed:
      closing an id that is not registered still decrements it. */
  lemma CloseUnknownStillCounts<C>(s: Socket<C>, fd: u32, write: (C, int, seq<byte>) -> Error)
    requires fd !in s.conns
    ensures Step(s, Close(fd), write).0.conns == s.conns
    ensures Step(s, Close(fd), write).0.count == DecU32(s.count)
  {
  }

  /** A connection opened on a free counter slot receives the bumped counter
      as its id, and a push to that id reaches it. */
  lemma OpenThenPush<C>(s: Socket<C>, c: C, msg: seq<byte>, write: (C, int, seq<byte>) -> Error)
    requires NextFd(s.fd) !in s.conns
    ensures Step(s, Open(c), write).1 == [OnOpen(c, NextFd(s.fd))]
    ensures Step(Step(s, Open(c), write).0, PushRequest(NextFd(s.fd), 0, msg), write).1
      == [Write(c, TextMessage, msg), Reply(write(c, TextMessage, msg))]
  {
  }

  /** The actor serving a sequence of events in order. */
  function Run<C>(s: Socket<C>, es: seq<Event<C>>, write: (C, int, seq<byte>) -> Error): Socket<C>
    decreases |es|
  {
    if |es| == 0 then s else Run(Step(s, es[0], write).0, es[1..], write)
  }

  /** The actor serves events one at a time, in arrival order: one more
      event is one more step on the socket the earlier ones left. */
  lemma {:induction false} RunAppend<C>(s: Socket<C>, es: seq<Event<C>>, e: Event<C>, write: (C, int, seq<byte>) -> Error)
    ensures Run(s, es + [e], write) == Step(Run(s, es, write), e, write).0
    decreases |es|
  {
    if |es| == 0 {
      assert es + [e] == [e];
    } else {
      assert (es + [e])[1..] == es[1..] + [e];
      RunAppend(Step(s, es[0], write).0, es[1..], e, write);
    }
  }

  function Opens<C>(es: seq<Event<C>>): nat
  {
    if |es| == 0 then 0 else (if es[0].Open? then 1 else 0) + Opens(es[1..])
  }

  function Closes<C>(es: seq<Event<C>>): nat
  {
    if |es| == 0 then 0 else (if es[0].Close? then 1 else 0) + Closes(es[1..])
  }

  /** How an event moves `count`. */
  function Delta<C>(e: Event<C>): int
  {
    if e.Open? then 1 else if e.Close? then -1 else 0
  }

  lemma StepCount<C>(s: Socket<C>, e: Event<C>, write: (C, int, seq<byte>) -> Error)
    ensures Step(s, e, write).0.count == (s.count + Delta(e)) % TWO_32
  {
  }

  /** How an event moves `count`, in u32 arithmetic. */
  function Tally<C>(c: u32, e: Event<C>): u32
  {
    if e.Open? then IncU32(c) else if e.Close? then DecU32(c) else c
  }

  /** `count` after a sequence of events, from the events alone. */
  function Tallies<C>(c: u32, es: seq<Event<C>>): u32
    decreases |es|
  {
    if |es| == 0 then c else Tallies(Tally(c, es[0]), es[1..])
  }

  /** The actor's `count` depends on the events only, not on the table. */
  lemma {:induction false} RunTallies<C>(s: Socket<C>, es: seq<Event<C>>, write: (C, int, seq<byte>) -> Error)
    ensures Run(s, es, write).count == Tallies(s.count, es)
    decreases |es|
  {
    if |es| > 0 {
      RunTallies(Step(s, es[0], write).0, es[1..], write);
    }
  }

  lemma TallyMod<C>(c: u32, e: Event<C>)
    ensures Tally(c, e) == (c + Delta(e)) % TWO_32
  {
  }

  /** The tally is the opens minus the closes, modulo 2^32. */
  lemma {:induction false} TalliesClosed<C>(c: u32, es: seq<Event<C>>)
    ensures Tallies(c, es) == (c + Opens(es) - Closes(es)) % TWO_32
    decreases |es|
  {
    if |es| > 0 {
      var next := Tally(c, es[0]);
      TalliesClosed(next, es[1..]);
      TallyMod(c, es[0]);
      OpensClosesStep(es);
      CountShift(c, next, Delta(es[0]), Opens(es[1..]) - Closes(es[1..]));
    } else {
      ModSmall(c);
    }
  }

  /** `count` is the number of opens minus the number of closes, modulo 2^32,
      independent of what the table holds. */
  lemma RunCount<C>(s: Socket<C>, es: seq<Event<C>>, write: (C, int, seq<byte>) -> Error)
    ensures Run(s, es, write).count == (s.count + Opens(es) - Closes(es)) % TWO_32
  {
    RunTallies(s, es, write);
    TalliesClosed(s.count, es);
  }

  /** Moving the first event's share of the count under the modulus. */
  lemma CountShift(c0: int, c1: int, d: int, rest: int)
    requires c1 == (c0 + d) % TWO_32
    ensures (c1 + rest) % TWO_32 == (c0 + (d + rest)) % TWO_32
  {
    ModShift(c0 + d, rest);
  }

  /** The first event's share of the opens minus the closes. */
  lemma OpensClosesStep<C>(es: seq<Event<C>>)
    requires |es| > 0
    ensures Opens(es) - Closes(es) == Delta(es[0]) + Opens(es[1..]) - Closes(es[1..])
  {
  }

  lemma ModSmall(a: u32)
    ensures a % TWO_32 == a
  {
  }

  lemma ModShift(a: int, b: int)
    ensures (a % TWO_32 + b) % TWO_32 == (a + b) % TWO_32
  {
    var q := a / TWO_32;
    assert a == q * TWO_32 + a % TWO_32;
    assert a % TWO_32 + b == (a + b) - q * TWO_32;
  }

  /** Id 0 stays out of the table over any run. */
  lemma {:induction false} RunValid<C>(s: Socket<C>, es: seq<Event<C>>, write: (C, int, seq<byte>) -> Error)
    requires Valid(s)
    ensures Valid(Run(s, es, write))
    decreases |es|
  {
    if |es| > 0 {
      StepValid(s, es[0], write);
      RunValid(Step(s, es[0], write).0, es[1..], write);
    }
  }

  /** `CheckPath`: exact comparison, or comparison after lowering both paths
      when `IgnoreCase` is set. */
  function CheckPath(ignoreCase: bool, p1: string, p2: string): (r: bool)
    ensures !ignoreCase ==> (r <==> p1 == p2)
    ensures ignoreCase ==> (r <==> Strings.EqualFold(p1, p2))
  {
    Strings.ToLowerEqualFold(p1, p2);
    if ignoreCase then Strings.ToLower(p1) == Strings.ToLower(p2) else p1 == p2
  }

  /** Path matching is an equivalence, and ignoring case only ever accepts more. */
  lemma CheckPathEquivalence(ignoreCase: bool, p1: string, p2: string, p3: string)
    ensures CheckPath(ignoreCase, p1, p1)
    ensures CheckPath(ignoreCase, p1, p2) ==> CheckPath(ignoreCase, p2, p1)
    ensures CheckPath(ignoreCase, p1, p2) && CheckPath(ignoreCase, p2, p3) ==> CheckPath(ignoreCase, p1, p3)
    ensures CheckPath(false, p1, p2) ==> CheckPath(true, p1, p2)
  {
  }

  /** The fields of `Socket` that `Init` fills in. */
  datatype Config = Config(
    heartBeatTimeout: int, heartBeatInterval: int, handshakeTimeout: int,
    readBufferSize: int, writeBufferSize: int, waitQueueSize: int,
    checkOrigin: Hook, onOpen: Hook, onClose: Hook, onError: Hook)

  /** `Init` defaults: 30 s heartbeat timeout, 20 s interval, 2 s handshake,
      4096-byte buffers, a queue of 1024; every nil callback gets the built-in one. */
  function Init(c: Config): (r: Config)
    ensures r.heartBeatTimeout != 0 && r.heartBeatInterval != 0 && r.handshakeTimeout != 0
    ensures r.readBufferSize != 0 && r.writeBufferSize != 0 && r.waitQueueSize != 0
    ensures r.checkOrigin != Nil && r.onOpen != Nil && r.onClose != Nil && r.onError != Nil
    ensures c.heartBeatTimeout == 0 ==> r.heartBeatTimeout == 30
    ensures c.heartBeatInterval == 0 ==> r.heartBeatInterval == 20
    ensures c.handshakeTimeout == 0 ==> r.handshakeTimeout == 2
    ensures c.readBufferSize == 0 ==> r.readBufferSize == 4096
    ensures c.writeBufferSize == 0 ==> r.writeBufferSize == 4096
    ensures c.waitQueueSize == 0 ==> r.waitQueueSize == 1024
    ensures c.heartBeatTimeout != 0 ==> r.heartBeatTimeout == c.heartBeatTimeout
    ensures c.heartBeatInterval != 0 ==> r.heartBeatInterval == c.heartBeatInterval
    ensures c.handshakeTimeout != 0 ==> r.handshakeTimeout == c.handshakeTimeout
    ensures c.readBufferSize != 0 ==> r.readBufferSize == c.readBufferSize
    ensures c.writeBufferSize != 0 ==> r.writeBufferSize == c.writeBufferSize
    ensures c.waitQueueSize != 0 ==> r.waitQueueSize == c.waitQueueSize
    ensures c.checkOrigin != Nil ==> r.checkOrigin == c.checkOrigin
    ensures c.onOpen != Nil ==> r.onOpen == c.onOpen
    ensures c.onClose != Nil ==> r.onClose == c.onClose
    ensures c.onError != Nil ==> r.onError == c.onError
  {
    Config(
      OrInt(c.heartBeatTimeout, 30), OrInt(c.heartBeatInterval, 20), OrInt(c.handshakeTimeout, 2),
      OrInt(c.readBufferSize, 4096), OrInt(c.writeBufferSize, 4096), OrInt(c.waitQueueSize, 1024),
      OrHook(c.checkOrigin), OrHook(c.onOpen), OrHook(c.onClose), OrHook(c.onError))
  }

  /** `Init` keeps every field that was already set, so running it twice is
      the same as running it once. */
  lemma InitKeepsSetFields(c: Config)
    ensures c.heartBeatTimeout != 0 && c.heartBeatInterval != 0 && c.handshakeTimeout != 0
      && c.readBufferSize != 0 && c.writeBufferSize != 0 && c.waitQueueSize != 0
      && c.checkOrigin != Nil && c.onOpen != Nil && c.onClose != Nil && c.onError != Nil
      ==> Init(c) == c
    ensures Init(Init(c)) == Init(c)
  {
  }
}

=== FILE: request_info.dfy ===
/** The request builder of the HTTP client (http/client/info.go): the
    parallel header key and value lists, the cookie list and the plain
    setters. Cookies are kept abstract; what `AddCookie` compares them by,
    `http.Cookie.String`, is a parameter. */
module RequestInfo {

  import opened Outcomes
  import opened Strings

  /** A byte `textproto` accepts in a header name: the token characters. */
  predicate IsTokenChar(c: char)
  {
    IsUpper(c) || IsLower(c) || ('0' <= c <= '9') || c in "!#$%&'*+-.^_`|~"
  }

  /** Upper-case the first letter and every letter after '-', lower-case the rest. */
  function CanonicalFrom(s: string, upper: bool): (r: string)
    ensures |r| == |s|
    ensures |s| > 0 ==> r[0] == (if upper then Upper(s[0]) else Lower(s[0]))
    ensures forall i :: 0 < i < |s| ==> r[i] == (if s[i - 1] == '-' then Upper(s[i]) else Lower(s[i]))
    ensures forall i :: 0 <= i < |s| ==> (r[i] == '-' <==> s[i] == '-')
  {
    if |s| == 0 then []
    else
      var c := if upper then Upper(s[0]) else Lower(s[0]);
      var r := [c] + CanonicalFrom(s[1..], s[0] == '-');
      assert forall i :: 1 <= i < |s| ==> s[i] == s[1..][i - 1];
      r
  }

  /** A header name made of token characters only. */
  predicate TokenName(s: string)
    decreases |s|
  {
    |s| == 0 || (IsTokenChar(s[0]) && TokenName(s[1..]))
  }

  lemma {:induction false} TokenNameChars(s: string)
    ensures TokenName(s) <==> forall i :: 0 <= i < |s| ==> IsTokenChar(s[i])
    decreases |s|
  {
    if |s| > 0 {
      TokenNameChars(s[1..]);
      assert forall i :: 1 <= i < |s| ==> s[i] == s[1..][i - 1];
    }
  }

  /** `textproto.CanonicalMIMEHeaderKey` on ASCII: a name with a byte
      outside the token characters is returned unchanged. */
  function Canonical(s: string): string
  {
    if TokenName(s) then CanonicalFrom(s, true) else s
  }

  lemma {:induction false} CanonicalFromIdempotent(s: string, upper: bool)
    ensures CanonicalFrom(CanonicalFrom(s, upper), upper) == CanonicalFrom(s, upper)
    decreases |s|
  {
    if |s| > 0 {
      var r := CanonicalFrom(s, upper);
      assert r[1..] == CanonicalFrom(s[1..], s[0] == '-');
      CanonicalFromIdempotent(s[1..], s[0] == '-');
      assert (r[0] == '-') == (s[0] == '-');
    }
  }

  /** Canonicalising a canonical name changes nothing, so comparing
      canonical forms is an equivalence on names. */
  lemma CanonicalIdempotent(s: string)
    ensures Canonical(Canonical(s)) == Canonical(s)
  {
    TokenNameChars(s);
    if TokenName(s) {
      var r := CanonicalFrom(s, true);
      forall i | 0 <= i < |r|
        ensures IsTokenChar(r[i])
      {
        assert i == 0 || s[i - 1] == '-' ==> r[i] == Upper(s[i]);
        assert i > 0 && s[i - 1] != '-' ==> r[i] == Lower(s[i]);
      }
      TokenNameChars(r);
      CanonicalFromIdempotent(s, true);
    }
  }

  /** The header name the client sets for a body type, written in lower case. */
  lemma CanonicalContentType()
    ensures Canonical("content-type") == "Content-Type"
  {
    ContentTypeToken();
    CanonicalOfToken("content-type");
    ContentTypeSpelled();
  }

  lemma CanonicalOfToken(s: string)
    requires TokenName(s)
    ensures Canonical(s) == CanonicalFrom(s, true)
  {
  }

  lemma ContentTypeSpelled()
    ensures CanonicalFrom("content-type", true) == "Content-Type"
  {
    ContentTypeHead();
    ContentTypeMiddle();
    ContentTypeTail();
    var a, b := CanonicalFrom("content-type", true), "Content-Type";
    assert forall i :: 0 <= i < 12 ==> a[i] == b[i];
  }

  lemma ContentTypeToken()
    ensures TokenName("content-type")
  {
    var lower := "content-type";
    assert forall i :: 0 <= i < |lower| ==> IsTokenChar(lower[i]);
    TokenNameChars(lower);
  }

  lemma ContentTypeHead()
    ensures var a := CanonicalFrom("content-type", true);
      a[0] == 'C' && a[1] == 'o' && a[2] == 'n' && a[3] == 't' && a[4] == 'e' && a[5] == 'n'
  {
  }

  lemma ContentTypeMiddle()
    ensures var a := CanonicalFrom("content-type", true);
      a[6] == 't' && a[7] == '-' && a[8] == 'T'
  {
    var s := "content-type";
    assert s[5] == 'n' && s[6] == 't' && s[7] == '-' && s[8] == 't';
  }

  lemma ContentTypeTail()
    ensures var a := CanonicalFrom("content-type", true);
      a[9] == 'y' && a[10] == 'p' && a[11] == 'e'
  {
    var s := "content-type";
    assert s[8] == 't' && s[9] == 'y' && s[10] == 'p' && s[11] == 'e';
  }

  /** The `info` fields the builder methods touch. `P` is the progress
      reporter, `C` a cookie. The request body and proxy are not modelled. */
  datatype Info<P, C> = Info(
    headerKey: seq<string>, headerValue: seq<string>,
    cookies: seq<C>, progress: Option<P>,
    userName: string, passWord: string,
    clientTimeout: int, dialerKeepAlive: int)

  /** What every builder method keeps: one value per header key. */
  predicate Valid<P, C>(h: Info<P, C>)
  {
    |h.headerKey| == |h.headerValue|
  }

  /** A fresh builder: no headers, no cookies, zero settings. */
  function Empty<P, C>(): (r: Info<P, C>)
    ensures Valid(r)
  {
    Info([], [], [], None, "", "", 0, 0)
  }

  /** `Progress` (info.go:36-39). */
  function Progress<P, C>(h: Info<P, C>, p: Option<P>): (r: Info<P, C>)
    ensures r.progress == p
    ensures r.(progress := h.progress) == h
  {
    h.(progress := p)
  }

  /** `Timeout` (info.go:41-44), in nanoseconds. */
  function Timeout<P, C>(h: Info<P, C>, timeout: int): (r: Info<P, C>)
    ensures r.clientTimeout == timeout
    ensures r.(clientTimeout := h.clientTimeout) == h
  {
    h.(clientTimeout := timeout)
  }

  /** `KeepAlive` (info.go:52-55), in nanoseconds. */
  function KeepAlive<P, C>(h: Info<P, C>, keepAlive: int): (r: Info<P, C>)
    ensures r.dialerKeepAlive == keepAlive
    ensures r.(dialerKeepAlive := h.dialerKeepAlive) == h
  {
    h.(dialerKeepAlive := keepAlive)
  }

  /** `SetBasicAuth` (info.go:57-61). */
  function SetBasicAuth<P, C>(h: Info<P, C>, userName: string, passWord: string): (r: Info<P, C>)
    ensures r.userName == userName && r.passWord == passWord
    ensures r.(userName := h.userName, passWord := h.passWord) == h
  {
    h.(userName := userName, passWord := passWord)
  }

  /** `SetCookies` (info.go:92-95). */
  function SetCookies<P, C>(h: Info<P, C>, cookies: seq<C>): (r: Info<P, C>)
    ensures r.cookies == cookies
    ensures r.(cookies := h.cookies) == h
  {
    h.(cookies := cookies)
  }

  /** The setters touch disjoint fields: their order does not matter, and
      the last call of each wins. */
  lemma SettersCommute<P, C>(h: Info<P, C>, p: Option<P>, t1: int, t2: int, k: int, u: string, w: string)
    ensures Timeout(KeepAlive(h, k), t1) == KeepAlive(Timeout(h, t1), k)
    ensures Progress(SetBasicAuth(h, u, w), p) == SetBasicAuth(Progress(h, p), u, w)
    ensures Timeout(Timeout(h, t1), t2) == Timeout(h, t2)
    ensures Valid(h) ==> Valid(Timeout(KeepAlive(SetBasicAuth(Progress(h, p), u, w), k), t1))
  {
  }

  /** `SetHeaders` (info.go:63-71). `order` is the order in which Go's map
      iteration happened to visit the keys: each key exactly once. */
  method SetHeaders<P, C>(h: Info<P, C>, headers: map<string, string>, order: seq<string>) returns (r: Info<P, C>)
    requires forall k :: k in headers <==> k in order
    requires forall i, j :: 0 <= i < j < |order| ==> order[i] != order[j]
    ensures Valid(r) && |r.headerKey| == |order| == |headers|
    ensures forall i :: 0 <= i < |order| ==> r.headerKey[i] == Canonical(order[i]) && r.headerValue[i] == headers[order[i]]
    ensures forall k :: k in headers ==>
      exists i :: 0 <= i < |r.headerKey| && r.headerKey[i] == Canonical(k) && r.headerValue[i] == headers[k]
    ensures r.(headerKey := h.headerKey, headerValue := h.headerValue) == h
  {
    r := h.(headerKey := [], headerValue := []);
    var n := 0;
    while n < |order|
      invariant 0 <= n <= |order|
      invariant |r.headerKey| == n && |r.headerValue| == n
      invariant forall i :: 0 <= i < n ==> r.headerKey[i] == Canonical(order[i]) && r.headerValue[i] == headers[order[i]]
      invariant r.(headerKey := h.headerKey, headerValue := h.headerValue) == h
    {
      r := r.(headerKey := r.headerKey + [Canonical(order[n])], headerValue := r.headerValue + [headers[order[n]]]);
      n := n + 1;
    }
    OrderCard(headers, order);
    forall k | k in headers
      ensures exists i :: 0 <= i < |r.headerKey| && r.headerKey[i] == Canonical(k) && r.headerValue[i] == headers[k]
    {
      var i :| 0 <= i < |order| && order[i] == k;
      assert r.headerKey[i] == Canonical(k);
    }
  }

  /** Visiting every key of a map once takes as many steps as it has keys. */
  lemma OrderCard<K, V>(m: map<K, V>, order: seq<K>)
    requires forall k :: k in m <==> k in order
    requires forall i, j :: 0 <= i < j < |order| ==> order[i] != order[j]
    ensures |order| == |m|
  {
    assert forall k :: k in m.Keys <==> k in (set i | 0 <= i < |order| :: order[i]);
    assert m.Keys == set i | 0 <= i < |order| :: order[i];
    DistinctCard(order);
  }

  /** A list without repeats has as many distinct elements as entries. */
  lemma {:induction false} DistinctCard<T>(s: seq<T>)
    requires forall i, j :: 0 <= i < j < |s| ==> s[i] != s[j]
    ensures |set i | 0 <= i < |s| :: s[i]| == |s|
  {
    if |s| > 0 {
      var last := |s| - 1;
      DistinctCard(s[..last]);
      var front := set i | 0 <= i < last :: s[..last][i];
      assert (set i | 0 <= i < |s| :: s[i]) == front + {s[last]};
      assert s[last] !in front;
    }
  }

  /** `AddHeader` (info.go:73-77): both lists grow by one, with the
      canonical key. */
  function AddHeader<P, C>(h: Info<P, C>, key: string, value: string): (r: Info<P, C>)
    ensures |r.headerKey| == |h.headerKey| + 1 && |r.headerValue| == |h.headerValue| + 1
    ensures r.headerKey[..|h.headerKey|] == h.headerKey && r.headerValue[..|h.headerValue|] == h.headerValue
    ensures r.headerKey[|h.headerKey|] == Canonical(key) && r.headerValue[|h.headerValue|] == value
    ensures Valid(h) ==> Valid(r)
    ensures r.(headerKey := h.headerKey, headerValue := h.headerValue) == h
  {
    h.(headerKey := h.headerKey + [Canonical(key)], headerValue := h.headerValue + [value])
  }

  /** The first index of a key that names the same header as `key`. */
  function FindHeader(keys: seq<string>, key: string): (r: Option<nat>)
    ensures r.Some? ==> r.value < |keys| && Canonical(keys[r.value]) == Canonical(key)
    ensures r.Some? ==> forall j :: 0 <= j < r.value ==> Canonical(keys[j]) != Canonical(key)
    ensures r.None? ==> forall j :: 0 <= j < |keys| ==> Canonical(keys[j]) != Canonical(key)
  {
    FindFrom(keys, Canonical(key), 0)
  }

  /** The first index from `k` on whose key canonicalises to `target`. */
  function FindFrom(keys: seq<string>, target: string, k: nat): (r: Option<nat>)
    requires k <= |keys|
    ensures r.Some? ==> k <= r.value < |keys| && Canonical(keys[r.value]) == target
    ensures r.Some? ==> forall j :: k <= j < r.value ==> Canonical(keys[j]) != target
    ensures r.None? ==> forall j :: k <= j < |keys| ==> Canonical(keys[j]) != target
    decreases |keys| - k
  {
    if k == |keys| then None
    else if Canonical(keys[k]) == target then Some(k)
    else FindFrom(keys, target, k + 1)
  }

  /** `SetHeader` (info.go:79-90): the value of the first key that
      canonicalises like `key` is replaced; without one, the key is
      appended as given, not canonicalised. Writing a value past the end of
      `headerValue` would panic, which no `Valid` builder does. */
  function SetHeader<P, C>(h: Info<P, C>, key: string, value: string): (r: Outcome<Info<P, C>>)
    ensures Valid(h) ==> r.Returned? && Valid(r.value)
    ensures r.Returned? ==> r.value.(headerKey := h.headerKey, headerValue := h.headerValue) == h
    ensures FindHeader(h.headerKey, key).Some? ==>
      var i := FindHeader(h.headerKey, key).value;
      if i < |h.headerValue| then r == Returned(h.(headerValue := h.headerValue[i := value])) else r.Panicked?
    ensures FindHeader(h.headerKey, key).None? ==>
      r == Returned(h.(headerKey := h.headerKey + [key], headerValue := h.headerValue + [value]))
  {
    match FindHeader(h.headerKey, key)
    case Some(i) =>
      if i < |h.headerValue| then Returned(h.(headerValue := h.headerValue[i := value]))
      else Panicked("index out of range")
    case None => Returned(h.(headerKey := h.headerKey + [key], headerValue := h.headerValue + [value]))
  }

  /** The header a name stands for afterwards: setting it makes its first
      entry carry the new value. */
  lemma SetHeaderThenLookup<P, C>(h: Info<P, C>, key: string, value: string)
    requires Valid(h)
    ensures var r := SetHeader(h, key, value).value;
      FindHeader(r.headerKey, key).Some? && r.headerValue[FindHeader(r.headerKey, key).value] == value
  {
    var r := SetHeader(h, key, value).value;
    if FindHeader(h.headerKey, key).None? {
      assert r.headerKey[..|h.headerKey|] == h.headerKey;
      assert FindHeader(r.headerKey, key) == Some(|h.headerKey|) by {
        FindHeaderAppend(h.headerKey, key);
      }
    }
  }

  /** Appending a matching key to a list without one finds it at the end. */
  lemma {:induction false} FindHeaderAppend(keys: seq<string>, key: string)
    requires FindHeader(keys, key).None?
    ensures FindHeader(keys + [key], key) == Some(|keys|)
    decreases |keys|
  {
    if |keys| > 0 {
      assert (keys + [key])[1..] == keys[1..] + [key];
      FindHeaderAppend(keys[1..], key);
    }
  }

  /** `SetHeader` is idempotent. */
  lemma SetHeaderIdempotent<P, C>(h: Info<P, C>, key: string, value: string)
    requires Valid(h)
    ensures SetHeader(SetHeader(h, key, value).value, key, value) == SetHeader(h, key, value)
  {
    var r := SetHeader(h, key, value).value;
    if FindHeader(h.headerKey, key).None? {
      FindHeaderAppend(h.headerKey, key);
      assert r.headerKey == h.headerKey + [key];
      assert r.headerValue[|h.headerKey| := value] == r.headerValue;
    } else {
      var i := FindHeader(h.headerKey, key).value;
      assert r.headerKey == h.headerKey;
      assert r.headerValue[i := value] == r.headerValue;
    }
  }

  /** Setting a header right after adding it, when no earlier key names it,
      is the same as adding it with the new value. */
  lemma AddThenSetHeader<P, C>(h: Info<P, C>, key: string, v1: string, v2: string)
    requires Valid(h) && FindHeader(h.headerKey, key).None?
    ensures SetHeader(AddHeader(h, key, v1), key, v2) == Returned(AddHeader(h, key, v2))
  {
    CanonicalIdempotent(key);
    var a := AddHeader(h, key, v1);
    assert FindHeader(a.headerKey, key) == Some(|h.headerKey|) by {
      FindHeaderAppendCanonical(h.headerKey, key);
    }
    assert (h.headerValue + [v1])[|h.headerKey| := v2] == h.headerValue + [v2];
  }

  /** Appending the canonical form of a key to a list without a match finds it at the end. */
  lemma {:induction false} FindHeaderAppendCanonical(keys: seq<string>, key: string)
    requires FindHeader(keys, key).None?
    ensures FindHeader(keys + [Canonical(key)], key) == Some(|keys|)
    decreases |keys|
  {
    if |keys| > 0 {
      assert (keys + [Canonical(key)])[1..] == keys[1..] + [Canonical(key)];
      FindHeaderAppendCanonical(keys[1..], key);
    } else {
      CanonicalIdempotent(key);
    }
  }

  /** The first cookie whose `String()` equals `name`. */
  function FindCookie<C>(cookies: seq<C>, name: string, str: C -> string): (r: Option<nat>)
    ensures r.Some? ==> r.value < |cookies| && str(cookies[r.value]) == name
    ensures r.Some? ==> forall j :: 0 <= j < r.value ==> str(cookies[j]) != name
    ensures r.None? ==> forall j :: 0 <= j < |cookies| ==> str(cookies[j]) != name
  {
    if |cookies| == 0 then None
    else if str(cookies[0]) == name then Some(0)
    else match FindCookie(cookies[1..], name, str)
      case None => None
      case Some(i) => Some(i + 1)
  }

  /** `AddCookie` (info.go:97-106): replace the first cookie that prints
      the same, else append. */
  function AddCookie<P, C>(h: Info<P, C>, cookie: C, str: C -> string): (r: Info<P, C>)
    ensures |h.cookies| <= |r.cookies| <= |h.cookies| + 1
    ensures cookie in r.cookies
    ensures FindCookie(h.cookies, str(cookie), str).None? ==> r.cookies == h.cookies + [cookie]
    ensures FindCookie(h.cookies, str(cookie), str).Some? ==>
      r.cookies == h.cookies[FindCookie(h.cookies, str(cookie), str).value := cookie]
    ensures r.(cookies := h.cookies) == h
  {
    match FindCookie(h.cookies, str(cookie), str)
    case Some(i) =>
      var r := h.(cookies := h.cookies[i := cookie]);
      assert r.cookies[i] == cookie;
      r
    case None => h.(cookies := h.cookies + [cookie])
  }

  /** No two cookies print the same. */
  predicate Distinct<C>(cookies: seq<C>, str: C -> string)
  {
    forall i, j :: 0 <= i < j < |cookies| ==> str(cookies[i]) != str(cookies[j])
  }

  /** `AddCookie` keeps the list free of duplicates, and adding the same
      cookie again changes nothing. */
  lemma AddCookieDistinct<P, C>(h: Info<P, C>, cookie: C, str: C -> string)
    requires Distinct(h.cookies, str)
    ensures Distinct(AddCookie(h, cookie, str).cookies, str)
    ensures AddCookie(AddCookie(h, cookie, str), cookie, str) == AddCookie(h, cookie, str)
  {
    var r := AddCookie(h, cookie, str);
    var found := FindCookie(h.cookies, str(cookie), str);
    if found.None? {
      assert r.cookies[|h.cookies|] == cookie;
      assert FindCookie(r.cookies, str(cookie), str) == Some(|h.cookies|);
    } else {
      assert FindCookie(r.cookies, str(cookie), str) == found;
    }
  }
}

=== FILE: session.dfy ===
/** The connection lifecycle of the websocket client
    (socket/websocket/client/client.go): `Connect` filling in defaults,
    dialing, reading until an error, the heartbeat ticker, and the teardown
    and `reconnecting` that follow. The transport is reduced to the events it
    delivers (dial result, read result, ticker tick), and every callback the
    client makes becomes an action, in order. */
module Session {

  import opened Outcomes
  import opened Bytes
  import Frame

  /** `time.Second` in nanoseconds, the unit of `time.Duration`. */
  const Second: int := 1_000_000_000

  /** The `Client` fields `Connect` reads. `protocol` and `heartBeat` are
      `Nil` until defaulted; `Builtin` is the default protocol or heartbeat. */
  datatype Config = Config(
    scheme: string, host: string, path: string,
    autoHeartBeat: bool, reconnect: bool,
    handshakeTimeout: int, writeBufferSize: int, readBufferSize: int,
    heartBeatInterval: int, heartBeatTimeout: int, reconnectInterval: int,
    onOpen: Hook, onClose: Hook, onError: Hook, onSuccess: Hook,
    protocol: Hook, heartBeat: Hook, pingHandler: Hook, pongHandler: Hook)

  /** The checks and defaults at the top of `Connect` (client.go:110-184):
      an empty path becomes "/", a missing host or `OnOpen`/`OnClose`/`OnError`
      panics (checked in that order), and zero fields get their defaults. */
  function Configure(c: Config): (r: Outcome<Config>)
    ensures r.Panicked? <==> c.host == "" || c.onOpen == Nil || c.onClose == Nil || c.onError == Nil
    ensures c.host == "" ==> r == Panicked("Host must set")
    ensures c.host != "" && c.onOpen == Nil ==> r == Panicked("OnOpen must set")
    ensures c.host != "" && c.onOpen != Nil && c.onClose == Nil ==> r == Panicked("OnClose must set")
    ensures c.host != "" && c.onOpen != Nil && c.onClose != Nil && c.onError == Nil ==> r == Panicked("OnError must set")
    ensures r.Returned? ==> Configured(r.value)
    ensures r.Returned? ==> r.value.path == (if c.path == "" then "/" else c.path)
    ensures r.Returned? ==> r.value.handshakeTimeout == (if c.handshakeTimeout == 0 then 2 * Second else c.handshakeTimeout)
    ensures r.Returned? ==> r.value.writeBufferSize == (if c.writeBufferSize == 0 then 1024 else c.writeBufferSize)
    ensures r.Returned? ==> r.value.readBufferSize == (if c.readBufferSize == 0 then 1024 else c.readBufferSize)
    ensures r.Returned? ==> r.value.heartBeatInterval == (if c.heartBeatInterval == 0 then 15 * Second else c.heartBeatInterval)
    ensures r.Returned? ==> r.value.heartBeatTimeout == (if c.heartBeatTimeout == 0 then 30 * Second else c.heartBeatTimeout)
    ensures r.Returned? ==> r.value.reconnectInterval == (if c.reconnectInterval == 0 then Second else c.reconnectInterval)
    ensures r.Returned? ==> (
      r.value.scheme == c.scheme && r.value.host == c.host
      && r.value.autoHeartBeat == c.autoHeartBeat && r.value.reconnect == c.reconnect
      && r.value.onOpen == c.onOpen && r.value.onClose == c.onClose
      && r.value.onError == c.onError && r.value.onSuccess == c.onSuccess)
    ensures r.Returned? ==> (
      (c.protocol != Nil ==> r.value.protocol == c.protocol)
      && (c.heartBeat != Nil ==> r.value.heartBeat == c.heartBeat)
      && (c.pingHandler != Nil ==> r.value.pingHandler == c.pingHandler)
      && (c.pongHandler != Nil ==> r.value.pongHandler == c.pongHandler))
    ensures r.Returned? ==> (
      (c.protocol == Nil ==> r.value.protocol == Builtin)
      && (c.heartBeat == Nil ==> r.value.heartBeat == Builtin)
      && (c.pingHandler == Nil ==> r.value.pingHandler == Builtin)
      && (c.pongHandler == Nil ==> r.value.pongHandler == Builtin))
  {
    var c := c.(path := OrString(c.path, "/"));
    if c.host == "" then Panicked("Host must set")
    else if c.onOpen == Nil then Panicked("OnOpen must set")
    else if c.onClose == Nil then Panicked("OnClose must set")
    else if c.onError == Nil then Panicked("OnError must set")
    else
      Returned(c.(
        handshakeTimeout := OrInt(c.handshakeTimeout, 2 * Second),
        writeBufferSize := OrInt(c.writeBufferSize, 1024),
        readBufferSize := OrInt(c.readBufferSize, 1024),
        heartBeatInterval := OrInt(c.heartBeatInterval, 15 * Second),
        heartBeatTimeout := OrInt(c.heartBeatTimeout, 30 * Second),
        reconnectInterval := OrInt(c.reconnectInterval, Second),
        protocol := OrHook(c.protocol),
        heartBeat := OrHook(c.heartBeat),
        pingHandler := OrHook(c.pingHandler),
        pongHandler := OrHook(c.pongHandler)))
  }

  /** A configuration `Connect` accepts and leaves as it is. */
  predicate Configured(c: Config)
  {
    c.host != "" && c.path != "" && c.onOpen != Nil && c.onClose != Nil && c.onError != Nil
    && c.handshakeTimeout != 0 && c.writeBufferSize != 0 && c.readBufferSize != 0
    && c.heartBeatInterval != 0 && c.heartBeatTimeout != 0 && c.reconnectInterval != 0
    && c.protocol != Nil && c.heartBeat != Nil && c.pingHandler != Nil && c.pongHandler != Nil
  }

  /** A reconnect runs `Connect` again on the configured client: nothing changes. */
  lemma ConfigureStable(c: Config)
    requires Configured(c)
    ensures Configure(c) == Returned(c)
  {
  }

  /** The address `Connect` dials (client.go:193). */
  function DialUrl(c: Config): string
  {
    c.scheme + "://" + c.host + c.path
  }

  /** After `Connect` fills in its defaults, the client dials the scheme,
      the host and the path, "/" when none was given. */
  lemma DialUrlConfigured(c: Config)
    requires Configure(c).Returned?
    ensures DialUrl(Configure(c).value) == c.scheme + "://" + c.host + (if c.path == "" then "/" else c.path)
  {
  }

  /** The frame the default heartbeat pushes: the protocol's encoding of a
      ping with id 0 and no route or body. */
  function HeartBeatFrame(encode: (byte, i64, seq<byte>, seq<byte>) -> seq<byte>): seq<byte>
  {
    encode(Frame.PingKind, 0, [], [])
  }

  /** With the binary frame codec, the default heartbeat is the fixed ping
      frame, which the peer decodes as a ping. */
  lemma HeartBeatIsPing()
    ensures HeartBeatFrame(Frame.Encode) == Frame.PingMessage
    ensures Frame.DecodeAsWritten(HeartBeatFrame(Frame.Encode)).Returned?
    ensures Frame.DecodeAsWritten(HeartBeatFrame(Frame.Encode)).value.kind == Frame.PingKind
  {
    Frame.ControlFrames(0, [], []);
    Frame.DecodeAsWrittenAgrees(Frame.PingMessage);
  }

  /** Where the client is: dialing, reading (with the heartbeat ticker
      running or not), or finished for good. */
  datatype Phase = Dialing | Reading(beating: bool) | Finished

  /** What the transport and the ticker deliver. `Received` carries what
      `decodeMessage` returned for the message read. */
  datatype Input =
    | DialOk
    | DialFailed(err: string)
    | Received(decodeErr: Error)
    | ReadFailed
    | Tick(heartBeatErr: Error)

  /** Calls the client makes, in order. */
  datatype Action =
    | ReportError(err: string)
    | CallOnSuccess
    | CallOnOpen
    | StopTicker
    | SendHeartBeat
    | CloseConn
    | CallOnClose
    | Sleep(duration: int)
    | Redial

  /** `reconnecting` (client.go:100-105): sleep, then `Connect` again, only
      when `Reconnect` is set. */
  function Reconnecting(c: Config): (r: (Phase, seq<Action>))
    ensures Redial in r.1 <==> c.reconnect
    ensures r.0 == (if c.reconnect then Dialing else Finished)
    ensures c.reconnect ==> r.1[0] == Sleep(c.reconnectInterval)
  {
    if c.reconnect then (Dialing, [Sleep(c.reconnectInterval), Redial]) else (Finished, [])
  }

  /** The end of `Connect` once the read loop is left (client.go:251-258). */
  function Teardown(c: Config): (Phase, seq<Action>)
  {
    var (p, rest) := Reconnecting(c);
    (p, [StopTicker, CloseConn, CallOnClose] + rest)
  }

  /** One event of a configured client's life. */
  function Step(c: Config, p: Phase, i: Input): (r: (Phase, seq<Action>))
    ensures p == Finished ==> r == (Finished, [])
    ensures CallOnOpen in r.1 <==> p == Dialing && i == DialOk
    ensures Redial in r.1 ==> c.reconnect && r.0 == Dialing
    ensures SendHeartBeat in r.1 ==> p == Reading(true)
    ensures r.0 == Reading(true) ==> p == Reading(true) || c.autoHeartBeat
  {
    match (p, i)
    case (Dialing, DialFailed(err)) =>
      var (q, rest) := Reconnecting(c);
      (q, [ReportError(err)] + rest)
    case (Dialing, DialOk) =>
      (Reading(c.autoHeartBeat),
       (if c.onSuccess != Nil then [CallOnSuccess] else []) + [CallOnOpen]
       + (if c.autoHeartBeat then [] else [StopTicker]))
    case (Reading(_), Received(None)) => (p, [])
    case (Reading(_), Received(Some(err))) =>
      var (q, rest) := Teardown(c);
      (q, [ReportError(err)] + rest)
    case (Reading(_), ReadFailed) => Teardown(c)
    case (Reading(true), Tick(None)) => (p, [SendHeartBeat])
    case (Reading(true), Tick(Some(err))) => (Reading(false), [SendHeartBeat, ReportError(err), CloseConn])
    case _ => (p, [])
  }

  /** Leaving the read loop always stops the ticker, closes, calls `OnClose`,
      and then dials again exactly when `Reconnect` is set; a decode error is
      reported first. */
  lemma ReadLoopExit(c: Config, beating: bool, err: Error)
    ensures Step(c, Reading(beating), ReadFailed).1
      == [StopTicker, CloseConn, CallOnClose] + (if c.reconnect then [Sleep(c.reconnectInterval), Redial] else [])
    ensures err.Some? ==> (
      Step(c, Reading(beating), Received(err)).1
      == [ReportError(err.value)] + Step(c, Reading(beating), ReadFailed).1)
    ensures Step(c, Reading(beating), ReadFailed).0 == (if c.reconnect then Dialing else Finished)
  {
  }

  /** A dial failure is reported, then followed by a new dial exactly when
      `Reconnect` is set. */
  lemma DialFailure(c: Config, err: string)
    ensures Step(c, Dialing, DialFailed(err)).1[0] == ReportError(err)
    ensures Redial in Step(c, Dialing, DialFailed(err)).1 <==> c.reconnect
  {
  }

  /** A failed heartbeat is reported, the connection closed and the ticker
      loop left: no further heartbeat goes out on this connection. */
  lemma HeartBeatFailure(c: Config, err: string, more: Error)
    ensures Step(c, Reading(true), Tick(Some(err))) == (Reading(false), [SendHeartBeat, ReportError(err), CloseConn])
    ensures Step(c, Reading(false), Tick(more)).1 == []
  {
  }

  /** A sequence of events from the start of `Connect`. */
  function Run(c: Config, p: Phase, inputs: seq<Input>): (r: seq<Action>)
    ensures p == Finished ==> r == []
    decreases |inputs|
  {
    if |inputs| == 0 then []
    else
      var (q, acts) := Step(c, p, inputs[0]);
      acts + Run(c, q, inputs[1..])
  }

  /** The ticker only beats when `AutoHeartBeat` is set. */
  predicate BeatsOnlyIfAuto(c: Config, p: Phase)
  {
    p.Reading? && p.beating ==> c.autoHeartBeat
  }

  /** Without `AutoHeartBeat`, no run ever sends a heartbeat. */
  lemma {:induction false} NoHeartBeatWithoutAuto(c: Config, p: Phase, inputs: seq<Input>)
    requires !c.autoHeartBeat && BeatsOnlyIfAuto(c, p)
    ensures SendHeartBeat !in Run(c, p, inputs)
    decreases |inputs|
  {
    if |inputs| > 0 {
      var (q, acts) := Step(c, p, inputs[0]);
      assert SendHeartBeat !in acts;
      assert BeatsOnlyIfAuto(c, q);
      NoHeartBeatWithoutAuto(c, q, inputs[1..]);
    }
  }

  /** Without `Reconnect`, a run never dials a second time. */
  lemma {:induction false} NoRedialWithoutReconnect(c: Config, p: Phase, inputs: seq<Input>)
    requires !c.reconnect
    ensures Redial !in Run(c, p, inputs)
    decreases |inputs|
  {
    if |inputs| > 0 {
      var (q, acts) := Step(c, p, inputs[0]);
      assert Redial !in acts;
      NoRedialWithoutReconnect(c, q, inputs[1..]);
    }
  }
}

=== FILE: stream.dfy ===
/** Request helpers of stream.go: route parameters (`Params.ByName`), parsed
    query values (`Query.Get`, `value.Int`, `value.String`) and the client
    address `Stream.IP` picks from the request headers. */
module Stream {

  import opened Outcomes
  import opened Decimal
  import opened Strings

  /** Route parameters: names and values side by side, as the router fills them. */
  datatype Params = Params(keys: seq<string>, values: seq<string>)

  /** `i` is the first position of `name` among `keys`. */
  predicate FirstAt(keys: seq<string>, name: string, i: nat)
  {
    i < |keys| && keys[i] == name && forall j :: 0 <= j < i ==> keys[j] != name
  }

  /** A name has at most one first position. */
  lemma FirstAtUnique(keys: seq<string>, name: string, i: nat, k: nat)
    requires FirstAt(keys, name, i) && FirstAt(keys, name, k)
    ensures i == k
  {
  }

  /** `ByName` (stream.go:29-36): the value of the first key equal to
      `name`, or "" when there is none. Indexing `Values` with a position
      past its end panics. */
  method ByName(p: Params, name: string) returns (r: Outcome<string>)
    ensures (forall j :: 0 <= j < |p.keys| ==> p.keys[j] != name) ==> r == Returned("")
    ensures forall i: nat :: FirstAt(p.keys, name, i) ==>
      r == (if i < |p.values| then Returned(p.values[i]) else Panicked("index out of range"))
  {
    var i := 0;
    while i < |p.keys|
      invariant 0 <= i <= |p.keys|
      invariant forall j :: 0 <= j < i ==> p.keys[j] != name
    {
      if p.keys[i] == name {
        r := if i < |p.values| then Returned(p.values[i]) else Panicked("index out of range");
        forall k | FirstAt(p.keys, name, k)
          ensures k == i
        {
          FirstAtUnique(p.keys, name, i, k);
        }
        return;
      }
      i := i + 1;
    }
    return Returned("");
  }

  /** A parsed query: one string per parameter name. */
  datatype Query = Query(params: map<string, string>)

  /** The `*value` `Get` returns: never nil, possibly empty. */
  datatype Value = Value(v: string)

  /** `Query.Get` (stream.go:188-198). */
  function Get(q: Query, key: string): (r: Value)
    ensures key in q.params ==> r.v == q.params[key]
    ensures key !in q.params ==> r.v == ""
  {
    if key in q.params then Value(q.params[key]) else Value("")
  }

  /** `value.Int` (stream.go:46-53): the number `strconv.Atoi` reads, or 0
      when it refuses the text. */
  function Int(v: Value): (r: int)
    ensures Atoi(v.v).Some? ==> r == Atoi(v.v).value
    ensures Atoi(v.v).None? ==> r == 0
    ensures MIN_INT <= r <= MAX_INT
  {
    match Atoi(v.v)
    case Some(n) => n
    case None => 0
  }

  /** `value.String` (stream.go:55-57). */
  function String(v: Value): string
  {
    v.v
  }

  /** A query value written with `%d` reads back as the same integer, and
      a missing parameter reads as 0 and as "". */
  lemma GetInt(q: Query, key: string, n: int)
    requires MIN_INT <= n <= MAX_INT
    ensures q.params == map[key := FormatInt(n)] ==> Int(Get(q, key)) == n
    ensures key !in q.params ==> Int(Get(q, key)) == 0 && String(Get(q, key)) == ""
  {
    AtoiFormatInt(n);
  }

  /** Go's `net.SplitHostPort`: "host:port", or "[host]:port" for hosts
      with colons. The error cases are those of the library: no port, a
      missing ']', too many colons, stray brackets. */
  function SplitHostPort(hostport: string): (r: Result<(string, string)>)
  {
    match LastIndexOf(hostport, ':')
    case None => Err("missing port in address")
    case Some(i) =>
      var bracketed: Result<(string, nat, nat)> :=
        if hostport[0] == '[' then
          match IndexOf(hostport, ']')
          case None => Err("missing ']' in address")
          case Some(end) =>
            if end + 1 == |hostport| then Err("missing port in address")
            else if end + 1 != i then
              (if hostport[end + 1] == ':' then Err("too many colons in address") else Err("missing port in address"))
            else Ok((hostport[1..end], 1, end + 1))
        else
          var host := hostport[..i];
          if IndexOf(host, ':').Some? then Err("too many colons in address") else Ok((host, 0, 0));
      match bracketed
      case Err(e) => Err(e)
      case Ok((host, j, k)) =>
        if IndexOf(hostport[j..], '[').Some? then Err("unexpected '[' in address")
        else if IndexOf(hostport[k..], ']').Some? then Err("unexpected ']' in address")
        else Ok((host, hostport[i + 1..]))
  }

  /** The characters a plain host or port may not contain. */
  predicate Plain(s: string)
  {
    forall j :: 0 <= j < |s| ==> s[j] != ':' && s[j] != '[' && s[j] != ']'
  }

  /** Splitting undoes joining with a colon, and a bracketed host comes
      back without its brackets. */
  lemma SplitHostPortJoin(host: string, port: string)
    requires Plain(host) && Plain(port)
    ensures SplitHostPort(host + ":" + port) == Ok((host, port))
  {
    var s := host + ":" + port;
    assert s[|host|] == ':';
    forall j | |host| < j < |s|
      ensures s[j] != ':'
    {
      var k := j - |host| - 1;
      assert s[j] == port[k];
    }
    LastIndexOfAt(s, ':', |host|);
    assert s[..|host|] == host;
    assert s[|host| + 1..] == port;
    if |host| > 0 {
      assert s[0] == host[0];
    } else {
      assert s[0] == ':';
    }
    assert forall j :: 0 <= j < |s| ==> s[j] != '[' && s[j] != ']';
    assert s[0..] == s;
  }

  /** The characters a bracketed host may not contain. */
  predicate Unbracketed(s: string)
  {
    forall j :: 0 <= j < |s| ==> s[j] != '[' && s[j] != ']'
  }

  /** A host in brackets may hold colons: splitting "[host]:port" gives the
      host back without its brackets. */
  lemma SplitHostPortJoinBracketed(host: string, port: string)
    requires Unbracketed(host) && Plain(port)
    ensures SplitHostPort("[" + host + "]:" + port) == Ok((host, port))
  {
    var s := "[" + host + "]:" + port;
    BracketedPositions(host, port);
    BracketedPieces(host, port);
    assert s[0] == '[';
  }

  /** Where the closing bracket and the last colon of "[host]:port" are. */
  lemma BracketedPositions(host: string, port: string)
    requires Unbracketed(host) && Plain(port)
    ensures LastIndexOf("[" + host + "]:" + port, ':') == Some(|host| + 2)
    ensures IndexOf("[" + host + "]:" + port, ']') == Some(|host| + 1)
  {
    BracketedColon(host, port);
    BracketedClose(host, port);
  }

  /** The last colon of "[host]:port" is the one after the bracket. */
  lemma BracketedColon(host: string, port: string)
    requires Plain(port)
    ensures LastIndexOf("[" + host + "]:" + port, ':') == Some(|host| + 2)
  {
    var b := "[" + host + "]:";
    var s := b + port;
    assert |b| == |host| + 3;
    assert s[|host| + 2] == ':';
    forall j | |b| <= j < |s|
      ensures s[j] != ':'
    {
      var k := j - |b|;
      assert s[j] == port[k];
    }
    LastIndexOfAt(s, ':', |host| + 2);
  }

  /** The first closing bracket of "[host]:port" is the one after the host. */
  lemma BracketedClose(host: string, port: string)
    requires Unbracketed(host)
    ensures IndexOf("[" + host + "]:" + port, ']') == Some(|host| + 1)
  {
    var a := "[" + host;
    var s := a + "]:" + port;
    assert |a| == |host| + 1;
    assert s[|host| + 1] == ']';
    forall j | 0 <= j < |a|
      ensures s[j] != ']'
    {
      assert s[j] == a[j];
    }
    IndexOfAt(s, ']', |host| + 1);
  }

  /** The pieces of "[host]:port" the split returns and inspects. */
  lemma BracketedPieces(host: string, port: string)
    requires Unbracketed(host) && Plain(port)
    ensures var s := "[" + host + "]:" + port;
      && s[1..|host| + 1] == host && s[|host| + 3..] == port
      && IndexOf(s[1..], '[') == None && IndexOf(s[|host| + 2..], ']') == None
  {
    var s := "[" + host + "]:" + port;
    assert s[1..] == host + "]:" + port;
    assert s[1..|host| + 1] == host;
    assert s[|host| + 2..] == ":" + port;
    assert s[|host| + 3..] == port;
  }

  /** The loopback address in brackets splits to "::1". */
  lemma SplitHostPortIPv6Loopback()
    ensures SplitHostPort("[::1]:8080") == Ok(("::1", "8080"))
  {
    SplitHostPortJoinBracketed("::1", "8080");
    assert "[" + "::1" + "]:" + "8080" == "[::1]:8080";
  }

  /** The headers `IP` consults. */
  const XRealIP: string := "X-Real-Ip"
  const XForwardedFor: string := "X-Forwarded-For"

  /** `Stream.IP` (stream.go:82-99): a non-empty X-Real-IP header verbatim,
      else a non-empty X-Forwarded-For verbatim, else the host part of the
      peer address ("" when it does not split); finally "::1" reads as
      "127.0.0.1". `realIp` and `forwardedFor` are the header values, ""
      when absent. */
  function IP(realIp: string, forwardedFor: string, remoteAddr: string): (r: string)
    ensures r != "::1"
    ensures realIp != "" && realIp != "::1" ==> r == realIp
    ensures realIp == "" && forwardedFor != "" && forwardedFor != "::1" ==> r == forwardedFor
    ensures realIp == "" && forwardedFor == "" && SplitHostPort(remoteAddr).Err? ==> r == ""
    ensures (realIp == "" && forwardedFor == "" && SplitHostPort(remoteAddr).Ok?
             && SplitHostPort(remoteAddr).value.0 != "::1") ==> r == SplitHostPort(remoteAddr).value.0
    ensures realIp == "::1" ==> r == "127.0.0.1"
    ensures realIp == "" && forwardedFor == "::1" ==> r == "127.0.0.1"
    ensures (realIp == "" && forwardedFor == "" && SplitHostPort(remoteAddr).Ok?
             && SplitHostPort(remoteAddr).value.0 == "::1") ==> r == "127.0.0.1"
  {
    var chosen :=
      if realIp != "" then realIp
      else if forwardedFor != "" then forwardedFor
      else match SplitHostPort(remoteAddr)
        case Ok((host, _)) => host
        case Err(_) => "";
    if chosen == "::1" then "127.0.0.1" else chosen
  }

  /** A local IPv6 peer is reported as the IPv4 loopback address, whatever
      its port. */
  lemma IPOfIPv6Loopback(port: string)
    requires Plain(port)
    ensures IP("", "", "[::1]:" + port) == "127.0.0.1"
  {
    SplitHostPortJoinBracketed("::1", port);
    assert "[" + "::1" + "]:" + port == "[::1]:" + port;
  }

  /** Without the proxy headers, a peer "host:port" is reported as its host,
      unless that host is "::1". */
  lemma IPOfPeer(host: string, port: string)
    requires Plain(host) && Plain(port)
    ensures IP("", "", host + ":" + port) == host
  {
    SplitHostPortJoin(host, port);
  }

}

=== FILE: strings.dfy ===
/** The parts of Go's `strings` package the model relies on: ASCII case
    mapping (`strings.ToLower`, and the letters `textproto` canonicalises),
    searching for a byte, `strings.Contains` and `strings.Split`. Non-ASCII
    case mapping is not modelled. */
module Strings {

  import opened Outcomes

  predicate IsUpper(c: char)
  {
    'A' <= c <= 'Z'
  }

  predicate IsLower(c: char)
  {
    'a' <= c <= 'z'
  }

  function Lower(c: char): (r: char)
    ensures !IsUpper(r)
    ensures IsUpper(c) ==> r as int == c as int + 32
    ensures !IsUpper(c) ==> r == c
  {
    if IsUpper(c) then (c as int + 32) as char else c
  }

  function Upper(c: char): (r: char)
    ensures !IsLower(r)
    ensures IsLower(c) ==> r as int == c as int - 32
    ensures !IsLower(c) ==> r == c
  {
    if IsLower(c) then (c as int - 32) as char else c
  }

  /** `strings.ToLower` on ASCII text: same length, every letter lowered. */
  function ToLower(s: string): (r: string)
    ensures |r| == |s|
    ensures forall i :: 0 <= i < |s| ==> r[i] == Lower(s[i])
  {
    if |s| == 0 then [] else [Lower(s[0])] + ToLower(s[1..])
  }

  /** Equality up to ASCII case, letter by letter. */
  predicate EqualFold(a: string, b: string)
  {
    |a| == |b| && forall i :: 0 <= i < |a| ==> Lower(a[i]) == Lower(b[i])
  }

  /** Lowering both sides and comparing is letter-by-letter caseless equality. */
  lemma ToLowerEqualFold(a: string, b: string)
    ensures ToLower(a) == ToLower(b) <==> EqualFold(a, b)
  {
    if EqualFold(a, b) {
      assert forall i :: 0 <= i < |a| ==> ToLower(a)[i] == ToLower(b)[i];
    }
  }

  /** The first position of `c` in `s`, if any. */
  function IndexOf(s: string, c: char): (r: Option<nat>)
    ensures r.Some? ==> r.value < |s| && s[r.value] == c && forall j :: 0 <= j < r.value ==> s[j] != c
    ensures r.None? ==> forall j :: 0 <= j < |s| ==> s[j] != c
  {
    if |s| == 0 then None
    else if s[0] == c then Some(0)
    else match IndexOf(s[1..], c)
      case None => None
      case Some(k) => Some(k + 1)
  }

  /** The last position of `c` in `s`, if any. */
  function LastIndexOf(s: string, c: char): (r: Option<nat>)
    ensures r.Some? ==> r.value < |s| && s[r.value] == c && forall j :: r.value < j < |s| ==> s[j] != c
    ensures r.None? ==> forall j :: 0 <= j < |s| ==> s[j] != c
  {
    if |s| == 0 then None
    else if s[|s| - 1] == c then Some(|s| - 1)
    else LastIndexOf(s[..|s| - 1], c)
  }

  /** The first occurrence is the one `IndexOf` finds. */
  lemma IndexOfAt(s: string, c: char, k: nat)
    requires k < |s| && s[k] == c
    requires forall j :: 0 <= j < k ==> s[j] != c
    ensures IndexOf(s, c) == Some(k)
  {
  }

  /** The last occurrence is the one `LastIndexOf` finds. */
  lemma LastIndexOfAt(s: string, c: char, k: nat)
    requires k < |s| && s[k] == c
    requires forall j :: k < j < |s| ==> s[j] != c
    ensures LastIndexOf(s, c) == Some(k)
  {
  }

  /** `sub` occurs in `s` starting at position `i`. */
  predicate OccursAt(s: string, sub: string, i: nat)
  {
    i + |sub| <= |s| && s[i..i + |sub|] == sub
  }

  /** `strings.Contains`: `sub` occurs in `s` at some position. */
  function Contains(s: string, sub: string): (r: bool)
    ensures r <==> exists i: nat :: OccursAt(s, sub, i)
    decreases |s|
  {
    if |sub| > |s| then false
    else if s[..|sub|] == sub then assert OccursAt(s, sub, 0); true
    else
      var r := Contains(s[1..], sub);
      assert forall i: nat :: OccursAt(s, sub, i + 1) <==> OccursAt(s[1..], sub, i) by {
        forall i: nat
          ensures OccursAt(s, sub, i + 1) <==> OccursAt(s[1..], sub, i)
        {
          if i + 1 + |sub| <= |s| {
            var a, b := s[i + 1..i + 1 + |sub|], s[1..][i..i + |sub|];
            assert forall k :: 0 <= k < |sub| ==> a[k] == b[k];
            assert a == b;
          }
        }
      }
      assert !OccursAt(s, sub, 0);
      assert (exists i: nat :: OccursAt(s, sub, i)) ==> exists i: nat :: OccursAt(s[1..], sub, i) by {
        if exists i: nat :: OccursAt(s, sub, i) {
          var i: nat :| OccursAt(s, sub, i);
          assert i > 0;
          assert OccursAt(s[1..], sub, i - 1);
        }
      }
      r
  }

  /** `strings.Split` on a one-character separator: the pieces between
      separators, never an empty list. */
  function Split(s: string, sep: char): (r: seq<string>)
    ensures |r| >= 1
    ensures forall k :: 0 <= k < |r| ==> sep !in r[k]
    decreases |s|
  {
    match IndexOf(s, sep)
    case None => [s]
    case Some(i) => [s[..i]] + Split(s[i + 1..], sep)
  }

  /** Joining pieces free of the separator and splitting again gives them back. */
  lemma SplitJoin(head: string, sep: char, tail: string)
    requires sep !in head
    ensures Split(head + [sep] + tail, sep) == [head] + Split(tail, sep)
  {
    var s := head + [sep] + tail;
    assert s[|head|] == sep;
    assert forall j :: 0 <= j < |head| ==> s[j] == head[j];
    assert IndexOf(s, sep) == Some(|head|);
    assert s[..|head|] == head && s[|head| + 1..] == tail;
  }

  /** `strings.Join` with a one-character separator. */
  function Join(parts: seq<string>, sep: char): (r: string)
    requires |parts| >= 1
    decreases |parts|
  {
    if |parts| == 1 then parts[0] else parts[0] + [sep] + Join(parts[1..], sep)
  }

  /** Splitting and joining again gives back the text. */
  lemma {:induction false} JoinSplit(s: string, sep: char)
    ensures Join(Split(s, sep), sep) == s
    decreases |s|
  {
    match IndexOf(s, sep)
    case None =>
    case Some(i) =>
      var rest := Split(s[i + 1..], sep);
      assert Split(s, sep) == [s[..i]] + rest;
      assert ([s[..i]] + rest)[1..] == rest;
      assert Join(Split(s, sep), sep) == s[..i] + [sep] + Join(rest, sep);
      JoinSplit(s[i + 1..], sep);
      assert s == s[..i] + [sep] + s[i + 1..];
  }

  /** Splitting what was joined gives back the pieces, when none holds the separator. */
  lemma {:induction false} SplitJoinAll(parts: seq<string>, sep: char)
    requires |parts| >= 1 && forall k :: 0 <= k < |parts| ==> sep !in parts[k]
    ensures Split(Join(parts, sep), sep) == parts
    decreases |parts|
  {
    if |parts| == 1 {
      assert IndexOf(parts[0], sep).None?;
    } else {
      SplitJoinAll(parts[1..], sep);
      SplitJoin(parts[0], sep, Join(parts[1..], sep));
      assert parts == [parts[0]] + parts[1..];
    }
  }

  /** A text occurs where it is spliced in. */
  lemma OccursInConcat(a: string, sub: string, b: string)
    ensures OccursAt(a + sub + b, sub, |a|) && Contains(a + sub + b, sub)
  {
    var s, i: nat := a + sub + b, |a|;
    assert s[i..i + |sub|] == sub;
    assert OccursAt(s, sub, i);
    assert Contains(s, sub);
  }

  /** An occurrence matches character by character. */
  lemma OccursAtChars(s: string, sub: string, i: nat)
    requires OccursAt(s, sub, i)
    ensures forall k :: 0 <= k < |sub| ==> s[i + k] == sub[k]
  {
    forall k | 0 <= k < |sub|
      ensures s[i + k] == sub[k]
    {
      assert s[i..i + |sub|][k] == s[i + k];
    }
  }

  /** Every character of a contained text is a character of the container. */
  lemma ContainsChar(s: string, sub: string, c: char)
    requires Contains(s, sub) && c in sub
    ensures c in s
  {
    var i: nat :| OccursAt(s, sub, i);
    OccursAtChars(s, sub, i);
    var k :| 0 <= k < |sub| && sub[k] == c;
    assert s[i + k] == c;
  }

  /** Some character of `sub` disagrees with `s` when `sub` is laid at position `i`. */
  predicate Differs(s: string, sub: string, i: nat)
  {
    exists k :: 0 <= k < |sub| && i + k < |s| && s[i + k] != sub[k]
  }

  /** A text that disagrees with `s` at every position is not contained in it. */
  lemma Absent(s: string, sub: string)
    requires forall i: nat :: i + |sub| <= |s| ==> Differs(s, sub, i)
    ensures !Contains(s, sub)
  {
    forall i: nat | OccursAt(s, sub, i)
      ensures false
    {
      assert Differs(s, sub, i);
      OccursAtChars(s, sub, i);
    }
  }
}
